=== FILE: README.md ===
# ChessEngine rules and search core, modelled in Dafny

This project models the rules and search core of the ChessEngine program:
- the 8×8 board, its squares and pieces, and the occupancy link between them (`Board`, `Square`, `Piece`);
- the move generators for every piece type, including the en passant probe;
- making and undoing a ply on the move-history stack;
- check analysis: `findKing`, `getOpponents`, `isPlayerInCheck`, `wouldExposeKing`, `checkForCheckmate` and `generateAllPossibleMoves`;
- the static evaluation, the alpha-beta `minimax` with capture-first ordering, and the engine's move choice `makeBestMove`;
- the turn controller that turns mouse presses into selections, moves and captures;
- the `InputEncoder` bit-packing codec.

It then proves properties of that model.

The modules follow the source:

| module | file | models |
|---|---|---|
| `Wrappers` | wrappers.dfy | `Option` |
| `Arena` | arena.dfy | Squares and pieces as an arena. A `Position` maps each square `(x, y)` to an optional piece index and holds the piece list, where each piece records an optional square. Also the square/piece mutators as functions on positions. |
| `BoardModel` | board.dfy | The `Board` class (board, square and piece state updated in place), `Board::init`, `squareAt`, the pixel-to-square `selectSquare` |
| `MoveGen` | movegen.dfy | The pawn, sliding, stepping and en passant generators |
| `Check` | check.dfy | `findKing`, `getOpponents`, `isPlayerInCheck`, `generateAllPossibleMoves` |
| `Ply` | ply.dfy | `makeMove` / `undoMove` |
| `Evaluation` | eval.dfy | `getPieceValue`, `evaluateBoard` |
| `Search` | search.dfy | Move ordering, the alpha-beta reference and the unpruned minimax reference, and how the two relate |
| `Root` | root.dfy | `makeBestMove`'s scan, tie set and choice; `checkForCheckmate`'s "every move exposes the king" test |
| `Capture` | capture.dfy | The capture target and the record `capturePiece` builds |
| `Turn` | turn.dfy | The records `movePiece` and `capturePiece` push, when each is refused, and the position, history and side to move each outcome leaves |
| `EngineModel` | engine.dfy | The `Engine` class: history stack, side to move, selection and highlighted squares, with every engine operation as a method |
| `InputCodec` | input.dfy | `InputObject`, `InputEncoder::encode`/`decode`, `to_string` |

Notes on how the model reads the code:
- **Where the source behaves surprisingly, the model follows the code:**
  - `wouldExposeKing` tests the side to move, not the mover's colour.
  - `isEnPassant` answers with the square of the pawn that just moved two rows (beside the capturing pawn), not the landing square. `capturePiece` then lands one row further on.
  - The pawn advancement term is added for both colours without a sign. It counts rows from the top for White, whose pawns start on row 6 and advance toward row 0, so a White pawn's term falls as it advances. A Black pawn's term, which grows as it advances, counts in White's favour.
  - Piece index 28 is the white king and 29 the black king: `findKing` reads those slots.
  - `makeBestMove` scores each Black move with `minimax(3, …, false)`, a minimising call that generates Black's moves. So the lookahead has Black move twice in a row (`LookaheadRepeatsMover`), and the scan keeps the highest of these White-positive scores.
- **`Board::placePiece` as shown neither appends the new piece to the piece list nor sets its square.** `findKing` only works if the pieces are appended in placement order. So `PlacePiece` appends the piece and links it both ways. Kings 28 and 29 then follow from the order in `Board::init`.
- **The build modelled is the one without the debug panel.** Rules and move generation are on, the engine plays Black, and animation is a no-op.
- **`squareAt` and `Board::selectSquare` have no bounds check in the source.** `selectSquare` indexes the squares directly with the pixel divided by 100. The model returns an `Option` from both: `SquareAt` and `PixelToSquare` give no square off the board, where the source would read out of range. The generators only ask for squares on the board.
- **`std::sort` is not stable.** The model orders moves with an insertion sort on the same key, one of the orders `std::sort` may produce. The proofs are about that order. The unpruned search value is a maximum or minimum over the moves and so does not depend on their order, but this is not proved for other orders.
- **`makeBestMove` draws a random index into the tie set.** The model chooses nondeterministically from the set, and proves the chosen move is a best one.

## Model

| member | source | states |
|---|---|---|
| BoardModel.SquareAt | src/board.cc:75-77 | `squareAt` yields a square exactly for coordinates on the 8×8 board. The square it yields is the one at those coordinates. |
| BoardModel.PixelToSquare | src/board.cc:69-73 | A pixel inside the 800×800 window maps to square (px/100, py/100). Because C++ division truncates, pixels in (-100, 0) also land on file or rank 0. A pixel further out has no square. |
| BoardModel.Pawns | src/board.cc:34-37 | The pawn loop over n files places 2n pawns. |
| BoardModel.StartPieces | src/board.cc:34-63 | The starting piece list has 32 pieces. |
| BoardModel.PawnAt | src/board.cc:34-37 | Piece 2x is the unmoved black pawn on (x, 1). Piece 2x+1 is the unmoved white pawn on (x, 6). |
| BoardModel.BackRankPlacedAt | src/board.cc:39-63 | After the back-rank placements, a square on rank 0 or 7 holds the piece the placement table puts there. Every other square keeps its occupant. |
| BoardModel.BackRankOccupancy | src/board.cc:34-63 | Starting from the pawn layout, the back-rank placements give every square of the board its starting occupant. They add no square off the board. |
| BoardModel.BackRankPiece | src/board.cc:39-63 | Each of pieces 16-31 stands on a board square whose starting occupant is that same piece. |
| BoardModel.StartPawns | src/board.cc:34-37 | The first 16 starting pieces are the pawns, in the loop's order. |
| BoardModel.StartPieceAt | src/board.cc:34-63 | Every starting piece stands on a board square whose starting occupant is that piece. |
| BoardModel.StartSquareAt | src/board.cc:34-63 | Every occupied starting square names a piece that stands on it. |
| BoardModel.StartLinked | src/board.cc:16-65 | In the starting position the square→piece and piece→square links agree both ways. |
| BoardModel.Board.constructor | include/board.h:18 | A default board has no squares, no pieces and no selection. |
| BoardModel.Board.Init | src/board.cc:16-65 | `init` builds the starting position, with nothing selected: the 64 squares coloured by parity and the 32 pieces on their starting squares, with the square and piece links agreeing. |
| BoardModel.Board.InitSquares | src/board.cc:19-31 | The grid holds exactly the 64 squares of [0,8)², all empty. Each is coloured white when x+y is even and black otherwise. |
| BoardModel.Board.InitRow | src/board.cc:20-30 | One pass of the outer loop adds the eight squares (i, 0..7), empty and coloured by parity. Squares already built keep their occupant and colour. |
| BoardModel.Board.PlacePawns | src/board.cc:34-37 | On an empty grid, the pawn loop puts black pawns on rank 1 and white pawns on rank 6. Ranks 0 and 2-7 stay empty, and colours and selection are untouched. |
| BoardModel.Board.PlaceBackRank | src/board.cc:39-63 | The 16 back-rank pieces are appended in the source's order (bishops, rooks, knights, kings, queens) and their squares name them. This puts the white king at index 28 and the black king at 29. |
| BoardModel.Board.PlaceBishops | src/board.cc:38-43 | The four bishops are appended and linked with c8, f8, c1 and f1 (squares (2,0), (5,0), (2,7), (5,7)). |
| BoardModel.Board.PlaceRooks | src/board.cc:44-49 | The four rooks are appended and linked with their corner squares. |
| BoardModel.Board.PlaceKnights | src/board.cc:50-55 | The four knights are appended and linked with (1,7), (6,7), (1,0) and (6,0). |
| BoardModel.Board.PlaceRoyals | src/board.cc:56-63 | The kings go to (4,7) white and (4,0) black, the queens to (3,7) and (3,0), appended in that order. |
| BoardModel.Board.PlacePiece | src/board.cc:11-14 | A fresh, unmoved piece of the given type and colour is appended and linked with (x, y) both ways. A piece already on (x, y) loses its square. |
| BoardModel.Board.SetOccupier | src/square.cc:20-25 | The square's previous occupier, if any, loses its square. The square then holds the new piece. The piece count and the set of squares are unchanged. |
| BoardModel.Board.Clear | src/square.cc:29-34 | The square ends empty and its former occupier has no square. |
| BoardModel.Board.Select | src/square.cc:40 | The square becomes selected; nothing else changes. |
| BoardModel.Board.DeSelect | src/square.cc:42 | The square stops being selected; nothing else changes. |
| BoardModel.Board.DeOccupy | src/piece.cc:32 | The piece forgets its square; no square changes. |
| BoardModel.Board.SetSquare | src/piece.cc:49 | Only the piece's square reference changes; no square's occupier does. |
| BoardModel.Board.SetFirstMove | src/piece.cc:55-57 | Afterwards `isFirstMove` holds. The flag means "has moved". |
| BoardModel.Board.IsFirstMove | src/piece.cc:55 | `isFirstMove` reads the piece's has-moved flag; `SetFirstMove` states that it holds afterwards. |
| BoardModel.Board.GetSquareColor | src/square.cc:36 | `getSquareColor` reads the colour `init` gave the square; `InitSquares` states that colour by parity. |
| BoardModel.Board.IsOccupied | src/square.cc:16-19 | A square is occupied iff it names a piece. |
| BoardModel.Board.MoveTo | src/piece.cc:34-47 | A previous occupier of the target loses its square and the target is cleared. Then the target holds the piece and the piece records the target. The call returns true. |
| Arena.DeOccupy | src/piece.cc:32 | `deOccupy` drops the piece's square and touches no square. |
| Arena.SetSquare | src/piece.cc:49 | `setSquare` records a square in the piece and touches no square. |
| Arena.SetOccupier | src/square.cc:20-25 | `setOccupier` deOccupies the previous occupier and names the new piece; `SetOccupierSpec` states the result. |
| Arena.ClearSquare | src/square.cc:29-34 | `clear` deOccupies the occupier and empties the square; `ClearSquareSpec` states the result. |
| Arena.MoveTo | src/piece.cc:34-47 | `moveTo` clears an occupied target, occupies it and records it in the piece; `MoveToSpec` states the result. |
| Arena.ClearSquareSpec | src/square.cc:29-34 | After `clear`, the square is empty and its former occupier has no square. Every other square and piece is unchanged, so a second `clear` changes nothing. |
| Arena.SetOccupierSpec | src/square.cc:20-25 | After `setOccupier(p)`, the square holds p and the previous occupier has no square. p's own square reference is untouched, unless p was that previous occupier. |
| Arena.MoveToSpec | src/piece.cc:34-47 | After `moveTo`, the target holds the piece and the piece records the target. A previous occupier of the target loses its square. The square the piece came from still names it: `moveTo` does not clear it. |
| MoveGen.Ray | src/engine.cc:399-424 | One direction of `generateUsingCoords`: every square is on the board and holds no piece of the mover's colour. |
| MoveGen.RayShape | src/engine.cc:399-424 | Each square of a ray is the next step from the previous one, and only the last may be occupied. The ray ends only at the edge, before an own piece, or on the first enemy piece. |
| MoveGen.Slide | src/engine.cc:389-428 | Every rook, bishop and queen destination is on the board and holds no piece of the mover's colour. |
| MoveGen.Steps | src/engine.cc:463-483 | There is at most one destination per offset, so king and knight get at most 8. Each destination is on the board and not own-coloured. |
| MoveGen.StepsSpec | src/engine.cc:463-514 | A square is a king or knight destination iff it lies one of the piece's offsets away, is on the board, and holds no own piece. |
| MoveGen.EnPassantSquare | src/engine.cc:351-387 | `isEnPassant` answers only when all of these hold: the pawn is on rank 3 (white) or 4 (black), a square beside it is occupied, the history is non-empty, and the last move was a pawn moving exactly two ranks to a square directly beside it. The answer is that square; the occupied neighbour may be the other one. |
| MoveGen.EnPassantNeighbour | src/engine.cc:362-364 | `isEnPassant` answers only for a pawn with an occupied square beside it. |
| MoveGen.EnPassantComplete | src/engine.cc:351-387 | Conversely, `isEnPassant` finds the square whenever the pawn is on rank 3 (white) or 4 (black), a square beside it is occupied, and the last move was a pawn moving exactly two ranks to the square directly beside it. |
| MoveGen.Forward | src/engine.cc:309 | White pawns advance towards rank 0 (step -1), black pawns towards rank 7 (step +1). |
| MoveGen.PawnPushes | src/engine.cc:312-329 | Forward pawn moves land on empty board squares. |
| MoveGen.PawnCapture | src/engine.cc:331-342 | A diagonal pawn move lands on a board square holding a piece of the other colour. |
| MoveGen.PawnMoves | src/engine.cc:304-349 | Every pawn destination is on the board. |
| MoveGen.PawnMovesSpec | src/engine.cc:304-349 | A square is a pawn destination iff it is one of these: the empty square ahead; the double step, for an unmoved pawn with both squares empty; a diagonal square holding an enemy piece; or the en passant square. |
| MoveGen.PossibleMoves | src/engine.cc:292-302 | The dispatch on piece type. Every destination is on the board, and no non-pawn destination holds an own piece. The queen's moves are the bishop's rays followed by the rook's. |
| MoveGen.NotOwnSquare | src/engine.cc:292-514 | No generator offers the square the piece stands on. |
| MoveGen.WalkRay | src/engine.cc:399-424 | The while-loop along one direction collects exactly that direction's ray. |
| MoveGen.GenerateUsingCoords | src/engine.cc:389-428 | The loop over directions and steps builds exactly the rays, in order. |
| MoveGen.GenerateMovesForPiece | src/engine.cc:463-483 | The offset loop builds exactly the stepping destinations, in order. |
| MoveGen.GeneratePawnMoves | src/engine.cc:304-349 | The pawn generator returns exactly the characterised pawn destinations, in the source's order. |
| MoveGen.GeneratePossibleMoves | src/engine.cc:292-302 | The per-type generator returns exactly the characterised destinations. |
| Check.FindKing | src/engine.cc:639-644 | `findKing` reads slot 28 for White and 29 for Black; `FindKingStart` shows those slots hold the kings. |
| Check.Opponents | src/engine.cc:646-654 | The opponent list; `OpponentsUpToSpec` characterises it. |
| Check.FindKingStart | src/engine.cc:639-644 | In the starting list, slot 28 is the white king and slot 29 the black king. |
| Check.OpponentsUpToSpec | src/engine.cc:646-654 | `getOpponents(c)` lists exactly the pieces of the other colour that have a square, in list order. |
| Check.GetOpponents | src/engine.cc:646-654 | The loop returns exactly that list. |
| Check.LinkedPlaced | src/engine.cc:648-650 | In a linked position a piece with a square stands on a board square that names it. |
| Check.AnyReachesSpec | src/engine.cc:664-670 | The opponent scan succeeds iff some listed opponent has the king's square among its generated moves. |
| Check.OpponentsPlaced | src/engine.cc:646-654 | Every listed opponent stands on the board. |
| Check.InCheck | src/engine.cc:656-671 | The side's king has a square that some piece of another colour on the board can move to. |
| Check.InCheckByOpponents | src/engine.cc:656-671 | `isPlayerInCheck(c)` holds iff c's king has a square and some opposite-colour piece with a square generates that square. |
| Check.CheckFound | src/engine.cc:656-671 | When the side is in check, there is an opponent whose moves include the king's square. |
| Check.IsPlayerInCheck | src/engine.cc:656-671 | The loop's answer is exactly "in check". |
| Check.MoveFor | src/engine.cc:708-719 | No move targets a king-occupied square. A move is a capture, naming the target's occupier as opponent, iff the target is occupied. It is never marked en passant or a first move. |
| Check.MovesFromSpec | src/engine.cc:708-720 | One piece's moves are exactly its destinations, apart from those holding a king, each with the record above. |
| Check.AllMovesUpToSpec | src/engine.cc:704-722 | Over the first n pieces, a move is produced iff its piece is among them and the move is generated for colour c. |
| Check.AllMoves | src/engine.cc:701-724 | The move list `generateAllPossibleMoves` returns; `AllMovesSpec` characterises it. |
| Check.AllMovesSpec | src/engine.cc:701-724 | `generateAllPossibleMoves(c)` yields a move iff it comes from a piece of colour c that has a square. The move goes to one of that piece's destinations that does not hold a king. |
| Check.GenerateAllMoves | src/engine.cc:701-724 | The nested loop returns exactly the characterised move list. |
| Ply.Pushed | src/engine.cc:786-790 | The pushed record's first-move flag is set iff the piece had not moved before. Nothing else in the record changes. |
| Ply.Make | src/engine.cc:784-804 | `makeMove` neither adds nor removes pieces. |
| Ply.MakeOccupier | src/engine.cc:797-803 | After `makeMove` the source square is empty, the target holds the mover, and every other square is as before. |
| Ply.MakePieces | src/engine.cc:784-804 | After `makeMove` the mover records the target and is marked moved, and a captured piece has no square. Every other piece is unchanged. |
| Ply.MakeLinked | src/engine.cc:784-804 | `makeMove` keeps the square and piece links in agreement. |
| Ply.Undo | src/engine.cc:806-825 | `undoMove`'s steps on the board: the target is cleared, a captured piece is put back, and the mover returns to its source square. `MakeUndo` shows it reverses `Make`. |
| Ply.UndoOccupier | src/engine.cc:806-825 | `undoMove` after `makeMove` restores every square's occupier. |
| Ply.UndoPieces | src/engine.cc:806-825 | `undoMove` after `makeMove` restores every piece: its square (the captured piece's too) and its moved flag. |
| Ply.MakeUndo | src/engine.cc:784-825 | `makeMove` followed by `undoMove` is the identity on positions. |
| Ply.ManualPly | src/engine.cc:209-215 | The ply `movePiece` makes by hand: the start square cleared, the piece placed on the target and marked as moved, the target occupied by it. |
| Ply.ManualPlyIsMake | src/engine.cc:209-215 | Onto an empty square, `movePiece`'s hand-made ply gives the same position as `makeMove`. |
| Ply.GeneratedFits | src/engine.cc:701-724 | Every generated move starts on its piece's square, goes to a different board square, and names the target's occupier as opponent. |
| Ply.MakeKeepsPieces | src/engine.cc:784-804 | `makeMove` changes no piece's type or colour. |
| Evaluation.PieceValue | src/engine.cc:726-736 | Every value lies between 100 and 20000, and only the king is worth 20000. |
| Evaluation.PieceValueOrder | src/engine.cc:726-736 | The values order pawn < knight < bishop < rook < queen < king. |
| Evaluation.CenterDistance | src/engine.cc:757 | The truncated float distance \|3.5-file\| + \|3.5-rank\| equals exactly half of \|7-2·file\| + \|7-2·rank\|, and on the board it lies in 1..7. |
| Evaluation.EvaluateBoard | src/engine.cc:738-766 | The accumulator loop computes the sum of the per-piece scores. |
| Evaluation.PieceScore | src/engine.cc:742-761 | One piece's contribution: nothing off the board. Otherwise its material and a knight's or bishop's development bonus, each added for White and subtracted for Black. A pawn also adds `(White ? rank : 7 - rank) * 10` for either colour, never subtracted. |
| Evaluation.Eval | src/engine.cc:738-766 | The sum of the piece contributions over the piece list; `EvaluateBoard` computes it. |
| Evaluation.PieceScoreBound | src/engine.cc:742-761 | A piece on the board moves the score by at most its value plus 70, in either direction. |
| Evaluation.EvalUpToBound | src/engine.cc:738-766 | After n pieces, the running score is bounded by their total weight. |
| Evaluation.EvalBound | src/engine.cc:738-766 | In a linked position, \|evaluateBoard\| is at most the total weight of the pieces. |
| Evaluation.MaterialSameKinds | src/engine.cc:742-761 | The weight bound depends only on the piece types. |
| Evaluation.PawnsMaterial | src/board.cc:34-37 | The pawns weigh 340 each. |
| Evaluation.MaterialAppend | src/board.cc:11-14 | Appending a piece adds its weight. |
| Evaluation.MaterialPrefix | src/engine.cc:741 | The weight of a prefix does not depend on what follows it. |
| Evaluation.StartMaterial | src/board.cc:34-63 | The starting pieces weigh 50240 in total. So from the start, every evaluation stays inside the search window of ±100000. |
| Search.CaptureKey | src/engine.cc:836-842 | The sort key ranks a capture of a known piece at its value (at least 100) and a non-capture at -1. |
| Search.SortedCons | src/engine.cc:836-842 | Putting a move with a key at least the head's in front keeps the list ordered. |
| Search.Insert | src/engine.cc:836-842 | Inserting adds exactly the one move, which ends up at the head or behind the old head. |
| Search.InsertSorted | src/engine.cc:836-842 | Inserting into a list ordered by key keeps it ordered. |
| Search.SortMoves | src/engine.cc:836-842 | The sorted moves are ordered by key and are a permutation of the generated moves. |
| Search.CapturesFirst | src/engine.cc:836-842 | After sorting, every capture comes before every non-capture. |
| Search.ChildOk | src/engine.cc:850-852 | Making a generated move keeps the position searchable and keeps the material weight. |
| Search.SearchMovesPlayable | src/engine.cc:832-843 | Every move in the ordered list fits the position. |
| Search.AllMovesPlayable | src/engine.cc:701-724 | Every generated move fits the position. A generated capture names a real opponent. |
| Search.MaxLoop | src/engine.cc:844-858 | The maximising loop never returns less than its running maximum. |
| Search.MaxLoopStep | src/engine.cc:846-856 | One iteration over a playable move: skipped when it exposes the king, else the child's value raises maxEval and alpha and may cut off. |
| Search.MinLoopStep | src/engine.cc:861-871 | The same iteration in the minimising loop, lowering minEval and beta. |
| Search.MinLoop | src/engine.cc:859-874 | The minimising loop never returns more than its running minimum. |
| Search.MaxAll | src/engine.cc:845 | Unpruned, the maximiser's value is at least -100000. |
| Search.MinAll | src/engine.cc:860 | Unpruned, the minimiser's value is at most 100000. |
| Search.MaxStep | src/engine.cc:854-856 | One step of the max loop preserves agreement with unpruned minimax. |
| Search.MinStep | src/engine.cc:869-871 | One step of the min loop preserves agreement with unpruned minimax. |
| Search.Exposes | src/engine.cc:673-678 | `wouldExposeKing`'s answer: after making the move on the position and pushing its record, the given side is in check. |
| Search.AlphaBeta | src/engine.cc:827-875 | `minimax`'s value: the evaluation at depth 0, otherwise the pruned loop over the side's ordered moves; `AlphaBetaAgrees` relates it to the unpruned value. |
| Search.AlphaBetaAgrees | src/engine.cc:827-875 | For any window inside ±100000, the pruned value agrees with the unpruned value. At or below alpha, both are at or below alpha; at or above beta, both are at or above beta; strictly between, they are equal. |
| Search.MaxLoopAgrees | src/engine.cc:844-858 | The pruned maximising loop agrees with the unpruned maximum over the same moves. |
| Search.MinLoopAgrees | src/engine.cc:859-874 | The pruned minimising loop agrees with the unpruned minimum over the same moves. |
| Search.MinimaxInWindow | src/engine.cc:827-875 | When the material weight is at most 100000, the unpruned value lies in [-100000, 100000]. |
| Search.MaxAllInWindow | src/engine.cc:844-858 | The same bound for the unpruned maximum. |
| Search.MinAllInWindow | src/engine.cc:859-874 | The same bound for the unpruned minimum. |
| Search.AlphaBetaInWindow | src/engine.cc:827-875 | The pruned value also stays in [-100000, 100000]. |
| Search.MaxLoopInWindow | src/engine.cc:844-858 | The same bound for the pruned max loop. |
| Search.MinLoopInWindow | src/engine.cc:859-874 | The same bound for the pruned min loop. |
| Search.FullWindow | src/engine.cc:888 | From the full window (-100000, 100000), alpha-beta returns exactly the unpruned minimax value over the same filtered, ordered moves. |
| Search.FullWindowFromStart | src/engine.cc:888 | The same holds for any position carrying the starting pieces. |
| Search.SearchLeaf | src/engine.cc:828-830 | At depth 0 the search returns `evaluateBoard()`, whatever the window and the side. |
| Root.AllExposedMember | src/engine.cc:687-691 | When every move is rejected, each one fits and exposes the king. |
| Root.AllExposedStep | src/engine.cc:687-691 | The "all rejected" scan extends by one rejected move. |
| Root.NotAllExposed | src/engine.cc:688-689 | One move that does not expose the king ends the scan with "not checkmate". |
| Root.Checkmated | src/engine.cc:680-693 | `checkForCheckmate` declares mate exactly when the side is in check and every one of its generated moves exposes its king. |
| Root.AllExposedSpec | src/engine.cc:687-693 | The checkmate scan succeeds iff every generated move exposes the king. |
| Root.CaptureBonus | src/engine.cc:891-893 | A capture of a known piece earns at least 100. A non-capture earns nothing. |
| Root.ScanStep | src/engine.cc:897-904 | One step of the root scan. A better move restarts the tie set with itself, an equal move joins it, and a worse or rejected move changes nothing. |
| Root.RootValue | src/engine.cc:887-893 | A Black move's score in `makeBestMove`: the minimising three-ply search of the position after the move, plus the capture bonus. |
| Root.BestValue | src/engine.cc:880-905 | `bestMoveValue` after the scan: -100000, raised only by a strictly greater value of a move that does not expose the king. |
| Root.Ties | src/engine.cc:897-904 | The `moves` vector after the scan: `TiesSpec` characterises it. |
| Root.LookaheadRepeatsMover | src/engine.cc:832-833 | After a root move, `minimax(3, …, false)` (line 888) loops over Black's moves only, so Black moves twice in a row. |
| Root.BestValueBound | src/engine.cc:883-905 | The best value is at least -100000 and at least the value of every counted move. |
| Root.BestValueAttained | src/engine.cc:883-905 | A best value above -100000 is the value of some counted move. |
| Root.TiesSpec | src/engine.cc:897-904 | A move is in the tie set for v iff it is a counted move whose value is v. |
| Root.TiesAbove | src/engine.cc:897-904 | No counted move is valued above the best value. |
| Root.TieIsBest | src/engine.cc:907-931 | Any move in the tie set is counted and valued at least as highly as every counted move. |
| Root.TiesEmptyOnlyWithoutMoves | src/engine.cc:877-907 | If some black move does not expose the king, the tie set is not empty. |
| Root.ChooseMove | src/engine.cc:907-931 | The chosen move is in the tie set. If the tie set holds a capture, the choice is a capture of the highest-valued piece. |
| Root.RelinkSame | src/engine.cc:942-948 | Clearing the mover's square and linking the mover back to it leaves the position exactly as it was. |
| Capture.CaptureTarget | src/engine.cc:226-242 | An ordinary capture lands on the clicked square. An en passant capture lands one rank further ahead on the captured pawn's file: a board square diagonally ahead of the capturer. |
| Capture.CaptureRecord | src/engine.cc:243-247 | The record the capture pushes: the capturer, the piece on the clicked square as opponent, from the capturer's square to the landing square, marked en passant exactly when the click was on `isEnPassant`'s square. |
| Capture.ClearForCapture | src/engine.cc:243-249 | Clearing the captured piece's square keeps the position searchable with the capture record pushed. The victim has no square afterwards. The capturer, the king and the landing square are untouched. |
| EngineModel.NewBoard | src/engine.cc:88-91 | A fresh board is built and initialised to the starting position. |
| Turn.Passed | src/engine.cc:114-129 | The position, history and side to move after `switchPlayers` from a given state. A mate of the next side resets to the starting board with White to move. Against the engine, White's hand-over plays one of Black's tied best moves, or nothing when there is none. |
| Turn.ManualOutcome | src/engine.cc:183-218 | What `movePiece` leaves on a highlighted empty target: a refusal that changes nothing, or the ply made, its record pushed and the turn passed. |
| Turn.CaptureOutcome | src/engine.cc:220-252 | What the corrected capture leaves on a highlighted target: a refusal that changes nothing, or the victim cleared, the capture record pushed, the capturer moved and the turn passed. |
| Turn.ManualRecord | src/engine.cc:191-196 | The record `movePiece` builds: the piece, no opponent, from its square to the target, a normal move. |
| Turn.ManualExposes | src/engine.cc:197-198 | `movePiece`'s refusal test: the record, made on the position, leaves the side to move in check. |
| Turn.CaptureRefused | src/engine.cc:243-250 | The corrected capture is refused exactly when the capturer is not a king and its move, made after the victim's square is cleared and the capture record pushed, exposes the side to move. |
| Turn.Destinations | src/engine.cc:143-158 | The squares `selectSquare` highlights when the piece on an occupied square is selected: the destinations generated for that piece. |
| Turn.Dispatched | src/engine.cc:254-273 | `processMove`'s outcome. The selected square deselects. An own piece takes over the selection and its destinations. A target outside the highlighted set deselects. An empty selected square leaves the selection as it was. In all four cases the board, position, history and side to move stay as they were. A highlighted empty target has `movePiece`'s outcome, a highlighted enemy piece the corrected capture's. |
| Turn.ManualPlayable | src/engine.cc:188-196 | The record `movePiece` builds fits the position. |
| Turn.AfterManual | src/engine.cc:205-215 | A ply onto an empty square keeps the position searchable and the side's king on the board. |
| EngineModel.Engine.constructor | src/engine.cc:85-97 | A new game: the starting board, an empty history, White to move, nothing selected and nothing highlighted, against the engine. |
| EngineModel.Engine.MakeMove | src/engine.cc:784-804 | The board becomes the position after the ply, and the history grows by exactly the pushed record. |
| EngineModel.Engine.UndoMove | src/engine.cc:806-825 | The top record is popped and its ply is reversed on the board. |
| EngineModel.Engine.MakeThenUndo | src/engine.cc:784-825 | Making then undoing a generated move leaves board and history exactly as before. |
| EngineModel.Engine.WouldExposeKing | src/engine.cc:673-678 | The answer is whether the side to move is in check after the move. Board and history are left exactly as before. |
| EngineModel.Engine.GenerateAllPossibleMoves | src/engine.cc:701-724 | Returns exactly the characterised move list and clears the highlighted squares. |
| EngineModel.Engine.Minimax | src/engine.cc:827-875 | The value is the alpha-beta value of the position (at depth 0, the evaluation). Board and history are unchanged on return. |
| EngineModel.Engine.SearchAfter | src/engine.cc:850-852 | Make, recurse, undo: the value of the child position, with board and history restored. |
| EngineModel.Engine.MaxVisit | src/engine.cc:846-857 | One iteration of the maximising loop: it skips an exposing move or searches the child, raises alpha, and stops on a cutoff. |
| EngineModel.Engine.MaxSearch | src/engine.cc:844-858 | The maximising loop returns the pruned loop value and restores the board. |
| EngineModel.Engine.MinVisit | src/engine.cc:861-872 | One iteration of the minimising loop: it lowers beta and stops on a cutoff. |
| EngineModel.Engine.MinSearch | src/engine.cc:859-874 | The minimising loop returns the pruned loop value and restores the board. |
| EngineModel.Engine.RootMoveValue | src/engine.cc:884-895 | A root move's value is the depth-3 minimising search after it plus the capture bonus. Board and history are restored. |
| EngineModel.Engine.ScanRoot | src/engine.cc:883-905 | The scan returns the best value and exactly the moves that attain it, in scan order. |
| EngineModel.Engine.PlayChosen | src/engine.cc:942-949 | Relinking the mover and making the chosen move gives exactly the ply's position and pushes its record. |
| EngineModel.Engine.MakeBestMove | src/engine.cc:877-950 | If the tie set is empty, nothing is played. Otherwise the move played is in the tie set and is a best move, is the top capture when the tie set holds a capture, and is made on the board and history. |
| EngineModel.Engine.ResetEngine | src/engine.cc:106-112 | A fresh starting board and White to move. |
| EngineModel.Engine.AllExpose | src/engine.cc:687-691 | The loop answers "every move exposes the king", leaving board and history unchanged. |
| EngineModel.Engine.MateScan | src/engine.cc:681-691 | The answer is "in check and every generated move exposes the king", with board and history unchanged. |
| EngineModel.Engine.CheckForCheckmate | src/engine.cc:680-695 | Checkmate (in check and every move exposes the king) resets the game. Otherwise board and side are unchanged. |
| EngineModel.Engine.DeselectSquare | src/engine.cc:131-137 | Nothing is selected or highlighted afterwards, and the previously selected square is no longer marked. |
| EngineModel.Engine.CopyMoves | src/engine.cc:139-141 | The highlighted set becomes the old set plus the given squares. |
| EngineModel.Engine.SelectSquare | src/engine.cc:143-158 | A square holding a piece of the side to move becomes selected, and its piece's destinations are added to the highlighted set. Any other square changes nothing. |
| EngineModel.Engine.SwitchSelection | src/engine.cc:160-170 | The selection moves to the new square, and the highlighted set becomes that piece's destinations. |
| EngineModel.Engine.IsLegalMove | src/engine.cc:172-181 | A target is legal iff it is highlighted. |
| EngineModel.Engine.SwitchPlayers | src/engine.cc:114-129 | The king's square is deselected and the turn passes. If the new side is mated, the game resets. When White hands over against the engine, Black plays a best move (or nothing), and White is to move again. The history only grows. |
| EngineModel.Engine.PlayManual | src/engine.cc:206-215 | The hand-made ply onto an empty square gives the `makeMove` position. A king's source square is deselected. |
| EngineModel.Engine.RefuseManual | src/engine.cc:197-203 | A refused move clears the selection and highlights and marks the king's square. |
| EngineModel.Engine.PassTurn | src/engine.cc:114-129 | The turn change as a move relies on it (`Passed`). If the other side is then checkmated, a fresh starting board replaces the board, the history is kept and White moves. In a two-player game, or after Black, board and history stay and the other side moves. When White hands over against the engine, White moves next. If Black has a best move, the board shows that move made and its record is pushed. If it has none, nothing changes. The history only grows. |
| EngineModel.Engine.PlayAndPass | src/engine.cc:205-217 | After the ply, selection and highlights are cleared. The position after the ply then passes the turn as `Passed` states. The history keeps its old prefix. |
| EngineModel.Engine.TryManual | src/engine.cc:188-217 | `ManualOutcome`: a non-king move that exposes the king is refused, with board, history and side unchanged. Otherwise the record is pushed, the board shows the ply, and the turn passes as `Passed` states. |
| EngineModel.Engine.PushAndPlay | src/engine.cc:205-217 | Once the safety test has passed, the record is pushed, the board shows the ply and the turn passes: the played half of `ManualOutcome`. |
| EngineModel.Engine.MovePiece | src/engine.cc:183-218 | An unhighlighted target only deselects. On a highlighted target the outcome is `ManualOutcome`: an exposing move is refused, and otherwise exactly one record is pushed and the ply made before the turn passes. |
| EngineModel.Engine.PrepareCapture | src/engine.cc:225-242 | En passant is detected exactly as the probe defines it. Its landing square is computed and added to the highlighted set. |
| EngineModel.Engine.PushAndClear | src/engine.cc:243-249 | The capture record is pushed, and the captured piece's square is cleared. |
| EngineModel.Engine.CapturePiece | src/engine.cc:220-252 | As written: an unhighlighted target only deselects. A refused capture keeps the victim off the board and leaves the capture record on the stack, with the same side to move. A played capture pushes two records. |
| EngineModel.Engine.CaptureThenMove | src/engine.cc:243-251 | `capturePiece` as written on a highlighted target. A refused capture leaves the victim's square cleared and the capture record pushed, with the same side to move. A played capture pushes the capture record and then `movePiece`'s record. |
| EngineModel.Engine.CapturePieceOnce | src/engine.cc:220-252 | The corrected capture. An unhighlighted target only deselects. On a highlighted target the outcome is `CaptureOutcome`: a refused capture leaves board, history and side exactly as before. A played capture clears the victim's square, pushes exactly the capture record, moves the capturer to the landing square and passes the turn as `Passed` states. |
| EngineModel.Engine.CaptureOnceChecked | src/engine.cc:243-251 | The corrected capture on a highlighted target: the outcome is `CaptureOutcome`. |
| EngineModel.Engine.PlayCapture | src/engine.cc:250-251 | Once the corrected capture's safety test has passed, the capturer moves to the landing square and the turn passes: the played half of `CaptureOutcome`. |
| EngineModel.Engine.ManualRefused | src/engine.cc:197-198 | A non-king move is refused iff it exposes the side's king; the board is unchanged. |
| EngineModel.Engine.PutBack | src/engine.cc:197-203 | Undoing the clear and the push restores the position and the history exactly. |
| EngineModel.Engine.ProcessMove | src/engine.cc:254-273 | Dispatch on a press while a square is selected; the whole outcome is `Dispatched`. Pressing the selected square deselects. An own piece switches the selection to it. On a highlighted empty target the outcome is `movePiece`'s `ManualOutcome`. On a highlighted enemy piece it is the corrected capture's `CaptureOutcome`, not `capturePiece` as written. An unhighlighted target never changes the board or the history. |
| EngineModel.Engine.HandlePress | src/engine.cc:275-290 | Anything other than a press on a board square changes nothing. A press with nothing selected keeps the board, history and side to move: on a piece of the side to move it selects that square and adds its destinations to the highlighted set, otherwise it changes nothing. A press while a square is selected has `processMove`'s outcome, `Dispatched`. A press on an unhighlighted square never changes the board or the history. |
| InputCodec.Encode | include/input_handler.h:77-90 | Anything other than a press, NONE and ENGINE alike, encodes to 0. |
| InputCodec.Decode | include/input_handler.h:91-102 | A word decodes to a press iff its action byte is 0xf0, and otherwise to an empty NONE object. Decoded coordinates always lie in [0, 4096). |
| InputCodec.Fits12Range | include/input_handler.h:73-74 | A coordinate fits the 12-bit field iff it lies in [0, 4096). |
| InputCodec.EncodeLayout | include/input_handler.h:82-88 | A press with 12-bit coordinates packs 0xf0 into the top byte, x into bits 12-23 and y into bits 0-11. |
| InputCodec.DecodeEncode | include/input_handler.h:77-102 | For a press with 12-bit coordinates, decoding the encoding gives back the same press. |
| InputCodec.EncodeDecode | include/input_handler.h:77-102 | Every press word re-encodes to itself. |
| InputCodec.EncodeDecodeOther | include/input_handler.h:91-102 | A word without the press byte decodes to NONE, which encodes to 0. |
| InputCodec.EngineIndistinct | include/input_handler.h:77-90 | ENGINE encodes like NONE and decodes as NONE, so encoding is not injective over action types. |
| InputCodec.UnmaskedY | include/input_handler.h:86-87 | y is not masked on encoding: a y of 4096 spills into the low bit of x. |
| InputCodec.NatString | include/input_handler.h:21 | A number's decimal string is non-empty and made of digits. |
| InputCodec.NatStringValue | include/input_handler.h:21 | Reading the digit string back gives the number. |
| InputCodec.IntString | include/input_handler.h:21 | `std::to_string` of an int is non-empty, starts with a minus sign iff the number is negative, and is otherwise made of digits. |
| InputCodec.IntStringValue | include/input_handler.h:21 | Reading the signed numeral back gives the int. |
| InputCodec.IndexOf | include/input_handler.h:21 | The first position of a character in a string, or its length: every earlier character differs from it. |
| InputCodec.IndexOfAppend | include/input_handler.h:21 | In a + b, where a holds no c, the first c is the first c of b shifted by \|a\|. |
| InputCodec.IntStringNoComma | include/input_handler.h:21 | A rendered int holds no comma. |
| InputCodec.PressTextReadBack | include/input_handler.h:21 | In `PRESS: (x, y)` the text up to the first comma reads back as x, the comma is followed by a space, and the rest up to the closing parenthesis reads back as y. |
| InputCodec.ToString | include/input_handler.h:18-24 | The string is empty iff the object is not a press. A press prints as `PRESS: (` … `)`. |
| InputCodec.ToStringReadBack | include/input_handler.h:18-24 | The printed press reads back: x and y are recovered from the text. |

## Left out

- Rendering, windowing, textures and sprites (renderer, texture factory, the sprite code in `Piece`), the debug panel and `Engine::loop`: drawing only, no rule logic.
- Animation: `animateMovement` is treated as a no-op. It is float line plotting on a clock.
- Input dispatchers, sockets and the mouse poller (`captureInput`, `enable/disableLocalInput`): event I/O. The press reaches `HandlePress` as a parameter.
- The random number generator in `makeBestMove`: it is a nondeterministic choice from the tie set.
- `std::sort`'s unspecified order among equal keys: one fixed order is modelled.
- Integer overflow: scores and coordinates are unbounded integers. No value reached from the starting material comes near 32-bit limits.
- `sSelectedPiece` is set but never read by the core, so it is not modelled. `mSelectedSquare` is the engine's `selected` field.
- The rules-disabled and move-generation-disabled switches of the debug build are not modelled. The model is the build where rules are enforced.
- The `Move` record's header is not part of this model. A new `Move` is taken to be of type normal, with the first-move flag false.
- `isPlayerInCheck`'s result in `movePiece` (the unused `isInCheck`) is not modelled, since it has no effect.
- EngineModel.Engine.MakeBestMove: with an empty tie set the source dereferences an empty move. The model plays nothing.
- MoveGen.PawnMoves: a double step whose square is off the board reads outside the grid in the source. The model offers no move there, which cannot arise from the starting position.
- EngineModel.Engine.HandlePress: requires `Ready`, meaning the king slots hold the kings and the selection refers to the side to move's piece. The model does not prove that every operation re-establishes `Ready`.
- EngineModel.Engine.ProcessMove: requires `Ready` for the same reason.
- EngineModel.Engine.CapturePiece: requires an en passant landing square to be empty (`CaptureOk`), since the model does not tie the history to the position.
- EngineModel.Engine.CapturePiece: after a reset the source's final `deOccupy` refers to a piece of the discarded board. The model skips it when the board was replaced, which has no effect on the live board.
- EngineModel.Engine.CapturePiece: in the played case, the contract states only the two pushed records, not the resulting position. Stating the position after `movePiece` and the final `deOccupy` of the as-written capture made the proof too costly to verify. The corrected capture states its position.
- EngineModel.Engine.CaptureThenMove: the same as CapturePiece, for the same reason.
- EngineModel.Engine.ProcessMove: a press on an enemy piece goes through the corrected capture (`CapturePieceOnce`), not through `capturePiece` as written (src/engine.cc:267). The as-written capture and its double push are modelled by CapturePiece and listed under Findings.
- EngineModel.Engine.HandlePress: it reaches captures through ProcessMove, so it also uses the corrected capture.
- EngineModel.Engine.SwitchPlayers: the engine's reply is stated through the tie set, not through a particular random draw.
- EngineModel.Engine.ResetEngine: the history stack is kept across a reset, as in the source. The model does not state anything about searching from a reset board with an old history.
- InputCodec.Signed: the conversion of a 32-bit field to a signed coordinate has no contract of its own.

## Findings

| source | as written | input that shows it | evidently intended | confidence | as-written member | corrected member |
|---|---|---|---|---|---|---|
| src/engine.cc:248, 205 | `capturePiece` pushes the capture record, then calls `movePiece`, which pushes a second record for the same ply. One capture leaves two records on the history stack, and the second has no opponent. | Any accepted capture, e.g. a white pawn on e4 taking a black pawn on d5: the stack grows by two. | One record per ply, naming the captured piece. | not executed | EngineModel.Engine.CapturePiece | EngineModel.Engine.CapturePieceOnce |
| src/engine.cc:249-250, 197-204 | `capturePiece` clears the victim's square and pushes its record before `movePiece` checks whether the move exposes the king. A refused capture therefore removes the victim from the board and leaves the record on the stack. | White knight on e4, white king on h1, black bishop on b7 pinning the knight, black piece on d6: clicking the knight and then d6 refuses the move, but the d6 piece is gone. | A refused capture leaves board and history unchanged. | not executed | EngineModel.Engine.CapturePiece | EngineModel.Engine.CapturePieceOnce |

=== FILE: arena.dfy ===
/**
 * The board's object graph as two arenas. Squares are addressed by their
 * (x, y) coordinate, pieces by their index in the board's piece list. A
 * square's occupier and a piece's square are optional indices into the other
 * arena; the shared pointers of the source become these indices.
 *
 * The functions below are the value-level meaning of the square and piece
 * mutators (src/square.cc, src/piece.cc); the Board class applies them in place.
 */
module Arena {
  import opened Wrappers

  datatype Color = White | Black
  datatype PieceType = Pawn | Rook | Bishop | Queen | King | Knight

  /** A board coordinate: x is the file (column), y the rank (row). */
  datatype Pos = Pos(x: int, y: int)

  predicate InBounds(p: Pos) {
    0 <= p.x < 8 && 0 <= p.y < 8
  }

  /** A piece: fixed type and colour, the square it stands on, and whether it has moved. */
  datatype Piece = Piece(kind: PieceType, color: Color, square: Option<Pos>, movedBefore: bool)

  /** The state that move generation, make/undo and search read and write. */
  datatype Position = Position(occupier: map<Pos, Option<nat>>, pieces: seq<Piece>)

  function Other(c: Color): Color {
    if c == White then Black else White
  }

  /** Exactly the 64 squares exist, and every occupier index names a piece. */
  ghost predicate Wf(pos: Position) {
    && (forall t: Pos :: t in pos.occupier <==> InBounds(t))
    && (forall t :: t in pos.occupier && pos.occupier[t].Some? ==> pos.occupier[t].value < |pos.pieces|)
  }

  /**
   * The central invariant: the square->piece and piece->square links agree.
   * Since `occupier` is a function, at most one piece is on any square.
   */
  ghost predicate Linked(pos: Position) {
    && Wf(pos)
    && (forall t :: t in pos.occupier && pos.occupier[t].Some? ==>
          pos.pieces[pos.occupier[t].value].square == Some(t))
    && (forall i :: 0 <= i < |pos.pieces| && pos.pieces[i].square.Some? ==>
          pos.pieces[i].square.value in pos.occupier &&
          pos.occupier[pos.pieces[i].square.value] == Some(i))
  }

  /** Piece i stands on an in-bounds square whose occupier is i. */
  ghost predicate Placed(pos: Position, i: nat) {
    && Wf(pos)
    && i < |pos.pieces|
    && pos.pieces[i].square.Some?
    && InBounds(pos.pieces[i].square.value)
    && pos.occupier[pos.pieces[i].square.value] == Some(i)
  }

  /** Square t exists and its occupier, if any, names a piece. */
  predicate SquareOk(pos: Position, t: Pos) {
    t in pos.occupier && (pos.occupier[t].Some? ==> pos.occupier[t].value < |pos.pieces|)
  }

  /** Square t holds a piece of colour c. */
  predicate OwnedBy(pos: Position, t: Pos, c: Color)
    requires Wf(pos) && InBounds(t)
  {
    pos.occupier[t].Some? && pos.pieces[pos.occupier[t].value].color == c
  }

  /** Piece::deOccupy: the piece forgets its square. */
  function DeOccupy(pos: Position, i: nat): Position
    requires i < |pos.pieces|
  {
    pos.(pieces := pos.pieces[i := pos.pieces[i].(square := None)])
  }

  /** Piece::setSquare: the piece records a square; no square is touched. */
  function SetSquare(pos: Position, i: nat, t: Pos): Position
    requires i < |pos.pieces|
  {
    pos.(pieces := pos.pieces[i := pos.pieces[i].(square := Some(t))])
  }

  /** Piece::setFirstMove (the "has moved" flag). */
  function SetMoved(pos: Position, i: nat, moved: bool): Position
    requires i < |pos.pieces|
  {
    pos.(pieces := pos.pieces[i := pos.pieces[i].(movedBefore := moved)])
  }

  /** Square::setOccupier: a previous occupier is deOccupied, then the square holds i. */
  function SetOccupier(pos: Position, t: Pos, i: nat): Position
    requires SquareOk(pos, t)
  {
    var p := match pos.occupier[t]
      case Some(prev) => DeOccupy(pos, prev)
      case None => pos;
    p.(occupier := p.occupier[t := Some(i)])
  }

  /** Square::clear: a previous occupier is deOccupied and the square becomes empty. */
  function ClearSquare(pos: Position, t: Pos): Position
    requires SquareOk(pos, t)
  {
    match pos.occupier[t]
    case Some(prev) =>
      var p := DeOccupy(pos, prev);
      p.(occupier := p.occupier[t := None])
    case None => pos
  }

  /**
   * Piece::moveTo: an occupier of t loses its square and t is cleared, then t
   * holds i and i records t. The square i stood on is NOT cleared.
   */
  function MoveTo(pos: Position, i: nat, t: Pos): Position
    requires SquareOk(pos, t) && i < |pos.pieces|
  {
    var p1 := match pos.occupier[t]
      case Some(prev) => ClearSquare(DeOccupy(pos, prev), t)
      case None => pos;
    SetSquare(p1.(occupier := p1.occupier[t := Some(i)]), i, t)
  }
  /**
   * Square::clear leaves t empty and its former occupier without a square;
   * every other square and piece is as before, so clearing twice is clearing once.
   */
  lemma ClearSquareSpec(pos: Position, t: Pos)
    requires SquareOk(pos, t)
    ensures var r := ClearSquare(pos, t);
      && r.occupier == pos.occupier[t := None]
      && |r.pieces| == |pos.pieces|
      && (forall j :: 0 <= j < |pos.pieces| ==>
            r.pieces[j] == if pos.occupier[t] == Some(j) then pos.pieces[j].(square := None) else pos.pieces[j])
      && SquareOk(r, t) && ClearSquare(r, t) == r
  {
    var r := ClearSquare(pos, t);
    if pos.occupier[t].None? {
      assert pos.occupier[t := None] == pos.occupier;
    }
  }

  /**
   * Square::setOccupier: t now holds i and the previous occupier lost its
   * square; the square recorded by i itself is not touched (unless i was that
   * previous occupier).
   */
  lemma SetOccupierSpec(pos: Position, t: Pos, i: nat)
    requires SquareOk(pos, t)
    ensures var r := SetOccupier(pos, t, i);
      && r.occupier == pos.occupier[t := Some(i)]
      && |r.pieces| == |pos.pieces|
      && (forall j :: 0 <= j < |pos.pieces| ==>
            r.pieces[j] == if pos.occupier[t] == Some(j) then pos.pieces[j].(square := None) else pos.pieces[j])
  {
  }

  /**
   * Piece::moveTo: t holds i and i records t; a previous occupier of t lost its
   * square; every other square keeps its occupier, so the square i came from
   * still names i.
   */
  lemma MoveToSpec(pos: Position, i: nat, t: Pos)
    requires SquareOk(pos, t) && i < |pos.pieces|
    ensures var r := MoveTo(pos, i, t);
      && r.occupier == pos.occupier[t := Some(i)]
      && |r.pieces| == |pos.pieces|
      && r.pieces[i] == pos.pieces[i].(square := Some(t))
      && (forall j :: 0 <= j < |pos.pieces| && j != i ==>
            r.pieces[j] == if pos.occupier[t] == Some(j) then pos.pieces[j].(square := None) else pos.pieces[j])
  {
  }
}

=== FILE: board.dfy ===
/**
 * The board (src/board.cc) together with the square (src/square.cc) and piece
 * (src/piece.cc) objects it owns, as one class over the two arenas.
 * Square methods take the square's coordinate, piece methods the piece's index.
 */
module BoardModel {
  import opened Wrappers
  import opened Arena

  /** Background colour of square (x, y): light when x + y is even. */
  function SquareColour(x: int, y: int): Color {
    if (x + y) % 2 == 0 then White else Black
  }

  lemma ParityStep(s: int)
    ensures (s + 1) % 2 == 1 - s % 2
  {
  }

  /** C++ integer division, which truncates toward zero. */
  function TruncDiv(a: int, b: int): int
    requires b > 0
  {
    if a >= 0 then a / b else -((-a) / b)
  }

  /**
   * Board::squareAt: the square at grid index (x, y). The source indexes
   * without a bounds check; an index off the grid yields no square here.
   */
  function SquareAt(x: int, y: int): (r: Option<Pos>)
    ensures r.Some? <==> InBounds(Pos(x, y))
    ensures r.Some? ==> r.value == Pos(x, y)
  {
    if 0 <= x < 8 && 0 <= y < 8 then Some(Pos(x, y)) else None
  }

  /**
   * Board::selectSquare: the square under pixel (px, py) of the 800x800
   * window, each square 100 pixels wide, with C++ truncating division.
   */
  function PixelToSquare(px: int, py: int): (r: Option<Pos>)
    ensures 0 <= px < 800 && 0 <= py < 800 ==> r == Some(Pos(px / 100, py / 100))
    ensures r.Some? <==> -100 < px < 800 && -100 < py < 800
    ensures r.Some? ==> InBounds(r.value)
  {
    SquareAt(TruncDiv(px, 100), TruncDiv(py, 100))
  }

  /** The pawns Board::init places for files 0..n-1: black then white, file by file. */
  function Pawns(n: nat): (r: seq<Piece>)
    ensures |r| == 2 * n
  {
    if n == 0 then []
    else Pawns(n - 1) + [Piece(Pawn, Black, Some(Pos(n - 1, 1)), false)] + [Piece(Pawn, White, Some(Pos(n - 1, 6)), false)]
  }

  /** The piece list after Board::init, in placement order: pawns, bishops, rooks, knights, kings, queens. */
  function StartPieces(): (r: seq<Piece>)
    ensures |r| == 32
  {
    Pawns(8)
    + [Piece(Bishop, Black, Some(Pos(2, 0)), false)]
    + [Piece(Bishop, Black, Some(Pos(5, 0)), false)]
    + [Piece(Bishop, White, Some(Pos(2, 7)), false)]
    + [Piece(Bishop, White, Some(Pos(5, 7)), false)]
    + [Piece(Rook, White, Some(Pos(0, 7)), false)]
    + [Piece(Rook, White, Some(Pos(7, 7)), false)]
    + [Piece(Rook, Black, Some(Pos(0, 0)), false)]
    + [Piece(Rook, Black, Some(Pos(7, 0)), false)]
    + [Piece(Knight, White, Some(Pos(1, 7)), false)]
    + [Piece(Knight, White, Some(Pos(6, 7)), false)]
    + [Piece(Knight, Black, Some(Pos(1, 0)), false)]
    + [Piece(Knight, Black, Some(Pos(6, 0)), false)]
    + [Piece(King, White, Some(Pos(4, 7)), false)]
    + [Piece(King, Black, Some(Pos(4, 0)), false)]
    + [Piece(Queen, White, Some(Pos(3, 7)), false)]
    + [Piece(Queen, Black, Some(Pos(3, 0)), false)]
  }

  /** Where Board::init puts each back-rank piece, as an index into StartPieces(). */
  function BackRankSlot(t: Pos): Option<nat> {
    match t
    case Pos(2, 0) => Some(16)
    case Pos(5, 0) => Some(17)
    case Pos(2, 7) => Some(18)
    case Pos(5, 7) => Some(19)
    case Pos(0, 7) => Some(20)
    case Pos(7, 7) => Some(21)
    case Pos(0, 0) => Some(22)
    case Pos(7, 0) => Some(23)
    case Pos(1, 7) => Some(24)
    case Pos(6, 7) => Some(25)
    case Pos(1, 0) => Some(26)
    case Pos(6, 0) => Some(27)
    case Pos(4, 7) => Some(28)
    case Pos(4, 0) => Some(29)
    case Pos(3, 7) => Some(30)
    case Pos(3, 0) => Some(31)
    case _ => None
  }

  /** The occupier of square t after Board::init, as an index into StartPieces(). */
  function StartSlot(t: Pos): Option<nat> {
    if t.y == 1 && t.x >= 0 then Some(2 * t.x)
    else if t.y == 6 && t.x >= 0 then Some(2 * t.x + 1)
    else BackRankSlot(t)
  }

  /** The occupier of square t once the pawns of files 0..n-1 are placed. */
  function PawnSlot(t: Pos, n: int): Option<nat> {
    if t.y == 1 && 0 <= t.x < n then Some(2 * t.x)
    else if t.y == 6 && 0 <= t.x < n then Some(2 * t.x + 1)
    else None
  }

  /** The occupancy map after the sixteen back-rank placements of Board::init. */
  function BackRankPlaced(m: map<Pos, Option<nat>>): map<Pos, Option<nat>> {
    m[Pos(2, 0) := Some(16)][Pos(5, 0) := Some(17)][Pos(2, 7) := Some(18)][Pos(5, 7) := Some(19)]
     [Pos(0, 7) := Some(20)][Pos(7, 7) := Some(21)][Pos(0, 0) := Some(22)][Pos(7, 0) := Some(23)]
     [Pos(1, 7) := Some(24)][Pos(6, 7) := Some(25)][Pos(1, 0) := Some(26)][Pos(6, 0) := Some(27)]
     [Pos(4, 7) := Some(28)][Pos(4, 0) := Some(29)][Pos(3, 7) := Some(30)][Pos(3, 0) := Some(31)]
  }

  /** The piece list after the piece named by o, if any, has lost its square. */
  function Vacate(ps: seq<Piece>, o: Option<nat>): seq<Piece> {
    if o.Some? && o.value < |ps| then ps[o.value := ps[o.value].(square := None)] else ps
  }

  lemma PawnAt(n: nat, x: nat)
    requires x < n
    ensures Pawns(n)[2 * x] == Piece(Pawn, Black, Some(Pos(x, 1)), false)
    ensures Pawns(n)[2 * x + 1] == Piece(Pawn, White, Some(Pos(x, 6)), false)
  {
    if x < n - 1 {
      PawnAt(n - 1, x);
    }
  }

  /** One square of BackRankPlaced(m): a back-rank square gets its slot, any other keeps m's entry. */
  lemma BackRankPlacedAt(m: map<Pos, Option<nat>>, t: Pos)
    requires InBounds(t) && t in m
    requires t.y == 0 || t.y == 7 ==> m[t].None?
    ensures t in BackRankPlaced(m)
    ensures BackRankPlaced(m)[t] == if t.y == 0 || t.y == 7 then BackRankSlot(t) else m[t]
  {
  }

  /** After the pawns, the back-rank stores give every square its StartSlot. */
  lemma BackRankOccupancy(m: map<Pos, Option<nat>>)
    requires forall t: Pos :: t in m <==> InBounds(t)
    requires forall t :: InBounds(t) ==> m[t] == PawnSlot(t, 8)
    ensures forall t: Pos :: t in BackRankPlaced(m) <==> InBounds(t)
    ensures forall t :: InBounds(t) ==> BackRankPlaced(m)[t] == StartSlot(t)
  {
    forall t | InBounds(t)
      ensures BackRankPlaced(m)[t] == StartSlot(t)
    {
      BackRankPlacedAt(m, t);
    }
  }

  /** Back-rank piece k of StartPieces() stands on the square whose slot is k. */
  lemma BackRankPiece(k: nat)
    requires 16 <= k < 32
    ensures StartPieces()[k].square.Some?
    ensures InBounds(StartPieces()[k].square.value)
    ensures StartSlot(StartPieces()[k].square.value) == Some(k)
  {
    assert k == 16 || k == 17 || k == 18 || k == 19 || k == 20 || k == 21 || k == 22 || k == 23 ||
           k == 24 || k == 25 || k == 26 || k == 27 || k == 28 || k == 29 || k == 30 || k == 31;
  }

  /** The first sixteen entries of StartPieces() are the pawns. */
  lemma StartPawns(i: nat)
    requires i < 16
    ensures StartPieces()[i] == Pawns(8)[i]
  {
  }

  /** Piece i of StartPieces() stands on an in-bounds square whose slot is i. */
  lemma StartPieceAt(i: nat)
    requires i < 32
    ensures StartPieces()[i].square.Some?
    ensures InBounds(StartPieces()[i].square.value)
    ensures StartSlot(StartPieces()[i].square.value) == Some(i)
  {
    if i < 16 {
      StartPawns(i);
      PawnAt(8, i / 2);
      if i % 2 == 0 {
        assert i == 2 * (i / 2);
      } else {
        assert i == 2 * (i / 2) + 1;
      }
    } else {
      BackRankPiece(i);
    }
  }

  /** The piece in slot StartSlot(t) stands on t. */
  lemma StartSquareAt(t: Pos)
    requires InBounds(t) && StartSlot(t).Some?
    ensures StartSlot(t).value < 32
    ensures StartPieces()[StartSlot(t).value].square == Some(t)
  {
    if t.y == 1 || t.y == 6 {
      PawnAt(8, t.x);
      StartPawns(StartSlot(t).value);
    } else {
      BackRankPiece(StartSlot(t).value);
    }
  }

  /** The square<->piece links agree after Board::init. */
  lemma StartLinked(pos: Position)
    requires pos.pieces == StartPieces()
    requires forall t: Pos :: t in pos.occupier <==> InBounds(t)
    requires forall t :: InBounds(t) ==> pos.occupier[t] == StartSlot(t)
    ensures Linked(pos)
  {
    forall t | t in pos.occupier && pos.occupier[t].Some?
      ensures pos.occupier[t].value < |pos.pieces|
      ensures pos.pieces[pos.occupier[t].value].square == Some(t)
    {
      StartSquareAt(t);
    }
    forall i | 0 <= i < |pos.pieces| && pos.pieces[i].square.Some?
      ensures pos.pieces[i].square.value in pos.occupier
      ensures pos.occupier[pos.pieces[i].square.value] == Some(i)
    {
      StartPieceAt(i);
    }
  }

  /** The position Board::init sets up: the 64 squares, and the 32 pieces on their starting squares. */
  ghost predicate IsStart(pos: Position) {
    && pos.pieces == StartPieces()
    && (forall t: Pos :: t in pos.occupier <==> InBounds(t))
    && (forall t :: InBounds(t) ==> pos.occupier[t] == StartSlot(t))
  }

  class Board {
    var occupier: map<Pos, Option<nat>>
    var pieces: seq<Piece>
    var colour: map<Pos, Color>
    var selected: set<Pos>

    function Snapshot(): Position
      reads this
    {
      Position(occupier, pieces)
    }

    /** Every square carries its background colour (fixed by Board::init, never changed). */
    ghost predicate Coloured()
      reads this`colour
    {
      forall t :: InBounds(t) ==> t in colour && colour[t] == SquareColour(t.x, t.y)
    }

    /** An empty board with no squares and no pieces (Board() = default). */
    constructor ()
      ensures occupier == map[] && pieces == [] && colour == map[] && selected == {}
    {
      occupier, pieces, colour, selected := map[], [], map[], {};
    }

    /** The board holds the position Board::init sets up. */
    ghost predicate AtStart()
      reads this
    {
      IsStart(Snapshot())
    }

    /**
     * Board::init: builds the 8x8 grid (square (i, j) coloured by i + j) and
     * places the 32 pieces, appending each to the piece list and linking it
     * to its square both ways.
     */
    method Init()
      modifies this
      ensures AtStart() && Linked(Snapshot())
      ensures Coloured() && selected == {}
    {
      InitSquares();
      PlacePawns();
      BackRankOccupancy(occupier);
      PlaceBackRank();
      StartLinked(Snapshot());
    }

    /** The pawn loop of Board::init: a black pawn on (i, 1) and a white pawn on (i, 6) for each file i. */
    method PlacePawns()
      requires pieces == []
      requires forall t: Pos :: t in occupier <==> InBounds(t)
      requires forall t :: InBounds(t) ==> occupier[t].None?
      modifies this`occupier, this`pieces
      ensures forall t: Pos :: t in occupier <==> InBounds(t)
      ensures forall t :: InBounds(t) ==> occupier[t] == PawnSlot(t, 8)
      ensures pieces == Pawns(8)
      ensures unchanged(this`colour, this`selected)
    {
      for i := 0 to 8
        invariant forall t: Pos :: t in occupier <==> InBounds(t)
        invariant forall t :: InBounds(t) ==> occupier[t] == PawnSlot(t, i)
        invariant pieces == Pawns(i)
      {
        PlacePiece(i, 1, Pawn, Black);
        PlacePiece(i, 6, Pawn, White);
      }
    }

    /** The nested loops of Board::init that create the 64 empty squares. */
    method InitSquares()
      modifies this
      ensures pieces == [] && selected == {}
      ensures forall t: Pos :: t in occupier <==> InBounds(t)
      ensures forall t :: InBounds(t) ==> occupier[t].None?
      ensures Coloured()
    {
      occupier, pieces, colour, selected := map[], [], map[], {};
      for i := 0 to 8
        invariant forall t: Pos :: t in occupier <==> 0 <= t.x < i && 0 <= t.y < 8
        invariant forall t :: t in occupier ==> occupier[t].None? && t in colour && colour[t] == SquareColour(t.x, t.y)
        invariant pieces == [] && selected == {}
      {
        InitRow(i);
      }
    }

    /** One pass of the outer loop of Board::init: the eight squares (i, 0..7), alternating colour. */
    method InitRow(i: int)
      requires forall t :: t in occupier ==> t.x != i
      modifies this`occupier, this`colour
      ensures forall t: Pos :: t in occupier <==> t in old(occupier) || (t.x == i && 0 <= t.y < 8)
      ensures forall t :: t in old(occupier) ==> occupier[t] == old(occupier)[t]
      ensures forall t :: t in old(colour) && t.x != i ==> t in colour && colour[t] == old(colour)[t]
      ensures forall t :: t in occupier && t.x == i ==>
        occupier[t].None? && t in colour && colour[t] == SquareColour(t.x, t.y)
    {
      var color := if i % 2 == 0 then White else Black;
      for j := 0 to 8
        invariant forall t: Pos :: t in occupier <==> t in old(occupier) || (t.x == i && 0 <= t.y < j)
        invariant forall t :: t in old(occupier) ==> occupier[t] == old(occupier)[t]
        invariant forall t :: t in old(colour) && t.x != i ==> t in colour && colour[t] == old(colour)[t]
        invariant forall t :: t in occupier && t.x == i ==>
          occupier[t].None? && t in colour && colour[t] == SquareColour(t.x, t.y)
        invariant color == SquareColour(i, j)
      {
        occupier := occupier[Pos(i, j) := None];
        colour := colour[Pos(i, j) := color];
        ParityStep(i + j);
        color := if color == White then Black else White;
      }
    }

    /** The sixteen back-rank placements of Board::init, in source order. */
    method PlaceBackRank()
      requires |pieces| == 16
      requires forall t :: InBounds(t) ==> t in occupier
      requires forall t :: InBounds(t) && (t.y == 0 || t.y == 7) ==> occupier[t].None?
      modifies this`occupier, this`pieces
      ensures occupier == BackRankPlaced(old(occupier))
      ensures unchanged(this`colour, this`selected)
      ensures pieces == old(pieces)
        + [Piece(Bishop, Black, Some(Pos(2, 0)), false)]
        + [Piece(Bishop, Black, Some(Pos(5, 0)), false)]
        + [Piece(Bishop, White, Some(Pos(2, 7)), false)]
        + [Piece(Bishop, White, Some(Pos(5, 7)), false)]
        + [Piece(Rook, White, Some(Pos(0, 7)), false)]
        + [Piece(Rook, White, Some(Pos(7, 7)), false)]
        + [Piece(Rook, Black, Some(Pos(0, 0)), false)]
        + [Piece(Rook, Black, Some(Pos(7, 0)), false)]
        + [Piece(Knight, White, Some(Pos(1, 7)), false)]
        + [Piece(Knight, White, Some(Pos(6, 7)), false)]
        + [Piece(Knight, Black, Some(Pos(1, 0)), false)]
        + [Piece(Knight, Black, Some(Pos(6, 0)), false)]
        + [Piece(King, White, Some(Pos(4, 7)), false)]
        + [Piece(King, Black, Some(Pos(4, 0)), false)]
        + [Piece(Queen, White, Some(Pos(3, 7)), false)]
        + [Piece(Queen, Black, Some(Pos(3, 0)), false)]
    {
      PlaceBishops();
      PlaceRooks();
      PlaceKnights();
      PlaceRoyals();
    }

    /** The bishops of Board::init. */
    method PlaceBishops()
      requires |pieces| == 16
      requires SquareOk(Snapshot(), Pos(2, 0)) && SquareOk(Snapshot(), Pos(5, 0)) && SquareOk(Snapshot(), Pos(2, 7)) && SquareOk(Snapshot(), Pos(5, 7))
      requires occupier[Pos(2, 0)].None? && occupier[Pos(5, 0)].None? && occupier[Pos(2, 7)].None? && occupier[Pos(5, 7)].None?
      modifies this`occupier, this`pieces
      ensures occupier == old(occupier)[Pos(2, 0) := Some(16)][Pos(5, 0) := Some(17)][Pos(2, 7) := Some(18)][Pos(5, 7) := Some(19)]
      ensures pieces == old(pieces)
        + [Piece(Bishop, Black, Some(Pos(2, 0)), false)]
        + [Piece(Bishop, Black, Some(Pos(5, 0)), false)]
        + [Piece(Bishop, White, Some(Pos(2, 7)), false)]
        + [Piece(Bishop, White, Some(Pos(5, 7)), false)]
    {
      PlacePiece(2, 0, Bishop, Black);
      PlacePiece(5, 0, Bishop, Black);
      PlacePiece(2, 7, Bishop, White);
      PlacePiece(5, 7, Bishop, White);
    }

    /** The rooks of Board::init. */
    method PlaceRooks()
      requires |pieces| == 20
      requires SquareOk(Snapshot(), Pos(0, 7)) && SquareOk(Snapshot(), Pos(7, 7)) && SquareOk(Snapshot(), Pos(0, 0)) && SquareOk(Snapshot(), Pos(7, 0))
      requires occupier[Pos(0, 7)].None? && occupier[Pos(7, 7)].None? && occupier[Pos(0, 0)].None? && occupier[Pos(7, 0)].None?
      modifies this`occupier, this`pieces
      ensures occupier == old(occupier)[Pos(0, 7) := Some(20)][Pos(7, 7) := Some(21)][Pos(0, 0) := Some(22)][Pos(7, 0) := Some(23)]
      ensures pieces == old(pieces)
        + [Piece(Rook, White, Some(Pos(0, 7)), false)]
        + [Piece(Rook, White, Some(Pos(7, 7)), false)]
        + [Piece(Rook, Black, Some(Pos(0, 0)), false)]
        + [Piece(Rook, Black, Some(Pos(7, 0)), false)]
    {
      PlacePiece(0, 7, Rook, White);
      PlacePiece(7, 7, Rook, White);
      PlacePiece(0, 0, Rook, Black);
      PlacePiece(7, 0, Rook, Black);
    }

    /** The knights of Board::init. */
    method PlaceKnights()
      requires |pieces| == 24
      requires SquareOk(Snapshot(), Pos(1, 7)) && SquareOk(Snapshot(), Pos(6, 7)) && SquareOk(Snapshot(), Pos(1, 0)) && SquareOk(Snapshot(), Pos(6, 0))
      requires occupier[Pos(1, 7)].None? && occupier[Pos(6, 7)].None? && occupier[Pos(1, 0)].None? && occupier[Pos(6, 0)].None?
      modifies this`occupier, this`pieces
      ensures occupier == old(occupier)[Pos(1, 7) := Some(24)][Pos(6, 7) := Some(25)][Pos(1, 0) := Some(26)][Pos(6, 0) := Some(27)]
      ensures pieces == old(pieces)
        + [Piece(Knight, White, Some(Pos(1, 7)), false)]
        + [Piece(Knight, White, Some(Pos(6, 7)), false)]
        + [Piece(Knight, Black, Some(Pos(1, 0)), false)]
        + [Piece(Knight, Black, Some(Pos(6, 0)), false)]
    {
      PlacePiece(1, 7, Knight, White);
      PlacePiece(6, 7, Knight, White);
      PlacePiece(1, 0, Knight, Black);
      PlacePiece(6, 0, Knight, Black);
    }

    /** The kings and queens of Board::init. */
    method PlaceRoyals()
      requires |pieces| == 28
      requires SquareOk(Snapshot(), Pos(4, 7)) && SquareOk(Snapshot(), Pos(4, 0)) && SquareOk(Snapshot(), Pos(3, 7)) && SquareOk(Snapshot(), Pos(3, 0))
      requires occupier[Pos(4, 7)].None? && occupier[Pos(4, 0)].None? && occupier[Pos(3, 7)].None? && occupier[Pos(3, 0)].None?
      modifies this`occupier, this`pieces
      ensures occupier == old(occupier)[Pos(4, 7) := Some(28)][Pos(4, 0) := Some(29)][Pos(3, 7) := Some(30)][Pos(3, 0) := Some(31)]
      ensures pieces == old(pieces)
        + [Piece(King, White, Some(Pos(4, 7)), false)]
        + [Piece(King, Black, Some(Pos(4, 0)), false)]
        + [Piece(Queen, White, Some(Pos(3, 7)), false)]
        + [Piece(Queen, Black, Some(Pos(3, 0)), false)]
    {
      PlacePiece(4, 7, King, White);
      PlacePiece(4, 0, King, Black);
      PlacePiece(3, 7, Queen, White);
      PlacePiece(3, 0, Queen, Black);
    }

    /**
     * Board::placePiece: a fresh, unmoved piece of the given type and colour
     * is appended to the piece list and linked to square (x, y) both ways; a
     * piece already there loses its square.
     */
    method PlacePiece(x: int, y: int, kind: PieceType, color: Color)
      requires SquareOk(Snapshot(), Pos(x, y))
      modifies this`occupier, this`pieces
      ensures occupier == old(occupier)[Pos(x, y) := Some(|old(pieces)|)]
      ensures pieces == Vacate(old(pieces), old(occupier)[Pos(x, y)]) + [Piece(kind, color, Some(Pos(x, y)), false)]
    {
      var n := |pieces|;
      pieces := pieces + [Piece(kind, color, None, false)];
      SetOccupier(Pos(x, y), n);
      SetSquare(n, Pos(x, y));
    }

    /** Square::getSquareColor. */
    function GetSquareColor(t: Pos): Color
      requires t in colour
      reads this
    {
      colour[t]
    }

    /** Square::isOccupied. */
    predicate IsOccupied(t: Pos)
      requires t in occupier
      reads this
    {
      occupier[t].Some?
    }

    /** Square::setOccupier: a previous occupier loses its square; i's own square is untouched. */
    method SetOccupier(t: Pos, i: nat)
      requires SquareOk(Snapshot(), t)
      modifies this`occupier, this`pieces
      ensures Snapshot() == Arena.SetOccupier(old(Snapshot()), t, i)
      ensures |pieces| == |old(pieces)|
      ensures occupier.Keys == old(occupier).Keys
    {
      if occupier[t].Some? {
        DeOccupy(occupier[t].value);
      }
      occupier := occupier[t := Some(i)];
    }

    /** Square::clear: the square becomes empty and its former occupier has no square. */
    method Clear(t: Pos)
      requires SquareOk(Snapshot(), t)
      modifies this`occupier, this`pieces
      ensures Snapshot() == ClearSquare(old(Snapshot()), t)
      ensures |pieces| == |old(pieces)|
      ensures occupier.Keys == old(occupier).Keys && occupier[t] == None
    {
      if occupier[t].Some? {
        DeOccupy(occupier[t].value);
        occupier := occupier[t := None];
      }
    }

    /** Square::select. */
    method Select(t: Pos)
      modifies this`selected
      ensures selected == old(selected) + {t}
    {
      selected := selected + {t};
    }

    /** Square::deSelect. */
    method DeSelect(t: Pos)
      modifies this`selected
      ensures selected == old(selected) - {t}
    {
      selected := selected - {t};
    }

    /** Piece::deOccupy: the piece's square becomes null and nothing else changes. */
    method DeOccupy(i: nat)
      requires i < |pieces|
      modifies this`pieces
      ensures Snapshot() == Arena.DeOccupy(old(Snapshot()), i)
    {
      pieces := pieces[i := pieces[i].(square := None)];
    }

    /** Piece::setSquare: only the piece's square reference changes. */
    method SetSquare(i: nat, t: Pos)
      requires i < |pieces|
      modifies this`pieces
      ensures Snapshot() == Arena.SetSquare(old(Snapshot()), i, t)
      ensures |pieces| == |old(pieces)|
    {
      pieces := pieces[i := pieces[i].(square := Some(t))];
    }

    /** Piece::setFirstMove: afterwards IsFirstMove(i) holds. */
    method SetFirstMove(i: nat)
      requires i < |pieces|
      modifies this`pieces
      ensures Snapshot() == SetMoved(old(Snapshot()), i, true)
      ensures IsFirstMove(i)
    {
      pieces := pieces[i := pieces[i].(movedBefore := true)];
    }

    /** Piece::isFirstMove, which reads the "has moved" flag. */
    predicate IsFirstMove(i: nat)
      requires i < |pieces|
      reads this
    {
      pieces[i].movedBefore
    }

    /**
     * Piece::moveTo: a previous occupier of t loses its square and t is
     * cleared; then t holds i and i records t. The old square of i keeps
     * pointing at i.
     */
    method MoveTo(i: nat, t: Pos) returns (ok: bool)
      requires SquareOk(Snapshot(), t) && i < |pieces|
      modifies this`occupier, this`pieces
      ensures Snapshot() == Arena.MoveTo(old(Snapshot()), i, t)
      ensures ok
    {
      if occupier[t].Some? {
        DeOccupy(occupier[t].value);
        Clear(t);
      }
      SetOccupier(t, i);
      SetSquare(i, t);
      ok := true;
    }
  }
}

=== FILE: capture.dfy ===
/**
 * The pieces of Engine::capturePiece (src/engine.cc) that do not touch the
 * engine's state: where the capturing piece lands, the record it pushes,
 * and what clearing the captured piece's square does to the position.
 */
module Capture {
  import opened Wrappers
  import opened Arena
  import opened MoveGen
  import opened Check
  import opened Ply
  import opened Search

  /** The piece the engine may capture with: piece i stands on a square of a linked position. */
  ghost predicate Capturer(pos: Position, hist: History, i: nat) {
    SearchOk(pos, hist) && i < |pos.pieces| && pos.pieces[i].square.Some?
  }

  /** capturePiece's en passant test: piece i is a pawn and isEnPassant names the clicked square t. */
  predicate EnPassantCapture(pos: Position, hist: History, i: nat, t: Pos)
    requires Capturer(pos, hist, i)
  {
    LinkedPlaced(pos, i);
    pos.pieces[i].kind == Pawn && EnPassantSquare(pos, hist, i) == Some(t)
  }

  /**
   * Where the capturing piece lands: the clicked square, except in an en
   * passant capture, where it is the square one row further in the pawn's
   * direction of travel (up the board for white, down for black).
   */
  function CaptureTarget(pos: Position, hist: History, i: nat, t: Pos): (r: Pos)
    requires Capturer(pos, hist, i)
    ensures !EnPassantCapture(pos, hist, i, t) ==> r == t
    ensures EnPassantCapture(pos, hist, i, t) ==>
      && InBounds(r) && r.x == t.x
      && var p := pos.pieces[i].square.value;
         r.y == p.y + (if pos.pieces[i].color == White then -1 else 1) && (r.x == p.x - 1 || r.x == p.x + 1)
  {
    if EnPassantCapture(pos, hist, i, t) then
      Pos(t.x, t.y + if pos.pieces[i].color == White then -1 else 1)
    else t
  }

  /**
   * The record capturePiece pushes: the mover, the clicked square's
   * occupier, the mover's square, the landing square, the en passant type
   * when it applies and otherwise the default type, and no first-move flag.
   */
  function CaptureRecord(pos: Position, hist: History, i: nat, t: Pos): Move
    requires Capturer(pos, hist, i) && InBounds(t)
  {
    var kind := if EnPassantCapture(pos, hist, i, t) then EnPassant else Normal;
    Move(i, pos.occupier[t], pos.pieces[i].square.value, CaptureTarget(pos, hist, i, t), kind, false)
  }

  /**
   * What capturePiece demands before its first change: the clicked square
   * holds a piece of the other colour that is not the mover's own king, the
   * mover's king is on the board, and an en passant landing square is empty.
   */
  ghost predicate CaptureOk(pos: Position, hist: History, i: nat, t: Pos, king: nat) {
    && Capturer(pos, hist, i)
    && InBounds(t) && pos.occupier[t].Some?
    && pos.pieces[pos.occupier[t].value].color != pos.pieces[i].color
    && king < |pos.pieces| && pos.occupier[t] != Some(king) && pos.pieces[king].square.Some?
    && (EnPassantCapture(pos, hist, i, t) ==> pos.occupier[CaptureTarget(pos, hist, i, t)].None?)
  }

  /**
   * Clearing the clicked square: the captured piece leaves the board, the
   * position stays linked, the mover and the king keep their squares, and
   * the landing square is empty, so movePiece can be called on it.
   */
  lemma ClearForCapture(pos: Position, hist: History, i: nat, t: Pos, king: nat)
    requires CaptureOk(pos, hist, i, t, king)
    ensures SquareOk(pos, t)
    ensures var q := ClearSquare(pos, t);
      && SearchOk(q, hist + [CaptureRecord(pos, hist, i, t)])
      && q.pieces[pos.occupier[t].value].square.None? && q.occupier[t].None?
      && q.pieces[i] == pos.pieces[i] && q.pieces[king] == pos.pieces[king]
      && q.occupier[CaptureTarget(pos, hist, i, t)].None?
      && DeOccupy(q, pos.occupier[t].value) == q
  {
    var q := ClearSquare(pos, t);
    var op := pos.occupier[t].value;
    assert q.pieces == pos.pieces[op := pos.pieces[op].(square := None)];
    forall u | u in q.occupier && q.occupier[u].Some?
      ensures q.pieces[q.occupier[u].value].square == Some(u)
    {
      assert u != t && pos.occupier[u] == q.occupier[u];
    }
    forall j | 0 <= j < |q.pieces| && q.pieces[j].square.Some?
      ensures q.pieces[j].square.value in q.occupier && q.occupier[q.pieces[j].square.value] == Some(j)
    {
      assert j != op && pos.pieces[j].square.value != t;
    }
    assert DeOccupy(q, op).pieces == q.pieces;
  }

  /**
   * If piece i can capture en passant, its landing square is empty. In a
   * game this holds because the pawn that just advanced two rows passed
   * over that square; the model does not track that history and position
   * agree, so callers state it.
   */
  ghost predicate LandingClear(pos: Position, hist: History, i: nat)
    requires Capturer(pos, hist, i)
  {
    LinkedPlaced(pos, i);
    var s := EnPassantSquare(pos, hist, i);
    pos.pieces[i].kind == Pawn && s.Some? ==> pos.occupier[CaptureTarget(pos, hist, i, s.value)].None?
  }
}

=== FILE: check.dfy ===
/**
 * Check detection and whole-side move generation of the engine
 * (src/engine.cc: findKing, getOpponents, isPlayerInCheck and
 * generateAllPossibleMoves), as functions over a position and history and
 * the source's loops proved to compute them.
 */
module Check {
  import opened Wrappers
  import opened Arena
  import opened BoardModel
  import opened MoveGen

  /** Engine::findKing: the king's fixed slot in the piece list (28 white, 29 black). */
  function FindKing(c: Color): nat {
    if c == White then 28 else 29
  }

  /** The slots FindKing names hold the kings of the matching colour in the starting piece list. */
  lemma FindKingStart(c: Color)
    ensures |StartPieces()| > FindKing(c)
    ensures StartPieces()[FindKing(c)].kind == King
    ensures StartPieces()[FindKing(c)].color == c
  {
    var s := StartPieces();
    assert s[28] == Piece(King, White, Some(Pos(4, 7)), false) by { StartPieceAt(28); }
    assert s[29] == Piece(King, Black, Some(Pos(4, 0)), false) by { StartPieceAt(29); }
  }

  /** The indices below n of the pieces not of colour c that stand on a square, in list order. */
  function OpponentsUpTo(pos: Position, c: Color, n: nat): seq<nat>
    requires n <= |pos.pieces|
  {
    if n == 0 then []
    else
      var p := pos.pieces[n - 1];
      OpponentsUpTo(pos, c, n - 1) + (if p.color != c && p.square.Some? then [n - 1] else [])
  }

  function Opponents(pos: Position, c: Color): seq<nat> {
    OpponentsUpTo(pos, c, |pos.pieces|)
  }

  /**
   * The opponent list holds exactly the pieces of another colour that stand
   * on a square, each once, in increasing index order.
   */
  lemma {:induction false} OpponentsUpToSpec(pos: Position, c: Color, n: nat)
    requires n <= |pos.pieces|
    ensures forall k :: 0 <= k < |OpponentsUpTo(pos, c, n)| ==>
      var i := OpponentsUpTo(pos, c, n)[k];
      i < n && pos.pieces[i].color != c && pos.pieces[i].square.Some?
    ensures forall i :: 0 <= i < n && pos.pieces[i].color != c && pos.pieces[i].square.Some? ==>
      i in OpponentsUpTo(pos, c, n)
    ensures forall k, l :: 0 <= k < l < |OpponentsUpTo(pos, c, n)| ==>
      OpponentsUpTo(pos, c, n)[k] < OpponentsUpTo(pos, c, n)[l]
  {
    if n > 0 {
      OpponentsUpToSpec(pos, c, n - 1);
    }
  }

  /** Engine::getOpponents: the loop over the piece list. */
  method GetOpponents(pos: Position, c: Color) returns (opponents: seq<nat>)
    ensures opponents == Opponents(pos, c)
  {
    opponents := [];
    for i := 0 to |pos.pieces|
      invariant opponents == OpponentsUpTo(pos, c, i)
    {
      if pos.pieces[i].color != c && pos.pieces[i].square.Some? {
        opponents := opponents + [i];
      }
    }
  }

  /** In a linked position every piece that records a square stands on it. */
  lemma LinkedPlaced(pos: Position, i: nat)
    requires Linked(pos) && i < |pos.pieces| && pos.pieces[i].square.Some?
    ensures Placed(pos, i)
  {
  }

  /** Piece i, of a colour other than c and on the board, can move onto square t. */
  ghost predicate Attacks(pos: Position, hist: History, c: Color, i: nat, t: Pos)
    requires Linked(pos) && TopOk(pos, hist)
  {
    && i < |pos.pieces|
    && pos.pieces[i].color != c
    && pos.pieces[i].square.Some?
    && Placed(pos, i)
    && t in PossibleMoves(pos, hist, i)
  }

  /**
   * Engine::isPlayerInCheck: the king of colour c is on a square that some
   * piece of another colour can move to. A king without a square is never
   * in check (a null square is never among the generated destinations).
   */
  ghost predicate InCheck(pos: Position, hist: History, c: Color)
    requires Linked(pos) && TopOk(pos, hist) && |pos.pieces| >= 30
  {
    var ks := pos.pieces[FindKing(c)].square;
    ks.Some? && exists i :: Attacks(pos, hist, c, i, ks.value)
  }

  ghost predicate AllPlaced(pos: Position, ops: seq<nat>) {
    forall k :: 0 <= k < |ops| ==> Placed(pos, ops[k])
  }

  /** The search loop of isPlayerInCheck: some piece of ops can move onto t. */
  ghost predicate AnyReaches(pos: Position, hist: History, ops: seq<nat>, t: Pos)
    requires AllPlaced(pos, ops) && TopOk(pos, hist)
    decreases ops
  {
    ops != [] && (t in PossibleMoves(pos, hist, ops[0]) || AnyReaches(pos, hist, ops[1..], t))
  }

  lemma {:induction false} AnyReachesSpec(pos: Position, hist: History, ops: seq<nat>, t: Pos)
    requires AllPlaced(pos, ops) && TopOk(pos, hist)
    ensures AnyReaches(pos, hist, ops, t) <==> exists k :: 0 <= k < |ops| && t in PossibleMoves(pos, hist, ops[k])
    decreases ops
  {
    if ops != [] {
      AnyReachesSpec(pos, hist, ops[1..], t);
      if AnyReaches(pos, hist, ops[1..], t) {
        var k :| 0 <= k < |ops[1..]| && t in PossibleMoves(pos, hist, ops[1..][k]);
        assert ops[k + 1] == ops[1..][k];
      }
      forall k | 1 <= k < |ops| && t in PossibleMoves(pos, hist, ops[k])
        ensures AnyReaches(pos, hist, ops[1..], t)
      {
        assert ops[1..][k - 1] == ops[k];
      }
    }
  }

  /** In a linked position every opponent stands on its square. */
  lemma OpponentsPlaced(pos: Position, c: Color)
    requires Linked(pos)
    ensures AllPlaced(pos, Opponents(pos, c))
  {
    var ops := Opponents(pos, c);
    OpponentsUpToSpec(pos, c, |pos.pieces|);
    assert ops == OpponentsUpTo(pos, c, |pos.pieces|);
    forall k | 0 <= k < |ops|
      ensures Placed(pos, ops[k])
    {
      LinkedPlaced(pos, ops[k]);
    }
  }

  /** Check is found exactly when the opponents' search loop finds the king's square. */
  lemma InCheckByOpponents(pos: Position, hist: History, c: Color)
    requires Linked(pos) && TopOk(pos, hist) && |pos.pieces| >= 30
    ensures AllPlaced(pos, Opponents(pos, c))
    ensures var ks := pos.pieces[FindKing(c)].square;
      InCheck(pos, hist, c) <==> ks.Some? && AnyReaches(pos, hist, Opponents(pos, c), ks.value)
  {
    OpponentsPlaced(pos, c);
    var ks := pos.pieces[FindKing(c)].square;
    if ks.Some? {
      AnyReachesSpec(pos, hist, Opponents(pos, c), ks.value);
      if InCheck(pos, hist, c) {
        CheckFound(pos, hist, c);
      }
      if AnyReaches(pos, hist, Opponents(pos, c), ks.value) {
        var ops := Opponents(pos, c);
        var k :| 0 <= k < |ops| && ks.value in PossibleMoves(pos, hist, ops[k]);
        OpponentsUpToSpec(pos, c, |pos.pieces|);
        assert Attacks(pos, hist, c, ops[k], ks.value);
      }
    }
  }

  lemma CheckFound(pos: Position, hist: History, c: Color)
    requires Linked(pos) && TopOk(pos, hist) && |pos.pieces| >= 30
    requires InCheck(pos, hist, c)
    ensures AllPlaced(pos, Opponents(pos, c))
    ensures exists k :: (0 <= k < |Opponents(pos, c)| &&
      pos.pieces[FindKing(c)].square.value in PossibleMoves(pos, hist, Opponents(pos, c)[k]))
  {
    OpponentsPlaced(pos, c);
    var ks := pos.pieces[FindKing(c)].square;
    var i :| Attacks(pos, hist, c, i, ks.value);
    var ops := Opponents(pos, c);
    OpponentsUpToSpec(pos, c, |pos.pieces|);
    assert ops == OpponentsUpTo(pos, c, |pos.pieces|);
    assert i in ops;
    var k :| 0 <= k < |ops| && ops[k] == i;
    assert ks.value in PossibleMoves(pos, hist, ops[k]);
  }

  /** Engine::isPlayerInCheck: generate each opponent's moves and search them for the king's square. */
  method IsPlayerInCheck(pos: Position, hist: History, c: Color) returns (inCheck: bool)
    requires Linked(pos) && TopOk(pos, hist) && |pos.pieces| >= 30
    ensures inCheck <==> InCheck(pos, hist, c)
  {
    var king := FindKing(c);
    var kingSquare := pos.pieces[king].square;
    var opponents := GetOpponents(pos, c);
    InCheckByOpponents(pos, hist, c);
    for k := 0 to |opponents|
      invariant kingSquare.Some? ==>
        AnyReaches(pos, hist, opponents, kingSquare.value) == AnyReaches(pos, hist, opponents[k..], kingSquare.value)
    {
      var moves := GeneratePossibleMoves(pos, hist, opponents[k]);
      assert opponents[k..][1..] == opponents[k + 1..];
      if kingSquare.Some? && kingSquare.value in moves {
        return true;
      }
    }
    return false;
  }

  /**
   * The record generateAllPossibleMoves builds for piece i moving from
   * `from` to square t: none when t holds a king; otherwise a capture of
   * t's occupier when t is occupied, else a normal move.
   */
  function MoveFor(pos: Position, i: nat, from: Pos, t: Pos): (r: Option<Move>)
    requires Wf(pos) && InBounds(t)
    ensures r.None? <==> pos.occupier[t].Some? && pos.pieces[pos.occupier[t].value].kind == King
    ensures r.Some? ==> r.value.piece == i && r.value.from == from && r.value.to == t && !r.value.firstMove
    ensures r.Some? ==> r.value.opponent == pos.occupier[t]
    ensures r.Some? ==> (r.value.kind == Capture <==> pos.occupier[t].Some?) && r.value.kind != EnPassant
  {
    match pos.occupier[t]
    case Some(o) => if pos.pieces[o].kind == King then None else Some(Move(i, Some(o), from, t, Capture, false))
    case None => Some(Move(i, None, from, t, Normal, false))
  }

  /**
   * acc followed by the records for the destinations dests of piece i, in
   * order, king squares skipped.
   */
  function MovesFrom(pos: Position, i: nat, from: Pos, acc: seq<Move>, dests: seq<Pos>): seq<Move>
    requires Wf(pos)
    requires forall k :: 0 <= k < |dests| ==> InBounds(dests[k])
    decreases dests
  {
    if dests == [] then acc
    else
      var next := match MoveFor(pos, i, from, dests[0]) case Some(m) => acc + [m] case None => acc;
      MovesFrom(pos, i, from, next, dests[1..])
  }

  /** The moves of the pieces of colour c among the first n of the list. */
  function AllMovesUpTo(pos: Position, hist: History, c: Color, n: nat): seq<Move>
    requires Linked(pos) && TopOk(pos, hist) && n <= |pos.pieces|
  {
    if n == 0 then []
    else
      var p := pos.pieces[n - 1];
      var acc := AllMovesUpTo(pos, hist, c, n - 1);
      if p.color == c && p.square.Some? then
        MovesFrom(pos, n - 1, p.square.value, acc, PossibleMoves(pos, hist, n - 1))
      else acc
  }

  /** Engine::generateAllPossibleMoves for colour c. */
  function AllMoves(pos: Position, hist: History, c: Color): seq<Move>
    requires Linked(pos) && TopOk(pos, hist)
  {
    AllMovesUpTo(pos, hist, c, |pos.pieces|)
  }

  /** A record generateAllPossibleMoves emits for colour c. */
  ghost predicate Generated(pos: Position, hist: History, c: Color, m: Move)
    requires Linked(pos) && TopOk(pos, hist)
  {
    && m.piece < |pos.pieces|
    && pos.pieces[m.piece].color == c
    && pos.pieces[m.piece].square == Some(m.from)
    && Placed(pos, m.piece)
    && m.to in PossibleMoves(pos, hist, m.piece)
    && MoveFor(pos, m.piece, m.from, m.to) == Some(m)
  }

  lemma {:induction false} MovesFromSpec(pos: Position, i: nat, from: Pos, acc: seq<Move>, dests: seq<Pos>, m: Move)
    requires Wf(pos)
    requires forall k :: 0 <= k < |dests| ==> InBounds(dests[k])
    ensures m in MovesFrom(pos, i, from, acc, dests) <==>
      m in acc || (m.to in dests && MoveFor(pos, i, from, m.to) == Some(m))
    decreases dests
  {
    if dests != [] {
      var next := match MoveFor(pos, i, from, dests[0]) case Some(x) => acc + [x] case None => acc;
      MovesFromSpec(pos, i, from, next, dests[1..], m);
      assert dests == [dests[0]] + dests[1..];
    }
  }

  lemma {:induction false} AllMovesUpToSpec(pos: Position, hist: History, c: Color, n: nat, m: Move)
    requires Linked(pos) && TopOk(pos, hist) && n <= |pos.pieces|
    ensures m in AllMovesUpTo(pos, hist, c, n) <==> m.piece < n && Generated(pos, hist, c, m)
  {
    if n > 0 {
      AllMovesUpToSpec(pos, hist, c, n - 1, m);
      var p := pos.pieces[n - 1];
      var acc := AllMovesUpTo(pos, hist, c, n - 1);
      if p.color == c && p.square.Some? {
        LinkedPlaced(pos, n - 1);
        var dests := PossibleMoves(pos, hist, n - 1);
        assert AllMovesUpTo(pos, hist, c, n) == MovesFrom(pos, n - 1, p.square.value, acc, dests);
        MovesFromSpec(pos, n - 1, p.square.value, acc, dests, m);
        if m.piece == n - 1 && Generated(pos, hist, c, m) {
          assert m.to in dests && MoveFor(pos, n - 1, p.square.value, m.to) == Some(m);
        }
      } else {
        assert AllMovesUpTo(pos, hist, c, n) == acc;
        assert m.piece == n - 1 ==> !Generated(pos, hist, c, m);
      }
    }
  }

  /**
   * The moves generated for colour c are exactly: a piece of colour c on the
   * board, from its square, to one of its destinations that does not hold a
   * king, capturing exactly the destination's occupier.
   */
  lemma AllMovesSpec(pos: Position, hist: History, c: Color, m: Move)
    requires Linked(pos) && TopOk(pos, hist)
    ensures m in AllMoves(pos, hist, c) <==> Generated(pos, hist, c, m)
  {
    AllMovesUpToSpec(pos, hist, c, |pos.pieces|, m);
  }

  /** Engine::generateAllPossibleMoves: the loop over pieces and, inside it, over destinations. */
  method GenerateAllMoves(pos: Position, hist: History, c: Color) returns (moves: seq<Move>)
    requires Linked(pos) && TopOk(pos, hist)
    ensures moves == AllMoves(pos, hist, c)
  {
    moves := [];
    for i := 0 to |pos.pieces|
      invariant moves == AllMovesUpTo(pos, hist, c, i)
    {
      var p := pos.pieces[i];
      if p.color == c && p.square.Some? {
        LinkedPlaced(pos, i);
        var legalMoves := GeneratePossibleMoves(pos, hist, i);
        ghost var before := moves;
        for k := 0 to |legalMoves|
          invariant MovesFrom(pos, i, p.square.value, moves, legalMoves[k..]) == MovesFrom(pos, i, p.square.value, before, legalMoves)
        {
          var s := legalMoves[k];
          assert legalMoves[k..][1..] == legalMoves[k + 1..];
          if pos.occupier[s].Some? && pos.pieces[pos.occupier[s].value].kind == King {
            continue;
          }
          var move := Move(i, None, p.square.value, s, Normal, false);
          if pos.occupier[s].Some? {
            move := move.(opponent := pos.occupier[s], kind := Capture);
          }
          moves := moves + [move];
        }
      }
    }
  }
}

=== FILE: engine.dfy ===
/**
 * The engine object of src/engine.cc: the board it owns, the move history
 * stack, the player to move, the selected square and the set of
 * highlighted destinations. makeMove and undoMove, wouldExposeKing,
 * checkForCheckmate, generateAllPossibleMoves, minimax and makeBestMove
 * mutate this state in place; each is proved against the value-level
 * functions of the Ply, Check and Search modules.
 */
module EngineModel {
  import opened Wrappers
  import opened Arena
  import opened BoardModel
  import opened MoveGen
  import opened Check
  import opened Ply
  import opened Evaluation
  import opened Search
  import opened Root
  import opened Capture
  import opened InputCodec
  import opened Turn

  /** std::make_shared<Board>() followed by Board::init. */
  method NewBoard() returns (b: Board)
    ensures fresh(b) && b.AtStart()
  {
    b := new Board();
    b.Init();
  }

  class Engine {
    var board: Board
    /** mMoveHistory: the top of the stack is the last element. */
    var history: History
    /** mCurrentPlayer's colour. */
    var current: Color
    /** mSelectedSquare. */
    var selected: Option<Pos>
    /** mLegalMoves: the highlighted destinations of the selected piece. */
    var legalMoves: set<Pos>
    /** mGameMode is SINGLE or ONLINE: black's moves come from makeBestMove. */
    var vsEngine: bool

    /**
     * Engine(): a fresh board set up by init, white to move, an empty
     * history and nothing selected; the game mode is SINGLE.
     */
    constructor ()
      ensures fresh(board)
      ensures board.AtStart()
      ensures history == [] && current == White && selected == None && legalMoves == {} && vsEngine
    {
      history := [];
      current := White;
      selected := None;
      legalMoves := {};
      vsEngine := true;
      var b := NewBoard();
      board := b;
    }

    /**
     * Engine::makeMove: records whether this is the mover's first move,
     * marks it as moved, pushes the record, clears the target if occupied
     * and the source, and links mover and target both ways.
     */
    method MakeMove(m: Move)
      requires MoveOk(board.Snapshot(), m)
      modifies this`history, board`occupier, board`pieces
      ensures board.Snapshot() == Make(old(board.Snapshot()), m)
      ensures history == old(history) + [Pushed(old(board.Snapshot()), m)]
    {
      var pushed := m.(firstMove := false);
      if !board.pieces[m.piece].movedBefore {
        pushed := pushed.(firstMove := true);
        board.pieces := board.pieces[m.piece := board.pieces[m.piece].(movedBefore := true)];
      }
      history := history + [pushed];
      if board.occupier[m.to].Some? {
        board.Clear(m.to);
      }
      board.Clear(m.from);
      board.SetSquare(m.piece, m.to);
      board.SetOccupier(m.to, m.piece);
    }

    /**
     * Engine::undoMove: pops the top record, restores the first-move flag,
     * clears the target, puts a captured piece back on it, and links the
     * mover and its source square again.
     */
    method UndoMove()
      requires history != []
      requires MoveOk(board.Snapshot(), history[|history| - 1])
      requires history[|history| - 1].opponent.Some? ==> history[|history| - 1].opponent.value < |board.pieces|
      modifies this`history, board`occupier, board`pieces
      ensures board.Snapshot() == Undo(old(board.Snapshot()), old(history)[|old(history)| - 1])
      ensures history == old(history)[..|old(history)| - 1]
    {
      var m := history[|history| - 1];
      history := history[..|history| - 1];
      ghost var p0 := board.Snapshot();
      if m.firstMove {
        board.pieces := board.pieces[m.piece := board.pieces[m.piece].(movedBefore := false)];
      }
      ghost var p1 := board.Snapshot();
      assert p1 == if m.firstMove then SetMoved(p0, m.piece, false) else p0;
      board.Clear(m.to);
      ghost var p2 := board.Snapshot();
      if m.opponent.Some? {
        board.SetOccupier(m.to, m.opponent.value);
        board.SetSquare(m.opponent.value, m.to);
      }
      assert board.Snapshot() == match m.opponent
        case Some(o) => SetSquare(SetOccupier(p2, m.to, o), o, m.to)
        case None => p2;
      board.Clear(m.from);
      board.SetOccupier(m.from, m.piece);
      board.SetSquare(m.piece, m.from);
    }

    /** makeMove followed by undoMove leaves the board and the history as they were. */
    method MakeThenUndo(m: Move)
      requires Fits(board.Snapshot(), m)
      modifies this`history, board`occupier, board`pieces
      ensures board.Snapshot() == old(board.Snapshot()) && history == old(history)
    {
      MakeUndo(board.Snapshot(), m);
      MakeMove(m);
      UndoMove();
    }

    /**
     * Engine::wouldExposeKing: plays m, asks whether the current player is
     * in check, and takes m back.
     */
    method WouldExposeKing(m: Move) returns (exposed: bool)
      requires Playable(board.Snapshot(), history, m)
      modifies this`history, board`occupier, board`pieces
      ensures exposed == Exposes(old(board.Snapshot()), old(history), m, current)
      ensures board.Snapshot() == old(board.Snapshot()) && history == old(history)
    {
      ChildOk(board.Snapshot(), history, m);
      MakeUndo(board.Snapshot(), m);
      MakeMove(m);
      exposed := IsPlayerInCheck(board.Snapshot(), history, current);
      UndoMove();
    }

    /**
     * Engine::generateAllPossibleMoves: empties mLegalMoves and returns every
     * move of colour c's placed pieces, none of them onto a king.
     */
    method GenerateAllPossibleMoves(c: Color) returns (moves: seq<Move>)
      requires Linked(board.Snapshot()) && TopOk(board.Snapshot(), history)
      modifies this`legalMoves
      ensures moves == AllMoves(board.Snapshot(), history, c)
      ensures legalMoves == {}
    {
      legalMoves := {};
      moves := GenerateAllMoves(board.Snapshot(), history, c);
    }

    /**
     * Engine::minimax: the evaluation at depth 0; otherwise the side's
     * moves, capture-first, each searched between makeMove and undoMove
     * unless it would expose the current player's king. The value is the
     * pruned search's, and the board and history are as before.
     */
    method Minimax(depth: nat, alpha: int, beta: int, maximizing: bool) returns (value: int)
      requires SearchOk(board.Snapshot(), history)
      modifies this`history, this`legalMoves, board`occupier, board`pieces
      ensures value == AlphaBeta(old(board.Snapshot()), old(history), depth, alpha, beta, maximizing, current)
      ensures board.Snapshot() == old(board.Snapshot()) && history == old(history)
      ensures old(legalMoves) == {} ==> legalMoves == {}
      decreases depth, 2
    {
      if depth == 0 {
        value := EvaluateBoard(board.pieces);
        return;
      }
      var moves := GenerateAllPossibleMoves(SideToMove(maximizing));
      moves := SortMoves(board.Snapshot(), moves);
      if maximizing {
        value := MaxSearch(depth, moves, alpha, beta);
      } else {
        value := MinSearch(depth, moves, alpha, beta);
      }
    }

    /** One iteration's makeMove, recursive minimax and undoMove. */
    method SearchAfter(m: Move, depth: nat, alpha: int, beta: int, maximizing: bool) returns (eval: int)
      requires Playable(board.Snapshot(), history, m)
      modifies this`history, this`legalMoves, board`occupier, board`pieces
      ensures MoveOk(old(board.Snapshot()), m)
      ensures eval == AlphaBeta(Make(old(board.Snapshot()), m), old(history) + [Pushed(old(board.Snapshot()), m)],
        depth, alpha, beta, maximizing, current)
      ensures board.Snapshot() == old(board.Snapshot()) && history == old(history)
      ensures old(legalMoves) == {} ==> legalMoves == {}
      decreases depth, 3
    {
      ChildOk(board.Snapshot(), history, m);
      MakeUndo(board.Snapshot(), m);
      MakeMove(m);
      eval := Minimax(depth, alpha, beta, maximizing);
      UndoMove();
    }

    /** One iteration of the maximising loop: skip a move that exposes the king, else search it and raise maxEval and alpha. */
    method MaxVisit(depth: nat, moves: seq<Move>, k: nat, alpha: int, beta: int, maxEval: int)
        returns (alpha': int, maxEval': int, stop: bool)
      requires depth >= 1 && SearchOk(board.Snapshot(), history)
      requires moves == SearchMoves(board.Snapshot(), history, true) && k < |moves|
      modifies this`history, this`legalMoves, board`occupier, board`pieces
      ensures MaxLoop(old(board.Snapshot()), old(history), depth - 1, moves[k..], alpha, beta, maxEval, current)
        == if stop then maxEval' else MaxLoop(old(board.Snapshot()), old(history), depth - 1, moves[k + 1..], alpha', beta, maxEval', current)
      ensures board.Snapshot() == old(board.Snapshot()) && history == old(history)
      ensures old(legalMoves) == {} ==> legalMoves == {}
      decreases depth, 0
    {
      SearchMovesPlayable(board.Snapshot(), history, true, k);
      var m := moves[k];
      assert moves[k..][0] == m && moves[k..][1..] == moves[k + 1..];
      MaxLoopStep(board.Snapshot(), history, depth - 1, moves[k..], alpha, beta, maxEval, current);
      var exposed := WouldExposeKing(m);
      if exposed {
        return alpha, maxEval, false;
      }
      var eval := SearchAfter(m, depth - 1, alpha, beta, false);
      maxEval' := Max(maxEval, eval);
      alpha' := Max(alpha, eval);
      stop := beta <= alpha';
    }

    /** The maximising loop of minimax: maxEval and pAlpha rise with each value; beta <= alpha breaks. */
    method MaxSearch(depth: nat, moves: seq<Move>, alpha: int, beta: int) returns (maxEval: int)
      requires depth >= 1 && SearchOk(board.Snapshot(), history)
      requires moves == SearchMoves(board.Snapshot(), history, true)
      modifies this`history, this`legalMoves, board`occupier, board`pieces
      ensures maxEval == MaxLoop(old(board.Snapshot()), old(history), depth - 1, moves, alpha, beta, -100000, current)
      ensures board.Snapshot() == old(board.Snapshot()) && history == old(history)
      ensures old(legalMoves) == {} ==> legalMoves == {}
      decreases depth, 1
    {
      ghost var pos, hist := board.Snapshot(), history;
      ghost var target := MaxLoop(pos, hist, depth - 1, moves, alpha, beta, -100000, current);
      maxEval := -100000;
      var a := alpha;
      var k := 0;
      while k < |moves|
        invariant 0 <= k <= |moves|
        invariant board.Snapshot() == pos && history == hist
        invariant old(legalMoves) == {} ==> legalMoves == {}
        invariant MaxLoop(pos, hist, depth - 1, moves[k..], a, beta, maxEval, current) == target
        decreases |moves| - k
      {
        var stop;
        a, maxEval, stop := MaxVisit(depth, moves, k, a, beta, maxEval);
        if stop {
          break;
        }
        k := k + 1;
      }
    }

    /** One iteration of the minimising loop: skip a move that exposes the king, else search it and lower minEval and beta. */
    method MinVisit(depth: nat, moves: seq<Move>, k: nat, alpha: int, beta: int, minEval: int)
        returns (beta': int, minEval': int, stop: bool)
      requires depth >= 1 && SearchOk(board.Snapshot(), history)
      requires moves == SearchMoves(board.Snapshot(), history, false) && k < |moves|
      modifies this`history, this`legalMoves, board`occupier, board`pieces
      ensures MinLoop(old(board.Snapshot()), old(history), depth - 1, moves[k..], alpha, beta, minEval, current)
        == if stop then minEval' else MinLoop(old(board.Snapshot()), old(history), depth - 1, moves[k + 1..], alpha, beta', minEval', current)
      ensures board.Snapshot() == old(board.Snapshot()) && history == old(history)
      ensures old(legalMoves) == {} ==> legalMoves == {}
      decreases depth, 0
    {
      SearchMovesPlayable(board.Snapshot(), history, false, k);
      var m := moves[k];
      assert moves[k..][0] == m && moves[k..][1..] == moves[k + 1..];
      MinLoopStep(board.Snapshot(), history, depth - 1, moves[k..], alpha, beta, minEval, current);
      var exposed := WouldExposeKing(m);
      if exposed {
        return beta, minEval, false;
      }
      var eval := SearchAfter(m, depth - 1, alpha, beta, true);
      minEval' := Min(minEval, eval);
      beta' := Min(beta, eval);
      stop := beta' <= alpha;
    }

    /** The minimising loop of minimax: minEval and pBeta fall with each value; beta <= alpha breaks. */
    method MinSearch(depth: nat, moves: seq<Move>, alpha: int, beta: int) returns (minEval: int)
      requires depth >= 1 && SearchOk(board.Snapshot(), history)
      requires moves == SearchMoves(board.Snapshot(), history, false)
      modifies this`history, this`legalMoves, board`occupier, board`pieces
      ensures minEval == MinLoop(old(board.Snapshot()), old(history), depth - 1, moves, alpha, beta, 100000, current)
      ensures board.Snapshot() == old(board.Snapshot()) && history == old(history)
      ensures old(legalMoves) == {} ==> legalMoves == {}
      decreases depth, 1
    {
      ghost var pos, hist := board.Snapshot(), history;
      ghost var target := MinLoop(pos, hist, depth - 1, moves, alpha, beta, 100000, current);
      minEval := 100000;
      var b := beta;
      var k := 0;
      while k < |moves|
        invariant 0 <= k <= |moves|
        invariant board.Snapshot() == pos && history == hist
        invariant old(legalMoves) == {} ==> legalMoves == {}
        invariant MinLoop(pos, hist, depth - 1, moves[k..], alpha, b, minEval, current) == target
        decreases |moves| - k
      {
        var stop;
        b, minEval, stop := MinVisit(depth, moves, k, alpha, b, minEval);
        if stop {
          break;
        }
        k := k + 1;
      }
    }

    /** makeBestMove's value of one root move: minimax(3, -100000, 100000, false) after it, plus the capture bonus. */
    method RootMoveValue(m: Move) returns (value: int)
      requires Playable(board.Snapshot(), history, m)
      requires m.kind == Capture ==> m.opponent.Some? && m.opponent.value < |board.pieces|
      modifies this`history, this`legalMoves, board`occupier, board`pieces
      ensures value == RootValue(old(board.Snapshot()), old(history), current, m)
      ensures board.Snapshot() == old(board.Snapshot()) && history == old(history)
      ensures old(legalMoves) == {} ==> legalMoves == {}
    {
      value := SearchAfter(m, 3, -100000, 100000, false);
      if m.kind == Capture {
        value := value + PieceValue(board.pieces[m.opponent.value].kind);
      }
    }

    /**
     * makeBestMove's loop over black's moves: skips a move that would
     * expose the current player's king, keeps the best value (strictly
     * greater replaces it) and the moves that reach it.
     */
    method ScanRoot(possible: seq<Move>) returns (bestValue: int, ties: seq<Move>)
      requires SearchOk(board.Snapshot(), history)
      requires possible == AllMoves(board.Snapshot(), history, Black)
      modifies this`history, this`legalMoves, board`occupier, board`pieces
      ensures bestValue == BestValue(old(board.Snapshot()), old(history), current, possible)
      ensures ties == Ties(old(board.Snapshot()), old(history), current, possible, bestValue)
      ensures board.Snapshot() == old(board.Snapshot()) && history == old(history)
      ensures old(legalMoves) == {} ==> legalMoves == {}
    {
      ghost var pos, hist := board.Snapshot(), history;
      bestValue, ties := -100000, [];
      for k := 0 to |possible|
        invariant board.Snapshot() == pos && history == hist
        invariant old(legalMoves) == {} ==> legalMoves == {}
        invariant bestValue == BestValue(pos, hist, current, possible[..k])
        invariant ties == Ties(pos, hist, current, possible[..k], bestValue)
      {
        var m := possible[k];
        AllMovesPlayable(pos, hist, Black, m);
        ScanStep(pos, hist, current, possible, k, bestValue, ties);
        var exposed := WouldExposeKing(m);
        if exposed {
          continue;
        }
        var value := RootMoveValue(m);
        if value > bestValue {
          ties := [m];
          bestValue := value;
        } else if value == bestValue {
          ties := ties + [m];
        }
      }
      assert possible[..|possible|] == possible;
    }

    /**
     * The end of makeBestMove for the chosen move: the safety check finds
     * that it does not expose the king, so the fallback search is never
     * entered; the source square is cleared and relinked to the mover,
     * which changes nothing; then makeMove plays it.
     */
    method PlayChosen(m: Move)
      requires Playable(board.Snapshot(), history, m) && !Exposes(board.Snapshot(), history, m, current)
      modifies this`history, board`occupier, board`pieces
      ensures MoveOk(old(board.Snapshot()), m)
      ensures board.Snapshot() == Make(old(board.Snapshot()), m)
      ensures history == old(history) + [Pushed(old(board.Snapshot()), m)]
    {
      var exposed := WouldExposeKing(m);
      assert !exposed;
      RelinkSame(board.Snapshot(), m.piece, m.from);
      board.Clear(m.from);
      board.SetSquare(m.piece, m.from);
      board.SetOccupier(m.from, m.piece);
      MakeMove(m);
    }

    /**
     * Engine::makeBestMove: black plays a best move, preferring the most
     * valuable capture among the best, and any best move otherwise. With
     * no move that keeps the king safe nothing is played.
     */
    method MakeBestMove() returns (played: Option<Move>)
      requires SearchOk(board.Snapshot(), history)
      modifies this`history, this`legalMoves, board`occupier, board`pieces
      ensures played.None? <==> RootTies(old(board.Snapshot()), old(history), current) == []
      ensures played.Some? ==> played.value in RootTies(old(board.Snapshot()), old(history), current)
      ensures played.Some? ==> BestChoice(old(board.Snapshot()), old(history), current, played.value)
      ensures played.Some? && SomeCapture(old(board.Snapshot()), RootTies(old(board.Snapshot()), old(history), current)) ==>
        played.value.kind == Capture && TopCapture(old(board.Snapshot()), RootTies(old(board.Snapshot()), old(history), current), played.value)
      ensures played.Some? ==> MoveOk(old(board.Snapshot()), played.value)
      ensures played.Some? ==> board.Snapshot() == Make(old(board.Snapshot()), played.value)
      ensures played.Some? ==> history == old(history) + [Pushed(old(board.Snapshot()), played.value)]
      ensures played.None? ==> board.Snapshot() == old(board.Snapshot()) && history == old(history)
      ensures legalMoves == {}
    {
      ghost var pos, hist := board.Snapshot(), history;
      var possible := GenerateAllPossibleMoves(Black);
      var bestValue, ties := ScanRoot(possible);
      if ties == [] {
        return None;
      }
      var best := ChooseMove(board.Snapshot(), ties);
      TieIsBest(pos, hist, current, best);
      PlayChosen(best);
      played := Some(best);
    }

    /**
     * Engine::resetEngine: a new board set up by init, and white to move.
     * The history stack is kept as it is.
     */
    method ResetEngine()
      modifies this`board, this`current
      ensures fresh(board) && board.AtStart()
      ensures current == White
      ensures history == old(history) && legalMoves == old(legalMoves)
    {
      var b := NewBoard();
      board := b;
      if current != White {
        current := Other(current);
      }
    }

    /** checkForCheckmate's loop: true when every move would expose the current player's king. */
    method AllExpose(moves: seq<Move>) returns (all: bool)
      requires SearchOk(board.Snapshot(), history)
      requires moves == AllMoves(board.Snapshot(), history, current)
      modifies this`history, board`occupier, board`pieces
      ensures all <==> AllExposed(old(board.Snapshot()), old(history), current, moves)
      ensures board.Snapshot() == old(board.Snapshot()) && history == old(history)
    {
      ghost var pos, hist := board.Snapshot(), history;
      for k := 0 to |moves|
        invariant board.Snapshot() == pos && history == hist
        invariant AllExposed(pos, hist, current, moves[..k])
      {
        AllMovesPlayable(pos, hist, current, moves[k]);
        var exposed := WouldExposeKing(moves[k]);
        if !exposed {
          NotAllExposed(pos, hist, current, moves, k);
          return false;
        }
        AllExposedStep(pos, hist, current, moves, k);
      }
      assert moves[..|moves|] == moves;
      all := true;
    }

    /**
     * Engine::checkForCheckmate: the current player is mated when in check
     * with every generated move exposing the king; then the game ends and
     * the engine is reset. Otherwise nothing changes except that mLegalMoves
     * is emptied once the moves are generated.
     */
    method CheckForCheckmate() returns (mate: bool)
      requires SearchOk(board.Snapshot(), history)
      modifies this`board, this`current, this`history, this`legalMoves, board`occupier, board`pieces
      ensures mate <==> Checkmated(old(board.Snapshot()), old(history), old(current))
      ensures mate ==> fresh(board) && board.AtStart() && current == White
      ensures !mate ==> board == old(board) && board.Snapshot() == old(board.Snapshot()) && current == old(current)
      ensures history == old(history)
      ensures old(legalMoves) == {} ==> legalMoves == {}
    {
      mate := MateScan();
      if mate {
        ResetEngine();
      }
    }

    /** checkForCheckmate's test: in check, and every generated move exposes the king. */
    method MateScan() returns (mate: bool)
      requires SearchOk(board.Snapshot(), history)
      modifies this`history, this`legalMoves, board`occupier, board`pieces
      ensures mate <==> Checkmated(old(board.Snapshot()), old(history), current)
      ensures board.Snapshot() == old(board.Snapshot()) && history == old(history)
      ensures old(legalMoves) == {} ==> legalMoves == {}
    {
      var inCheck := IsPlayerInCheck(board.Snapshot(), history, current);
      if !inCheck {
        return false;
      }
      var moves := GenerateAllPossibleMoves(current);
      mate := AllExpose(moves);
    }

    /** Engine::deselectSquare with clearHighlights: nothing selected and nothing highlighted. */
    method DeselectSquare()
      modifies this`selected, this`legalMoves, board`selected
      ensures selected == None && legalMoves == {}
      ensures old(selected).Some? ==> board.selected == old(board.selected) - {old(selected).value}
      ensures old(selected).None? ==> board.selected == old(board.selected)
    {
      if selected.Some? {
        board.DeSelect(selected.value);
      }
      selected := None;
      legalMoves := {};
    }

    /** Engine::copyMoves: the destinations join the highlighted set. */
    method CopyMoves(moves: seq<Pos>)
      modifies this`legalMoves
      ensures forall t :: t in legalMoves <==> t in old(legalMoves) || t in moves
    {
      for k := 0 to |moves|
        invariant forall t :: t in legalMoves <==> t in old(legalMoves) || t in moves[..k]
      {
        assert moves[..k + 1] == moves[..k] + [moves[k]];
        legalMoves := legalMoves + {moves[k]};
      }
      assert moves[..|moves|] == moves;
    }

    /**
     * Engine::selectSquare: a square holding a piece of the player to move
     * becomes the selection and its piece's destinations join the
     * highlighted set; any other square changes nothing.
     */
    method SelectSquare(t: Pos)
      requires Linked(board.Snapshot()) && TopOk(board.Snapshot(), history) && InBounds(t)
      modifies this`selected, this`legalMoves, board`selected
      ensures OwnedBy(board.Snapshot(), t, current) ==>
        && selected == Some(t)
        && board.selected == old(board.selected) + {t}
        && legalMoves == old(legalMoves) + Destinations(board.Snapshot(), history, t)
      ensures !OwnedBy(board.Snapshot(), t, current) ==>
        selected == old(selected) && legalMoves == old(legalMoves) && board.selected == old(board.selected)
    {
      if board.occupier[t].Some? {
        var i := board.occupier[t].value;
        if board.pieces[i].color == current {
          selected := Some(t);
          board.Select(t);
          LinkedPlaced(board.Snapshot(), i);
          var moves := GeneratePossibleMoves(board.Snapshot(), history, i);
          CopyMoves(moves);
        }
      }
    }

    /**
     * Engine::switchSelection: the previous selection is deselected, the
     * highlights cleared, and the square t, holding a piece, becomes the
     * selection with its piece's destinations highlighted.
     */
    method SwitchSelection(t: Pos)
      requires Linked(board.Snapshot()) && TopOk(board.Snapshot(), history) && InBounds(t)
      requires board.occupier[t].Some? && selected.Some?
      modifies this`selected, this`legalMoves, board`selected
      ensures selected == Some(t)
      ensures board.selected == old(board.selected) - {old(selected).value} + {t}
      ensures legalMoves == Destinations(board.Snapshot(), history, t)
    {
      legalMoves := {};
      board.DeSelect(selected.value);
      selected := Some(t);
      var i := board.occupier[t].value;
      board.Select(t);
      LinkedPlaced(board.Snapshot(), i);
      var moves := GeneratePossibleMoves(board.Snapshot(), history, i);
      CopyMoves(moves);
    }

    /** Engine::isLegalMove: whether t is among the highlighted destinations. */
    method IsLegalMove(t: Pos) returns (legal: bool)
      ensures legal <==> t in legalMoves
    {
      if legalMoves == {} {
        return false;
      }
      legal := t in legalMoves;
    }

    /**
     * Engine::switchPlayers: the mover's king square is deselected and the
     * turn passes. A mate of the new player resets the game; otherwise, if
     * the engine plays black and black is to move, black's best move is
     * played and the turn passes back to white.
     */
    method SwitchPlayers()
      requires SearchOk(board.Snapshot(), history)
      requires board.pieces[FindKing(current)].square.Some?
      modifies this`board, this`current, this`history, this`legalMoves, board`occupier, board`pieces, board`selected
      ensures old(legalMoves) == {} ==> legalMoves == {}
      ensures Checkmated(old(board.Snapshot()), old(history), Other(old(current))) ==>
        fresh(board) && board.AtStart() && current == White && history == old(history)
      ensures !Checkmated(old(board.Snapshot()), old(history), Other(old(current))) ==> board == old(board)
      ensures !Checkmated(old(board.Snapshot()), old(history), Other(old(current))) && (old(current) == Black || !vsEngine) ==>
        && board.Snapshot() == old(board.Snapshot()) && history == old(history) && current == Other(old(current))
        && board.selected == old(board.selected) - {old(board.pieces[FindKing(current)].square.value)}
      ensures !Checkmated(old(board.Snapshot()), old(history), Other(old(current))) && old(current) == White && vsEngine ==>
        && current == White
        && board.selected == old(board.selected) - {old(board.pieces[FindKing(current)].square.value)}
        && (RootTies(old(board.Snapshot()), old(history), Black) == [] ==>
              board.Snapshot() == old(board.Snapshot()) && history == old(history))
        && (RootTies(old(board.Snapshot()), old(history), Black) != [] ==>
              exists p :: p in RootTies(old(board.Snapshot()), old(history), Black)
                && MoveOk(old(board.Snapshot()), p)
                && board.Snapshot() == Make(old(board.Snapshot()), p)
                && history == old(history) + [Pushed(old(board.Snapshot()), p)])
      ensures |history| >= |old(history)| && history[..|old(history)|] == old(history)
      ensures board == old(board) ==> |board.pieces| == |old(board.pieces)|
    {
      ghost var pos, hist := board.Snapshot(), history;
      board.DeSelect(board.pieces[FindKing(current)].square.value);
      current := Other(current);
      var mate := CheckForCheckmate();
      if current == Black && vsEngine {
        ghost var hist1 := history;
        var played := MakeBestMove();
        current := Other(current);
        assert history[..|hist1|] == hist1;
      }
    }

    /**
     * movePiece's ply after its checks and the push of its record: a king's
     * square is deselected; the selected square, which is the source, is
     * cleared; the piece records the target and is marked moved; the target
     * holds it. The result is makeMove's.
     */
    method PlayManual(m: Move)
      requires Fits(board.Snapshot(), m) && m.opponent.None?
      modifies board`occupier, board`pieces, board`selected
      ensures board.Snapshot() == Make(old(board.Snapshot()), m)
      ensures old(board.pieces[m.piece].kind) == King ==> board.selected == old(board.selected) - {m.from}
      ensures old(board.pieces[m.piece].kind) != King ==> board.selected == old(board.selected)
    {
      ghost var p0 := board.Snapshot();
      ManualPlyIsMake(p0, m);
      if board.pieces[m.piece].kind == King {
        board.DeSelect(m.from);
      }
      board.Clear(m.from);
      assert board.Snapshot() == ClearSquare(p0, m.from);
      board.SetSquare(m.piece, m.to);
      board.pieces := board.pieces[m.piece := board.pieces[m.piece].(movedBefore := true)];
      assert board.Snapshot() == SetMoved(SetSquare(ClearSquare(p0, m.from), m.piece, m.to), m.piece, true);
      board.SetOccupier(m.to, m.piece);
    }

    /** movePiece's refusal of a move that would expose the king: the selection is dropped and the king's square selected. */
    method RefuseManual()
      requires FindKing(current) < |board.pieces| && board.pieces[FindKing(current)].square.Some?
      modifies this`selected, this`legalMoves, board`selected
      ensures selected == None && legalMoves == {}
      ensures old(selected).Some? ==>
        board.selected == old(board.selected) - {old(selected).value} + {board.pieces[FindKing(current)].square.value}
    {
      DeselectSquare();
      board.Select(board.pieces[FindKing(current)].square.value);
    }

    /** movePiece once its checks pass and its record is pushed: the ply m, then the selection is dropped and the turn passes. */
    method PlayAndPass(m: Move)
      requires SearchOk(board.Snapshot(), history) && Fits(board.Snapshot(), m) && m.opponent.None?
      requires board.pieces[FindKing(current)].square.Some?
      modifies this`board, this`current, this`history, this`legalMoves, this`selected
      modifies board`occupier, board`pieces, board`selected
      ensures selected == None && legalMoves == {}
      ensures Passed(Make(old(board.Snapshot()), m), old(history), old(current), vsEngine,
                     board == old(board), board.Snapshot(), history, current)
      ensures |history| >= |old(history)| && history[..|old(history)|] == old(history)
      ensures !vsEngine ==> history == old(history)
      ensures board == old(board) ==> |board.pieces| == |old(board.pieces)|
    {
      AfterManual(board.Snapshot(), history, m, current);
      PlayManual(m);
      DeselectSquare();
      PassTurn();
    }

    /** switchPlayers as movePiece relies on it: its outcome as Passed states it, and the history only grows. */
    method PassTurn()
      requires SearchOk(board.Snapshot(), history)
      requires board.pieces[FindKing(current)].square.Some?
      modifies this`board, this`current, this`history, this`legalMoves, board`occupier, board`pieces, board`selected
      ensures old(legalMoves) == {} ==> legalMoves == {}
      ensures Passed(old(board.Snapshot()), old(history), old(current), vsEngine, board == old(board), board.Snapshot(), history, current)
      ensures |history| >= |old(history)| && history[..|old(history)|] == old(history)
      ensures !vsEngine ==> history == old(history)
      ensures board == old(board) ==> |board.pieces| == |old(board.pieces)|
    {
      SwitchPlayers();
    }

    /** movePiece after the legality check: the safety test for a piece other than the king, then the ply. */
    method TryManual(i: nat, t: Pos)
      requires SearchOk(board.Snapshot(), history)
      requires i < |board.pieces| && board.pieces[i].square.Some? && selected == board.pieces[i].square
      requires InBounds(t) && board.occupier[t].None?
      requires board.pieces[FindKing(current)].square.Some?
      modifies this`board, this`current, this`history, this`legalMoves, this`selected
      modifies board`occupier, board`pieces, board`selected
      ensures selected == None && legalMoves == {}
      ensures old(board.pieces[i].kind) != King && ManualExposes(old(board.Snapshot()), old(history), i, t, old(current)) ==>
        && board == old(board) && current == old(current)
        && board.Snapshot() == old(board.Snapshot()) && history == old(history)
        && board.selected == old(board.selected) - {old(board.pieces[i].square.value)}
          + {old(board.pieces[FindKing(current)].square.value)}
      ensures !(old(board.pieces[i].kind) != King && ManualExposes(old(board.Snapshot()), old(history), i, t, old(current))) ==>
        |history| > |old(history)| && history[..|old(history)| + 1] == old(history) + [ManualRecord(old(board.Snapshot()), i, t)]
      ensures !(old(board.pieces[i].kind) != King && ManualExposes(old(board.Snapshot()), old(history), i, t, old(current))) && !vsEngine ==>
        history == old(history) + [ManualRecord(old(board.Snapshot()), i, t)]
      ensures ManualOutcome(old(board.Snapshot()), old(history), old(current), vsEngine, i, t,
                            board == old(board), board.Snapshot(), history, current)
      ensures board == old(board) ==> |board.pieces| == |old(board.pieces)|
    {
      ManualPlayable(board.Snapshot(), history, i, t);
      ghost var p0, h0 := board.Snapshot(), history;
      var move := Move(i, None, board.pieces[i].square.value, t, Normal, false);
      if board.pieces[i].kind != King {
        var exposed := WouldExposeKing(move);
        if exposed {
          RefuseManual();
          ManualOutcomeRefused(p0, h0, current, vsEngine, i, t);
          return;
        }
      }
      PushAndPlay(i, t);
    }

    /** movePiece once its safety test passed: the record is pushed, the ply made and the turn passed. */
    method PushAndPlay(i: nat, t: Pos)
      requires SearchOk(board.Snapshot(), history)
      requires i < |board.pieces| && board.pieces[i].square.Some? && selected == board.pieces[i].square
      requires InBounds(t) && board.occupier[t].None?
      requires board.pieces[FindKing(current)].square.Some?
      requires !(board.pieces[i].kind != King && ManualExposes(board.Snapshot(), history, i, t, current))
      modifies this`board, this`current, this`history, this`legalMoves, this`selected
      modifies board`occupier, board`pieces, board`selected
      ensures selected == None && legalMoves == {}
      ensures |history| > |old(history)| && history[..|old(history)| + 1] == old(history) + [ManualRecord(old(board.Snapshot()), i, t)]
      ensures !vsEngine ==> history == old(history) + [ManualRecord(old(board.Snapshot()), i, t)]
      ensures ManualOutcome(old(board.Snapshot()), old(history), old(current), vsEngine, i, t,
                            board == old(board), board.Snapshot(), history, current)
      ensures board == old(board) ==> |board.pieces| == |old(board.pieces)|
    {
      ManualPlayable(board.Snapshot(), history, i, t);
      ghost var p0, h0 := board.Snapshot(), history;
      var move := Move(i, None, board.pieces[i].square.value, t, Normal, false);
      history := history + [move];
      ghost var hist1 := history;
      PlayAndPass(move);
      assert history[..|hist1|] == hist1;
      ManualOutcomePlayed(p0, h0, old(current), vsEngine, i, t, move, board == old(board), board.Snapshot(), history, current);
    }

    /**
     * Engine::movePiece for piece i, standing on the selected square, and
     * the empty square t. A target that is not highlighted only drops the
     * selection. A move of a piece other than the king that would expose
     * the king is refused, and the king's square is selected. Otherwise the
     * record is pushed, the ply is made as makeMove would make it, the
     * selection is dropped and the turn passes (switchPlayers). The
     * in-check flag and the animation positions the source computes are
     * not used by the rules.
     */
    method MovePiece(i: nat, t: Pos)
      requires SearchOk(board.Snapshot(), history)
      requires i < |board.pieces| && board.pieces[i].square.Some? && selected == board.pieces[i].square
      requires InBounds(t) && board.occupier[t].None?
      requires board.pieces[FindKing(current)].square.Some?
      modifies this`board, this`current, this`history, this`legalMoves, this`selected
      modifies board`occupier, board`pieces, board`selected
      ensures selected == None && legalMoves == {}
      ensures t !in old(legalMoves) ==>
        && board == old(board) && current == old(current)
        && board.Snapshot() == old(board.Snapshot()) && history == old(history)
        && board.selected == old(board.selected) - {old(board.pieces[i].square.value)}
      ensures t in old(legalMoves) && old(board.pieces[i].kind) != King
          && ManualExposes(old(board.Snapshot()), old(history), i, t, old(current))
        ==> board == old(board) && board.Snapshot() == old(board.Snapshot()) && history == old(history)
      ensures t in old(legalMoves) && !(old(board.pieces[i].kind) != King
          && ManualExposes(old(board.Snapshot()), old(history), i, t, old(current)))
        ==> (|history| > |old(history)| && history[..|old(history)| + 1] == old(history) + [ManualRecord(old(board.Snapshot()), i, t)])
      ensures t in old(legalMoves) && !(old(board.pieces[i].kind) != King
          && ManualExposes(old(board.Snapshot()), old(history), i, t, old(current))) && !vsEngine
        ==> history == old(history) + [ManualRecord(old(board.Snapshot()), i, t)]
      ensures t in old(legalMoves) ==>
        ManualOutcome(old(board.Snapshot()), old(history), old(current), vsEngine, i, t,
                      board == old(board), board.Snapshot(), history, current)
      ensures board == old(board) ==> |board.pieces| == |old(board.pieces)|
    {
      var legal := IsLegalMove(t);
      if !legal {
        DeselectSquare();
        return;
      }
      TryManual(i, t);
    }

    /**
     * capturePiece's en passant redirection: for a pawn whose isEnPassant
     * square is the clicked one, the landing square one row further on is
     * highlighted and becomes the target.
     */
    method PrepareCapture(i: nat, t: Pos) returns (target: Pos, enPassant: bool)
      requires Capturer(board.Snapshot(), history, i)
      modifies this`legalMoves
      ensures enPassant == EnPassantCapture(board.Snapshot(), history, i, t)
      ensures target == CaptureTarget(board.Snapshot(), history, i, t)
      ensures legalMoves == old(legalMoves) + (if enPassant then {target} else {})
    {
      target, enPassant := t, false;
      if board.pieces[i].kind == Pawn {
        LinkedPlaced(board.Snapshot(), i);
        var square := EnPassantSquare(board.Snapshot(), history, i);
        if square == Some(t) {
          enPassant := true;
          var v := if board.pieces[i].color == White then -1 else 1;
          target := Pos(t.x, t.y + v);
          legalMoves := legalMoves + {target};
        }
      }
    }

    /**
     * Engine::capturePiece as written, for piece i on the selected square
     * and the clicked square t holding a piece of the other colour. A target
     * that is not highlighted only drops the selection. Otherwise the
     * capture record is pushed, the clicked square is cleared, which takes
     * the captured piece off the board, and movePiece is called for the
     * landing square. movePiece pushes a second record for the same ply,
     * and when it refuses the move the captured piece stays off the board.
     * The final deOccupy of the captured piece changes nothing on the board
     * it was cleared from, and touches no square of a board that a
     * checkmate reset replaced.
     */
    method CapturePiece(i: nat, t: Pos)
      requires CaptureOk(board.Snapshot(), history, i, t, FindKing(current))
      requires selected == board.pieces[i].square
      modifies this`board, this`current, this`history, this`legalMoves, this`selected
      modifies board`occupier, board`pieces, board`selected
      ensures selected == None && legalMoves == {}
      ensures t !in old(legalMoves) ==>
        && board == old(board) && current == old(current)
        && board.Snapshot() == old(board.Snapshot()) && history == old(history)
      ensures t in old(legalMoves) && CaptureRefused(old(board.Snapshot()), old(history), i, t, old(current)) ==>
        && board == old(board) && current == old(current)
        && board.Snapshot() == ClearSquare(old(board.Snapshot()), t)
        && history == old(history) + [CaptureRecord(old(board.Snapshot()), old(history), i, t)]
      ensures t in old(legalMoves) && !CaptureRefused(old(board.Snapshot()), old(history), i, t, old(current)) ==>
        && |history| >= |old(history)| + 2
        && history[..|old(history)| + 2] == old(history) + [CaptureRecord(old(board.Snapshot()), old(history), i, t)]
          + [ManualRecord(ClearSquare(old(board.Snapshot()), t), i, CaptureTarget(old(board.Snapshot()), old(history), i, t))]
      ensures t in old(legalMoves) && !CaptureRefused(old(board.Snapshot()), old(history), i, t, old(current)) && !vsEngine ==>
        history == old(history) + [CaptureRecord(old(board.Snapshot()), old(history), i, t)]
          + [ManualRecord(ClearSquare(old(board.Snapshot()), t), i, CaptureTarget(old(board.Snapshot()), old(history), i, t))]
    {
      var legal := IsLegalMove(t);
      if !legal {
        DeselectSquare();
        return;
      }
      CaptureThenMove(i, t);
    }

    /**
     * capturePiece as written once the clicked square is known to be
     * highlighted: push the record, clear the clicked square, call
     * movePiece for the landing square and deOccupy the captured piece.
     */
    method CaptureThenMove(i: nat, t: Pos)
      requires CaptureOk(board.Snapshot(), history, i, t, FindKing(current))
      requires selected == board.pieces[i].square && t in legalMoves
      modifies this`board, this`current, this`history, this`legalMoves, this`selected
      modifies board`occupier, board`pieces, board`selected
      ensures selected == None && legalMoves == {}
      ensures CaptureRefused(old(board.Snapshot()), old(history), i, t, old(current)) ==>
        && board == old(board) && current == old(current)
        && board.Snapshot() == ClearSquare(old(board.Snapshot()), t)
        && history == old(history) + [CaptureRecord(old(board.Snapshot()), old(history), i, t)]
      ensures !CaptureRefused(old(board.Snapshot()), old(history), i, t, old(current)) ==>
        && |history| >= |old(history)| + 2
        && history[..|old(history)| + 2] == old(history) + [CaptureRecord(old(board.Snapshot()), old(history), i, t)]
          + [ManualRecord(ClearSquare(old(board.Snapshot()), t), i, CaptureTarget(old(board.Snapshot()), old(history), i, t))]
      ensures !CaptureRefused(old(board.Snapshot()), old(history), i, t, old(current)) && !vsEngine ==>
        history == old(history) + [CaptureRecord(old(board.Snapshot()), old(history), i, t)]
          + [ManualRecord(ClearSquare(old(board.Snapshot()), t), i, CaptureTarget(old(board.Snapshot()), old(history), i, t))]
    {
      ghost var p0, h0 := board.Snapshot(), history;
      ClearForCapture(p0, h0, i, t, FindKing(current));
      var target, opponent := PushAndClear(i, t);
      assert CaptureRefused(p0, h0, i, t, current)
        == (board.pieces[i].kind != King && ManualExposes(board.Snapshot(), history, i, target, current));
      var before := board;
      MovePiece(i, target);
      if board == before {
        board.DeOccupy(opponent);
      }
    }

    /**
     * capturePiece up to its call of movePiece: the en passant redirection,
     * the push of the capture record and the clearing of the clicked square.
     */
    method PushAndClear(i: nat, t: Pos) returns (target: Pos, opponent: nat)
      requires CaptureOk(board.Snapshot(), history, i, t, FindKing(current))
      requires t in legalMoves
      modifies this`history, this`legalMoves, board`occupier, board`pieces
      ensures target == CaptureTarget(old(board.Snapshot()), old(history), i, t) && target in legalMoves
      ensures Some(opponent) == old(board.occupier[t])
      ensures board.Snapshot() == ClearSquare(old(board.Snapshot()), t)
      ensures history == old(history) + [CaptureRecord(old(board.Snapshot()), old(history), i, t)]
    {
      ghost var p0, h0 := board.Snapshot(), history;
      ClearForCapture(p0, h0, i, t, FindKing(current));
      var enPassant;
      target, enPassant := PrepareCapture(i, t);
      opponent := board.occupier[t].value;
      var move := Move(i, Some(opponent), board.pieces[i].square.value, target, if enPassant then EnPassant else Normal, false);
      history := history + [move];
      board.Clear(t);
    }

    /**
     * capturePiece as evidently intended: one record per capture, and a
     * refused capture leaves the board and the history as they were. The
     * record is pushed and the clicked square cleared as in the source;
     * movePiece's checks follow, without its second push; a move that would
     * expose the king pops the record and puts the captured piece back.
     */
    method CapturePieceOnce(i: nat, t: Pos)
      requires CaptureOk(board.Snapshot(), history, i, t, FindKing(current))
      requires selected == board.pieces[i].square
      modifies this`board, this`current, this`history, this`legalMoves, this`selected
      modifies board`occupier, board`pieces, board`selected
      ensures selected == None && legalMoves == {}
      ensures t !in old(legalMoves) ==>
        && board == old(board) && current == old(current)
        && board.Snapshot() == old(board.Snapshot()) && history == old(history)
      ensures t in old(legalMoves) && CaptureRefused(old(board.Snapshot()), old(history), i, t, old(current)) ==>
        && board == old(board) && current == old(current)
        && board.Snapshot() == old(board.Snapshot()) && history == old(history)
      ensures t in old(legalMoves) && !CaptureRefused(old(board.Snapshot()), old(history), i, t, old(current)) ==>
        && |history| > |old(history)|
        && history[..|old(history)| + 1] == old(history) + [CaptureRecord(old(board.Snapshot()), old(history), i, t)]
      ensures t in old(legalMoves) && !CaptureRefused(old(board.Snapshot()), old(history), i, t, old(current)) && !vsEngine ==>
        history == old(history) + [CaptureRecord(old(board.Snapshot()), old(history), i, t)]
      ensures t in old(legalMoves) ==>
        CaptureOutcome(old(board.Snapshot()), old(history), old(current), vsEngine, i, t,
                       board == old(board), board.Snapshot(), history, current)
    {
      var legal := IsLegalMove(t);
      if !legal {
        DeselectSquare();
        return;
      }
      CaptureOnceChecked(i, t);
    }

    /** The corrected capturePiece once the clicked square is known to be highlighted. */
    method CaptureOnceChecked(i: nat, t: Pos)
      requires CaptureOk(board.Snapshot(), history, i, t, FindKing(current))
      requires selected == board.pieces[i].square && t in legalMoves
      modifies this`board, this`current, this`history, this`legalMoves, this`selected
      modifies board`occupier, board`pieces, board`selected
      ensures selected == None && legalMoves == {}
      ensures CaptureRefused(old(board.Snapshot()), old(history), i, t, old(current)) ==>
        && board == old(board) && current == old(current)
        && board.Snapshot() == old(board.Snapshot()) && history == old(history)
      ensures !CaptureRefused(old(board.Snapshot()), old(history), i, t, old(current)) ==>
        && |history| > |old(history)|
        && history[..|old(history)| + 1] == old(history) + [CaptureRecord(old(board.Snapshot()), old(history), i, t)]
      ensures !CaptureRefused(old(board.Snapshot()), old(history), i, t, old(current)) && !vsEngine ==>
        history == old(history) + [CaptureRecord(old(board.Snapshot()), old(history), i, t)]
      ensures CaptureOutcome(old(board.Snapshot()), old(history), old(current), vsEngine, i, t,
                             board == old(board), board.Snapshot(), history, current)
    {
      ghost var p0, h0 := board.Snapshot(), history;
      ClearForCapture(p0, h0, i, t, FindKing(current));
      var target, opponent := PushAndClear(i, t);
      assert CaptureRefused(p0, h0, i, t, current)
        == (board.pieces[i].kind != King && ManualExposes(board.Snapshot(), history, i, target, current));
      ManualPlayable(board.Snapshot(), history, i, target);
      var move := Move(i, None, board.pieces[i].square.value, target, Normal, false);
      var refused := ManualRefused(move);
      if refused {
        PutBack(t, opponent, p0, h0);
        CaptureOutcomeRefused(old(board.Snapshot()), old(history), old(current), vsEngine, i, t);
        return;
      }
      PlayCapture(i, t, move, old(board.Snapshot()), old(history), old(current), old(board));
    }

    /** capturePiece once the safety test passed: the cleared square's capturer moves and the turn passes. */
    method PlayCapture(i: nat, t: Pos, move: Move, ghost pos: Position, ghost hist: History, ghost c: Color, ghost b: Board)
      requires c == current && b == board
      requires CaptureOk(pos, hist, i, t, FindKing(current)) && !CaptureRefused(pos, hist, i, t, current)
      requires board.Snapshot() == ClearSquare(pos, t) && history == hist + [CaptureRecord(pos, hist, i, t)]
      requires board.pieces[i].square.Some? && move == ManualRecord(board.Snapshot(), i, CaptureTarget(pos, hist, i, t))
      modifies this`board, this`current, this`history, this`legalMoves, this`selected
      modifies board`occupier, board`pieces, board`selected
      ensures selected == None && legalMoves == {}
      ensures |history| >= |old(history)| && history[..|old(history)|] == old(history)
      ensures !vsEngine ==> history == old(history)
      ensures CaptureOutcome(pos, hist, c, vsEngine, i, t, board == b, board.Snapshot(), history, current)
    {
      ClearForCapture(pos, hist, i, t, FindKing(current));
      ManualPlayable(board.Snapshot(), history, i, move.to);
      ghost var q, h := board.Snapshot(), history;
      PlayAndPass(move);
      CaptureOutcomePlayed(pos, hist, old(current), vsEngine, i, t, q, h, move, board == old(board), board.Snapshot(), history, current);
    }

    /** movePiece's safety test: a piece other than the king whose move would expose the king is refused. */
    method ManualRefused(m: Move) returns (refused: bool)
      requires Playable(board.Snapshot(), history, m)
      modifies this`history, board`occupier, board`pieces
      ensures refused == (old(board.pieces[m.piece].kind) != King && Exposes(old(board.Snapshot()), old(history), m, current))
      ensures board.Snapshot() == old(board.Snapshot()) && history == old(history)
    {
      refused := false;
      if board.pieces[m.piece].kind != King {
        refused := WouldExposeKing(m);
      }
    }

    /**
     * The corrected capturePiece's undo of a refused capture: pop the
     * record, put the captured piece back on t, then refuse as movePiece
     * does.
     */
    method PutBack(t: Pos, opponent: nat, ghost pos: Position, ghost hist: History)
      requires Linked(pos) && InBounds(t) && pos.occupier[t] == Some(opponent) && board.Snapshot() == ClearSquare(pos, t)
      requires |history| == |hist| + 1 && history[..|hist|] == hist
      requires FindKing(current) < |board.pieces| && board.pieces[FindKing(current)].square.Some?
      modifies this`history, this`selected, this`legalMoves, board`occupier, board`pieces, board`selected
      ensures board.Snapshot() == pos && history == hist
      ensures selected == None && legalMoves == {}
    {
      assert pos.pieces[opponent].square == Some(t);
      RelinkSame(pos, opponent, t);
      history := history[..|history| - 1];
      board.SetSquare(opponent, t);
      board.SetOccupier(t, opponent);
      RefuseManual();
    }

    /**
     * Engine::proccessMove for the pressed square t while a square is
     * selected: pressing the selected square again drops the selection; if
     * the selected square holds a piece, an empty t is a move, a piece of
     * the other colour a capture, and a piece of the same colour becomes the
     * new selection. Captures go through the corrected capturePiece.
     */
    method ProcessMove(t: Pos)
      requires Ready(board.Snapshot(), history, current, selected) && selected.Some? && InBounds(t)
      modifies this`board, this`current, this`history, this`legalMoves, this`selected
      modifies board`occupier, board`pieces, board`selected
      ensures t == old(selected.value) ==> selected == None && legalMoves == {}
      ensures t != old(selected.value) && old(board.occupier[selected.value]).None? ==>
        selected == old(selected) && legalMoves == old(legalMoves) && board.selected == old(board.selected)
      ensures t != old(selected.value) && old(board.occupier[selected.value]).Some? && old(board.occupier[t]).Some?
          && old(board.pieces[board.occupier[t].value].color == board.pieces[board.occupier[selected.value].value].color)
        ==> selected == Some(t) && legalMoves == Destinations(old(board.Snapshot()), old(history), t)
      ensures t != old(selected.value) && old(board.occupier[selected.value]).Some? && !(old(board.occupier[t]).Some?
          && old(board.pieces[board.occupier[t].value].color == board.pieces[board.occupier[selected.value].value].color))
        ==> selected == None && legalMoves == {}
      ensures t !in old(legalMoves) ==>
        && board == old(board) && current == old(current)
        && board.Snapshot() == old(board.Snapshot()) && history == old(history)
      ensures t != old(selected.value) && old(board.occupier[selected.value]).Some? && old(board.occupier[t]).None?
          && t in old(legalMoves)
        ==> ManualOutcome(old(board.Snapshot()), old(history), old(current), vsEngine, old(board.occupier[selected.value].value), t,
                          board == old(board), board.Snapshot(), history, current)
      ensures t != old(selected.value) && old(board.occupier[selected.value]).Some? && old(board.occupier[t]).Some?
          && old(board.pieces[board.occupier[t].value].color != board.pieces[board.occupier[selected.value].value].color)
          && t in old(legalMoves)
        ==> CaptureOutcome(old(board.Snapshot()), old(history), old(current), vsEngine, old(board.occupier[selected.value].value), t,
                           board == old(board), board.Snapshot(), history, current)
      ensures Dispatched(old(board.Snapshot()), old(history), old(current), vsEngine, old(selected), old(legalMoves), t,
                         board == old(board), board.Snapshot(), history, current, selected, legalMoves)
    {
      var from := selected.value;
      if t == from {
        DeselectSquare();
        return;
      }
      if board.occupier[from].Some? {
        var i := board.occupier[from].value;
        if board.occupier[t].None? {
          MovePiece(i, t);
        } else if board.pieces[board.occupier[t].value].color != board.pieces[i].color {
          CapturePieceOnce(i, t);
        } else {
          SwitchSelection(t);
        }
      }
    }

    /**
     * Engine::handleInput for one input from the dispatcher: anything but a
     * press is ignored; a press is mapped to the square under it, which is
     * selected when nothing is, and otherwise handed to proccessMove.
     */
    method HandlePress(io: InputObject)
      requires Ready(board.Snapshot(), history, current, selected)
      modifies this`board, this`current, this`history, this`legalMoves, this`selected
      modifies board`occupier, board`pieces, board`selected
      ensures io.kind != Press || PixelToSquare(Signed(io.x), Signed(io.y)).None? ==>
        && board == old(board) && current == old(current) && history == old(history)
        && board.Snapshot() == old(board.Snapshot()) && selected == old(selected) && legalMoves == old(legalMoves)
      ensures io.kind == Press && PixelToSquare(Signed(io.x), Signed(io.y)).Some? && old(selected).None? ==>
        var t := PixelToSquare(Signed(io.x), Signed(io.y)).value;
        && board == old(board) && board.Snapshot() == old(board.Snapshot()) && history == old(history)
        && current == old(current)
        && (OwnedBy(board.Snapshot(), t, current) ==>
              selected == Some(t) && legalMoves == old(legalMoves) + Destinations(board.Snapshot(), history, t))
        && (!OwnedBy(board.Snapshot(), t, current) ==> selected == None && legalMoves == old(legalMoves))
      ensures io.kind == Press && PixelToSquare(Signed(io.x), Signed(io.y)).Some?
          && PixelToSquare(Signed(io.x), Signed(io.y)).value !in old(legalMoves)
        ==> board == old(board) && board.Snapshot() == old(board.Snapshot()) && history == old(history)
      ensures io.kind == Press && PixelToSquare(Signed(io.x), Signed(io.y)).Some? && old(selected).Some? ==>
        Dispatched(old(board.Snapshot()), old(history), old(current), vsEngine, old(selected), old(legalMoves),
                   PixelToSquare(Signed(io.x), Signed(io.y)).value,
                   board == old(board), board.Snapshot(), history, current, selected, legalMoves)
    {
      if io.kind != Press {
        return;
      }
      var square := PixelToSquare(Signed(io.x), Signed(io.y));
      if square.None? {
        return;
      }
      if selected.None? {
        SelectSquare(square.value);
      } else {
        ProcessMove(square.value);
      }
    }
  }
}

=== FILE: eval.dfy ===
/**
 * Static evaluation of the engine (src/engine.cc: getPieceValue and
 * evaluateBoard). Scores are from white's side: white material counts
 * positive, black material negative.
 */
module Evaluation {
  import opened Wrappers
  import opened Arena
  import opened BoardModel

  /** Engine::getPieceValue: the fixed material table. */
  function PieceValue(k: PieceType): (r: int)
    ensures 100 <= r <= 20000
    ensures r == 20000 <==> k == King
  {
    match k
    case Pawn => 100
    case Knight => 320
    case Bishop => 330
    case Rook => 500
    case Queen => 900
    case King => 20000
  }

  /** The table orders the types pawn < knight < bishop < rook < queen < king. */
  lemma PieceValueOrder()
    ensures PieceValue(Pawn) < PieceValue(Knight) < PieceValue(Bishop) < PieceValue(Rook)
      < PieceValue(Queen) < PieceValue(King)
  {
  }

  function Abs(n: int): nat {
    if n < 0 then -n else n
  }

  /**
   * The source computes |3.5 - file| + |3.5 - rank| in floating point and
   * truncates it to int. Twice that sum is |7 - 2 file| + |7 - 2 rank|, a sum
   * of two odd numbers, so the sum itself is an integer and truncation never
   * changes it: the distance is exactly half the integer sum.
   */
  function CenterDistance(file: int, rank: int): (d: int)
    ensures 2 * d == Abs(7 - 2 * file) + Abs(7 - 2 * rank)
    ensures 0 <= file < 8 && 0 <= rank < 8 ==> 1 <= d <= 7
  {
    (Abs(7 - 2 * file) + Abs(7 - 2 * rank)) / 2
  }

  /** A piece's contribution to evaluateBoard: nothing unless it stands on a square. */
  function PieceScore(p: Piece): int {
    match p.square
    case None => 0
    case Some(t) =>
      var value := PieceValue(p.kind);
      var material := if p.color == White then value else -value;
      var pawnBonus := if p.kind == Pawn then (if p.color == White then t.y else 7 - t.y) * 10 else 0;
      var development := (8 - CenterDistance(t.x, t.y)) * 5;
      var developmentBonus :=
        if p.kind == Knight || p.kind == Bishop then (if p.color == White then development else -development)
        else 0;
      material + pawnBonus + developmentBonus
  }

  /** evaluateBoard's running score after the first n pieces. */
  function EvalUpTo(ps: seq<Piece>, n: nat): int
    requires n <= |ps|
  {
    if n == 0 then 0 else EvalUpTo(ps, n - 1) + PieceScore(ps[n - 1])
  }

  function Eval(ps: seq<Piece>): int {
    EvalUpTo(ps, |ps|)
  }

  /** Engine::evaluateBoard: the accumulator loop over the piece list. */
  method EvaluateBoard(ps: seq<Piece>) returns (score: int)
    ensures score == Eval(ps)
  {
    score := 0;
    for i := 0 to |ps|
      invariant score == EvalUpTo(ps, i)
    {
      var p := ps[i];
      if p.square.Some? {
        var t := p.square.value;
        var pieceValue := PieceValue(p.kind);
        score := score + if p.color == White then pieceValue else -pieceValue;
        if p.kind == Pawn {
          var rank := t.y;
          score := score + (if p.color == White then rank else 7 - rank) * 10;
        }
        if p.kind == Knight || p.kind == Bishop {
          var rank := t.y;
          var file := t.x;
          var centerDistance := CenterDistance(file, rank);
          var developmentBonus := (8 - centerDistance) * 5;
          score := score + if p.color == White then developmentBonus else -developmentBonus;
        }
      }
    }
  }

  /** The most a piece of this type can add to or take from the score. */
  function Weight(k: PieceType): int {
    PieceValue(k) + 70
  }

  /** The sum of the weights of the first n pieces. */
  function MaterialUpTo(ps: seq<Piece>, n: nat): int
    requires n <= |ps|
  {
    if n == 0 then 0 else MaterialUpTo(ps, n - 1) + Weight(ps[n - 1].kind)
  }

  function Material(ps: seq<Piece>): int {
    MaterialUpTo(ps, |ps|)
  }

  /** A piece on the board contributes at most its weight, in either direction. */
  lemma PieceScoreBound(p: Piece)
    requires p.square.Some? ==> InBounds(p.square.value)
    ensures -Weight(p.kind) <= PieceScore(p) <= Weight(p.kind)
  {
    if p.square.Some? {
      var t := p.square.value;
      var d := CenterDistance(t.x, t.y);
      assert 1 <= d <= 7;
    }
  }

  /** The score is bounded by the total weight of the pieces. */
  lemma {:induction false} EvalUpToBound(ps: seq<Piece>, n: nat)
    requires n <= |ps|
    requires forall k :: 0 <= k < |ps| && ps[k].square.Some? ==> InBounds(ps[k].square.value)
    ensures -MaterialUpTo(ps, n) <= EvalUpTo(ps, n) <= MaterialUpTo(ps, n)
  {
    if n > 0 {
      EvalUpToBound(ps, n - 1);
      PieceScoreBound(ps[n - 1]);
    }
  }

  /** In a linked position every piece's square is on the board, so |Eval| <= Material. */
  lemma EvalBound(pos: Position)
    requires Linked(pos)
    ensures -Material(pos.pieces) <= Eval(pos.pieces) <= Material(pos.pieces)
  {
    EvalUpToBound(pos.pieces, |pos.pieces|);
  }

  /** Material depends only on the types of the pieces, index by index. */
  lemma {:induction false} MaterialSameKinds(ps: seq<Piece>, qs: seq<Piece>, n: nat)
    requires n <= |ps| == |qs|
    requires forall j :: 0 <= j < |ps| ==> ps[j].kind == qs[j].kind
    ensures MaterialUpTo(ps, n) == MaterialUpTo(qs, n)
  {
    if n > 0 {
      MaterialSameKinds(ps, qs, n - 1);
    }
  }

  lemma {:induction false} PawnsMaterial(n: nat)
    ensures Material(Pawns(n)) == 340 * n
  {
    if n > 0 {
      var s := Pawns(n - 1) + [Piece(Pawn, Black, Some(Pos(n - 1, 1)), false)];
      var w := Piece(Pawn, White, Some(Pos(n - 1, 6)), false);
      PawnsMaterial(n - 1);
      MaterialAppend(Pawns(n - 1), Piece(Pawn, Black, Some(Pos(n - 1, 1)), false));
      MaterialAppend(s, w);
    }
  }

  lemma MaterialAppend(ps: seq<Piece>, p: Piece)
    ensures Material(ps + [p]) == Material(ps) + Weight(p.kind)
  {
    var qs := ps + [p];
    assert qs[..|ps|] == ps;
    MaterialPrefix(qs, ps, |ps|);
  }

  lemma {:induction false} MaterialPrefix(qs: seq<Piece>, ps: seq<Piece>, n: nat)
    requires n <= |ps| <= |qs| && qs[..|ps|] == ps
    ensures MaterialUpTo(qs, n) == MaterialUpTo(ps, n)
  {
    if n > 0 {
      assert qs[n - 1] == ps[n - 1];
      MaterialPrefix(qs, ps, n - 1);
    }
  }

  /** The starting position's total weight, 50240, leaves the search window [-100000, 100000] room. */
  lemma StartMaterial()
    ensures Material(StartPieces()) == 50240
  {
    PawnsMaterial(8);
    var s0 := Pawns(8);
    var s1 := s0 + [Piece(Bishop, Black, Some(Pos(2, 0)), false)];
    MaterialAppend(s0, Piece(Bishop, Black, Some(Pos(2, 0)), false));
    var s2 := s1 + [Piece(Bishop, Black, Some(Pos(5, 0)), false)];
    MaterialAppend(s1, Piece(Bishop, Black, Some(Pos(5, 0)), false));
    var s3 := s2 + [Piece(Bishop, White, Some(Pos(2, 7)), false)];
    MaterialAppend(s2, Piece(Bishop, White, Some(Pos(2, 7)), false));
    var s4 := s3 + [Piece(Bishop, White, Some(Pos(5, 7)), false)];
    MaterialAppend(s3, Piece(Bishop, White, Some(Pos(5, 7)), false));
    var s5 := s4 + [Piece(Rook, White, Some(Pos(0, 7)), false)];
    MaterialAppend(s4, Piece(Rook, White, Some(Pos(0, 7)), false));
    var s6 := s5 + [Piece(Rook, White, Some(Pos(7, 7)), false)];
    MaterialAppend(s5, Piece(Rook, White, Some(Pos(7, 7)), false));
    var s7 := s6 + [Piece(Rook, Black, Some(Pos(0, 0)), false)];
    MaterialAppend(s6, Piece(Rook, Black, Some(Pos(0, 0)), false));
    var s8 := s7 + [Piece(Rook, Black, Some(Pos(7, 0)), false)];
    MaterialAppend(s7, Piece(Rook, Black, Some(Pos(7, 0)), false));
    var s9 := s8 + [Piece(Knight, White, Some(Pos(1, 7)), false)];
    MaterialAppend(s8, Piece(Knight, White, Some(Pos(1, 7)), false));
    var s10 := s9 + [Piece(Knight, White, Some(Pos(6, 7)), false)];
    MaterialAppend(s9, Piece(Knight, White, Some(Pos(6, 7)), false));
    var s11 := s10 + [Piece(Knight, Black, Some(Pos(1, 0)), false)];
    MaterialAppend(s10, Piece(Knight, Black, Some(Pos(1, 0)), false));
    var s12 := s11 + [Piece(Knight, Black, Some(Pos(6, 0)), false)];
    MaterialAppend(s11, Piece(Knight, Black, Some(Pos(6, 0)), false));
    var s13 := s12 + [Piece(King, White, Some(Pos(4, 7)), false)];
    MaterialAppend(s12, Piece(King, White, Some(Pos(4, 7)), false));
    var s14 := s13 + [Piece(King, Black, Some(Pos(4, 0)), false)];
    MaterialAppend(s13, Piece(King, Black, Some(Pos(4, 0)), false));
    var s15 := s14 + [Piece(Queen, White, Some(Pos(3, 7)), false)];
    MaterialAppend(s14, Piece(Queen, White, Some(Pos(3, 7)), false));
    var s16 := s15 + [Piece(Queen, Black, Some(Pos(3, 0)), false)];
    MaterialAppend(s15, Piece(Queen, Black, Some(Pos(3, 0)), false));
    assert s16 == StartPieces();
  }
}

=== FILE: input.dfy ===
/**
 * The InputEncoder of include/input_handler.h: an input event packed into
 * one 32-bit word, an 8-bit action tag above two 12-bit coordinates.
 *
 *   bits 31..24  action   0x00 none, 0xf0 press (0x0f is reserved for the engine)
 *   bits 23..12  x
 *   bits 11..0   y
 *
 * The coordinates are the source's 32-bit ints, held here as their
 * two's-complement bit patterns, which is what the shifts and ors of the
 * encoder work on.
 */
module InputCodec {
  datatype ActionType = NoAction | Press | EngineAction

  /** An InputObject: the action and the coordinate pair it carries. */
  datatype InputObject = InputObject(kind: ActionType, x: bv32, y: bv32)

  const ActionMask: bv32 := 0xff00_0000
  const PressAction: bv32 := 0xf000_0000
  const XCoordMask: bv32 := 0x00ff_f000
  const YCoordMask: bv32 := 0x0000_0fff

  /** The int a 32-bit two's-complement pattern stands for. */
  function Signed(b: bv32): int {
    if b < 0x8000_0000 then b as int else b as int - 0x1_0000_0000
  }

  /**
   * InputEncoder::encode: 0 for anything but a press; for a press the tag
   * or-ed with x shifted by 12 and with y, neither of them masked.
   */
  function Encode(io: InputObject): (w: bv32)
    ensures io.kind != Press ==> w == 0
  {
    if io.kind == Press then PressAction | (io.x << 12) | io.y else 0
  }

  /** InputEncoder::decode: a press when the tag byte is 0xf0, otherwise nothing at (0, 0). */
  function Decode(w: bv32): (io: InputObject)
    ensures io.kind == Press <==> w & ActionMask == PressAction
    ensures io.kind != Press ==> io == InputObject(NoAction, 0, 0)
    ensures 0 <= Signed(io.x) < 4096 && 0 <= Signed(io.y) < 4096
  {
    if w & ActionMask == PressAction then
      InputObject(Press, (w & XCoordMask) >> 12, w & YCoordMask)
    else
      InputObject(NoAction, 0, 0)
  }

  /** A coordinate that fits in the 12 bits the layout gives it: an int in [0, 4096). */
  predicate Fits12(n: bv32) {
    n < 4096
  }

  lemma Fits12Range(n: bv32)
    ensures Fits12(n) <==> 0 <= Signed(n) < 4096
  {
  }

  /** A press with coordinates that fit is laid out as the table says: tag 0xf0, then x, then y. */
  lemma EncodeLayout(io: InputObject)
    requires io.kind == Press && Fits12(io.x) && Fits12(io.y)
    ensures Encode(io) >> 24 == 0xf0
    ensures (Encode(io) >> 12) & 0xfff == io.x
    ensures Encode(io) & 0xfff == io.y
  {
  }

  /** Decoding an encoded press gives the press back. */
  lemma DecodeEncode(io: InputObject)
    requires io.kind == Press && Fits12(io.x) && Fits12(io.y)
    ensures Decode(Encode(io)) == io
  {
  }

  /** Encoding a decoded press word gives the word back: the codec is a bijection on press words. */
  lemma EncodeDecode(w: bv32)
    requires w & ActionMask == PressAction
    ensures Encode(Decode(w)) == w
  {
  }

  /** Every word that is not a press decodes to the empty input, which encodes to 0. */
  lemma EncodeDecodeOther(w: bv32)
    requires w & ActionMask != PressAction
    ensures Decode(w).kind == NoAction && Encode(Decode(w)) == 0
  {
  }

  /** An engine input encodes like no input at all and so decodes as none: encode forgets the distinction. */
  lemma EngineIndistinct(x: bv32, y: bv32)
    ensures Encode(InputObject(EngineAction, x, y)) == Encode(InputObject(NoAction, 0, 0)) == 0
    ensures Decode(Encode(InputObject(EngineAction, x, y))).kind == NoAction
  {
  }

  /**
   * encode does not mask its fields: a y of 4096, one past its field, sets
   * the lowest bit of x, so the press decodes at x | 1 with y = 0.
   */
  lemma UnmaskedY(x: bv32)
    requires Fits12(x)
    ensures Decode(Encode(InputObject(Press, x, 4096))) == InputObject(Press, x | 1, 0)
  {
  }

  /** A string of decimal digits only. */
  predicate AllDigits(s: string) {
    forall i :: 0 <= i < |s| ==> '0' <= s[i] <= '9'
  }

  /** The decimal digits of a natural number, most significant first (std::to_string). */
  function NatString(n: nat): (s: string)
    ensures s != [] && AllDigits(s)
    decreases n
  {
    var d := [('0' as int + n % 10) as char];
    if n < 10 then d else NatString(n / 10) + d
  }

  /** std::to_string of an int: a minus sign before the digits of a negative number, the digits alone otherwise. */
  function IntString(n: int): (s: string)
    ensures s != [] && (s[0] == '-' <==> n < 0)
    ensures n < 0 ==> AllDigits(s[1..]) && s[1..] != []
    ensures n >= 0 ==> AllDigits(s)
  {
    if n < 0 then "-" + NatString(-n) else NatString(n)
  }

  /** The number a string of decimal digits denotes. */
  function DigitsValue(s: string): int {
    if s == [] then 0 else DigitsValue(s[..|s| - 1]) * 10 + (s[|s| - 1] as int - '0' as int)
  }

  /** The number a decimal numeral with an optional leading minus sign denotes. */
  function ReadInt(s: string): int {
    if s != [] && s[0] == '-' then -DigitsValue(s[1..]) else DigitsValue(s)
  }

  /** Reading the digits back gives the number: NatString is a faithful decimal rendering. */
  lemma {:induction false} NatStringValue(n: nat)
    ensures DigitsValue(NatString(n)) == n
    decreases n
  {
    var s := NatString(n);
    if n >= 10 {
      NatStringValue(n / 10);
      assert s[..|s| - 1] == NatString(n / 10);
    }
  }

  /** Reading the numeral back gives the int: IntString is a faithful signed decimal rendering. */
  lemma IntStringValue(n: int)
    ensures ReadInt(IntString(n)) == n
  {
    if n < 0 {
      NatStringValue(-n);
      assert IntString(n)[1..] == NatString(-n);
    } else {
      NatStringValue(n);
    }
  }

  /** The position of the first c in s, or |s| when there is none. */
  function IndexOf(s: string, c: char): (k: nat)
    ensures k <= |s| && (k < |s| ==> s[k] == c)
    ensures forall j :: 0 <= j < k ==> s[j] != c
  {
    if s == [] || s[0] == c then 0 else 1 + IndexOf(s[1..], c)
  }

  /** InputObject::to_string: "PRESS: (x, y)" for a press and the empty string otherwise. */
  function ToString(io: InputObject): (s: string)
    ensures s == [] <==> io.kind != Press
    ensures io.kind == Press ==> |s| > 8 && s[..8] == "PRESS: (" && s[|s| - 1] == ')'
  {
    if io.kind == Press then "PRESS: (" + IntString(Signed(io.x)) + ", " + IntString(Signed(io.y)) + ")" else ""
  }

  /** No rendered int holds a comma, the separator to_string puts between x and y. */
  lemma IntStringNoComma(n: int)
    ensures forall j :: 0 <= j < |IntString(n)| ==> IntString(n)[j] != ','
  {
    var s := IntString(n);
    forall j | 0 <= j < |s| ensures s[j] != ',' {
      if j > 0 && n < 0 {
        assert s[j] == s[1..][j - 1];
      }
    }
  }

  /** The first c in a + b, when a holds none, is the first c in b shifted past a. */
  lemma {:induction false} IndexOfAppend(a: string, b: string, c: char)
    requires forall j :: 0 <= j < |a| ==> a[j] != c
    ensures IndexOf(a + b, c) == |a| + IndexOf(b, c)
    decreases |a|
  {
    if a != [] {
      assert (a + b)[0] == a[0] != c;
      assert (a + b)[1..] == a[1..] + b;
      IndexOfAppend(a[1..], b, c);
    } else {
      assert a + b == b;
    }
  }

  /** The two numerals of "PRESS: (x, y)" are found again: x up to the first comma, then ", ", then y. */
  lemma PressTextReadBack(x: int, y: int, s: string)
    requires s == "PRESS: (" + IntString(x) + ", " + IntString(y) + ")"
    ensures var k := 8 + IndexOf(s[8..], ',');
      && k + 2 < |s| && s[k..k + 2] == ", "
      && ReadInt(s[8..k]) == x && ReadInt(s[k + 2..|s| - 1]) == y
  {
    var xs, ys := IntString(x), IntString(y);
    var rest := ", " + ys + ")";
    assert s[8..] == xs + rest;
    IntStringNoComma(x);
    IndexOfAppend(xs, rest, ',');
    assert IndexOf(s[8..], ',') == |xs|;
    assert s[8..8 + |xs|] == xs;
    assert s[8 + |xs| + 2..|s| - 1] == ys;
    IntStringValue(x);
    IntStringValue(y);
  }

  /**
   * The text of a press reads back: between "PRESS: (" and the first comma
   * stands x, then ", ", then y up to the closing parenthesis.
   */
  lemma ToStringReadBack(io: InputObject)
    requires io.kind == Press
    ensures var s := ToString(io); var k := 8 + IndexOf(s[8..], ',');
      && k + 2 < |s| && s[k..k + 2] == ", "
      && ReadInt(s[8..k]) == Signed(io.x) && ReadInt(s[k + 2..|s| - 1]) == Signed(io.y)
  {
    PressTextReadBack(Signed(io.x), Signed(io.y), ToString(io));
  }
}

=== FILE: movegen.dfy ===
/**
 * Move generation of the engine (src/engine.cc, generatePossibleMoves and the
 * per-type generators). Each generator is a function over a position value
 * (the specification) and, where the source builds its vector in a loop, a
 * method with that loop proved to return exactly the function's result.
 */
module MoveGen {
  import opened Wrappers
  import opened Arena
  import opened BoardModel

  datatype MoveType = Normal | Capture | EnPassant

  /**
   * A ply: the moving piece, the piece taken (if any), source and target
   * squares, its kind, and whether it was the mover's first move.
   */
  datatype Move = Move(piece: nat, opponent: Option<nat>, from: Pos, to: Pos, kind: MoveType, firstMove: bool)

  /** The move history is a stack; its top is the last element. */
  type History = seq<Move>

  /** The top of the history names an existing piece (the en-passant probe reads its type). */
  predicate TopOk(pos: Position, hist: History) {
    hist == [] || hist[|hist| - 1].piece < |pos.pieces|
  }

  function Abs(n: int): nat {
    if n < 0 then -n else n
  }

  /** The square one step from p in direction (dx, dy). */
  function Next(p: Pos, dx: int, dy: int): Pos {
    Pos(p.x + dx, p.y + dy)
  }

  /** A king-like unit direction. */
  predicate UnitDir(dx: int, dy: int) {
    -1 <= dx <= 1 && -1 <= dy <= 1 && (dx != 0 || dy != 0)
  }

  /** How many more steps from p in direction (dx, dy) can stay on the board. */
  function RayFuel(p: Pos, dx: int, dy: int): nat
    requires InBounds(p)
  {
    if dx > 0 then 8 - p.x
    else if dx < 0 then p.x + 1
    else if dy > 0 then 8 - p.y
    else p.y + 1
  }

  /**
   * The inner while-loop of Engine::generateUsingCoords: the squares reached
   * from p stepping by (dx, dy) for a piece of colour c. It stops at the edge
   * or before a piece of colour c, and includes the first piece of the other
   * colour and stops there.
   */
  function Ray(pos: Position, c: Color, p: Pos, dx: int, dy: int): (r: seq<Pos>)
    requires Wf(pos) && InBounds(p) && UnitDir(dx, dy)
    decreases RayFuel(p, dx, dy)
    ensures forall k :: 0 <= k < |r| ==> InBounds(r[k]) && !OwnedBy(pos, r[k], c)
  {
    var n := Next(p, dx, dy);
    if !InBounds(n) then []
    else if pos.occupier[n].Some? then
      if pos.pieces[pos.occupier[n].value].color == c then [] else [n]
    else [n] + Ray(pos, c, n, dx, dy)
  }

  /**
   * The shape of a ray: consecutive steps from p, every square but the last
   * empty, and it ends at the edge, before a piece of colour c, or on the
   * first piece of the other colour.
   */
  lemma {:induction false} RayShape(pos: Position, c: Color, p: Pos, dx: int, dy: int)
    requires Wf(pos) && InBounds(p) && UnitDir(dx, dy)
    decreases RayFuel(p, dx, dy)
    ensures var r := Ray(pos, c, p, dx, dy);
      && (forall k :: 0 <= k < |r| - 1 ==> pos.occupier[r[k]].None?)
      && (|r| > 0 ==> r[0] == Next(p, dx, dy))
      && (forall k :: 0 <= k < |r| - 1 ==> r[k + 1] == Next(r[k], dx, dy))
      && (|r| == 0 ==> !InBounds(Next(p, dx, dy)) || OwnedBy(pos, Next(p, dx, dy), c))
      && (|r| > 0 && pos.occupier[r[|r| - 1]].None? ==>
            !InBounds(Next(r[|r| - 1], dx, dy)) || OwnedBy(pos, Next(r[|r| - 1], dx, dy), c))
  {
    var n := Next(p, dx, dy);
    if InBounds(n) && pos.occupier[n].None? {
      RayShape(pos, c, n, dx, dy);
      var r, rest := Ray(pos, c, p, dx, dy), Ray(pos, c, n, dx, dy);
      assert r == [n] + rest;
      forall k | 0 <= k < |r| - 1
        ensures pos.occupier[r[k]].None? && r[k + 1] == Next(r[k], dx, dy)
      {
        if k > 0 {
          assert r[k] == rest[k - 1] && r[k + 1] == rest[k];
        }
      }
      if |rest| > 0 {
        assert r[|r| - 1] == rest[|rest| - 1];
      }
    }
  }

  /** Engine::generateUsingCoords over directions dirs: the rays one after the other. */
  function Slide(pos: Position, c: Color, p: Pos, dirs: seq<(int, int)>): (r: seq<Pos>)
    requires Wf(pos) && InBounds(p)
    requires forall k :: 0 <= k < |dirs| ==> UnitDir(dirs[k].0, dirs[k].1)
    ensures forall k :: 0 <= k < |r| ==> InBounds(r[k]) && !OwnedBy(pos, r[k], c)
  {
    if dirs == [] then []
    else
      var d := dirs[|dirs| - 1];
      Slide(pos, c, p, dirs[..|dirs| - 1]) + Ray(pos, c, p, d.0, d.1)
  }

  const RookDirs: seq<(int, int)> := [(0, -1), (0, 1), (1, 0), (-1, 0)]
  const BishopDirs: seq<(int, int)> := [(1, -1), (-1, -1), (1, 1), (-1, 1)]
  const KingOffsets: seq<(int, int)> := [(0, -1), (0, 1), (-1, 0), (1, 0), (-1, -1), (-1, 1), (1, -1), (1, 1)]
  const KnightOffsets: seq<(int, int)> := [(-2, -1), (-2, 1), (2, -1), (2, 1), (1, 2), (-1, 2), (1, -2), (-1, -2)]

  /** The square piece i stands on. */
  function SquareOf(pos: Position, i: nat): Pos
    requires Placed(pos, i)
  {
    pos.pieces[i].square.value
  }

  /**
   * The colour Engine::generateUsingCoords compares against: that of the
   * occupier of the piece's square (which is the piece itself when placed).
   */
  function SliderColour(pos: Position, i: nat): Color
    requires Placed(pos, i)
  {
    pos.pieces[pos.occupier[SquareOf(pos, i)].value].color
  }

  /**
   * Engine::generateMovesForPiece: each offset from p that lands on the
   * board and not on a piece of colour c, in offset order.
   */
  function Steps(pos: Position, c: Color, p: Pos, offs: seq<(int, int)>): (r: seq<Pos>)
    requires Wf(pos)
    ensures |r| <= |offs|
    ensures forall k :: 0 <= k < |r| ==> InBounds(r[k]) && !OwnedBy(pos, r[k], c)
  {
    if offs == [] then []
    else
      var rest := Steps(pos, c, p, offs[..|offs| - 1]);
      var o := offs[|offs| - 1];
      var t := Next(p, o.0, o.1);
      if InBounds(t) && !OwnedBy(pos, t, c) then rest + [t] else rest
  }

  /** Exactly the offsets that land on the board and not on a piece of colour c are generated. */
  lemma {:induction false} StepsSpec(pos: Position, c: Color, p: Pos, offs: seq<(int, int)>, t: Pos)
    requires Wf(pos)
    ensures t in Steps(pos, c, p, offs) <==>
      exists k :: 0 <= k < |offs| && t == Next(p, offs[k].0, offs[k].1) && InBounds(t) && !OwnedBy(pos, t, c)
  {
    if offs != [] {
      var front := offs[..|offs| - 1];
      StepsSpec(pos, c, p, front, t);
      assert forall k :: 0 <= k < |front| ==> front[k] == offs[k];
      if t in Steps(pos, c, p, offs) && t !in Steps(pos, c, p, front) {
        assert t == Next(p, offs[|offs| - 1].0, offs[|offs| - 1].1);
      }
    }
  }

  /**
   * Engine::isEnPassant: for a pawn on its fifth rank (row 3 for white,
   * row 4 for black) with an occupied neighbour, if the last move was a
   * two-row pawn advance ending beside it, that neighbouring square.
   */
  function EnPassantSquare(pos: Position, hist: History, i: nat): (r: Option<Pos>)
    requires Placed(pos, i) && TopOk(pos, hist)
    ensures r.Some? ==>
      && SquareOf(pos, i).y == (if pos.pieces[i].color == White then 3 else 4)
      && hist != []
      && pos.pieces[hist[|hist| - 1].piece].kind == Pawn
      && Abs(hist[|hist| - 1].from.y - hist[|hist| - 1].to.y) == 2
      && r.value == hist[|hist| - 1].to
      && InBounds(r.value)
      && (r.value == Pos(SquareOf(pos, i).x - 1, SquareOf(pos, i).y) || r.value == Pos(SquareOf(pos, i).x + 1, SquareOf(pos, i).y))
  {
    var p := SquareOf(pos, i);
    var rank := if pos.pieces[i].color == White then 3 else 4;
    if p.y != rank then None
    else
      var left := SquareAt(p.x - 1, p.y);
      var right := SquareAt(p.x + 1, p.y);
      if (left.None? || pos.occupier[left.value].None?) && (right.None? || pos.occupier[right.value].None?) then None
      else if hist == [] then None
      else
        var last := hist[|hist| - 1];
        if pos.pieces[last.piece].kind != Pawn then None
        else if Abs(last.from.y - last.to.y) != 2 then None
        else if left.Some? && last.to == left.value then left
        else if right.Some? && last.to == right.value then right
        else None
  }

  /**
   * isEnPassant answers only for a pawn with an occupied neighbour; the
   * square it answers with may be the other, empty, neighbour.
   */
  lemma EnPassantNeighbour(pos: Position, hist: History, i: nat)
    requires Placed(pos, i) && TopOk(pos, hist) && EnPassantSquare(pos, hist, i).Some?
    ensures var p := SquareOf(pos, i);
      || (InBounds(Pos(p.x - 1, p.y)) && pos.occupier[Pos(p.x - 1, p.y)].Some?)
      || (InBounds(Pos(p.x + 1, p.y)) && pos.occupier[Pos(p.x + 1, p.y)].Some?)
  {
  }

  /**
   * Conversely, a pawn on its fifth rank with an occupied neighbour on
   * either side gets the neighbouring square the last move landed on, when
   * that move was a two-row pawn advance.
   */
  lemma EnPassantComplete(pos: Position, hist: History, i: nat)
    requires Placed(pos, i) && TopOk(pos, hist) && hist != []
    requires SquareOf(pos, i).y == (if pos.pieces[i].color == White then 3 else 4)
    requires pos.pieces[hist[|hist| - 1].piece].kind == Pawn
    requires Abs(hist[|hist| - 1].from.y - hist[|hist| - 1].to.y) == 2
    requires var t, p := hist[|hist| - 1].to, SquareOf(pos, i);
      InBounds(t) && (t == Pos(p.x - 1, p.y) || t == Pos(p.x + 1, p.y))
    requires var p := SquareOf(pos, i);
      || (InBounds(Pos(p.x - 1, p.y)) && pos.occupier[Pos(p.x - 1, p.y)].Some?)
      || (InBounds(Pos(p.x + 1, p.y)) && pos.occupier[Pos(p.x + 1, p.y)].Some?)
    ensures EnPassantSquare(pos, hist, i) == Some(hist[|hist| - 1].to)
  {
  }

  /** The forward direction of a pawn: up the board (y decreasing) for white. */
  function Forward(c: Color): int {
    if c == White then -1 else 1
  }

  /** The single and double forward steps of Engine::generatePawnMoves. */
  function PawnPushes(pos: Position, i: nat): (r: seq<Pos>)
    requires Placed(pos, i)
    ensures forall k :: 0 <= k < |r| ==> InBounds(r[k]) && pos.occupier[r[k]].None?
  {
    var p := SquareOf(pos, i);
    var f := Forward(pos.pieces[i].color);
    var one := Pos(p.x, p.y + f);
    if 0 <= one.y < 8 && pos.occupier[one].None? then
      [one] +
      (if !pos.pieces[i].movedBefore then
         match SquareAt(p.x, p.y + 2 * f)
         case Some(two) => if pos.occupier[two].None? then [two] else []
         case None => []
       else [])
    else []
  }

  /** The diagonal capture of Engine::generatePawnMoves toward file offset dx. */
  function PawnCapture(pos: Position, i: nat, dx: int): (r: seq<Pos>)
    requires Placed(pos, i)
    ensures forall k :: 0 <= k < |r| ==> InBounds(r[k]) && OwnedBy(pos, r[k], Other(pos.pieces[i].color))
  {
    var p := SquareOf(pos, i);
    var t := Pos(p.x + dx, p.y + Forward(pos.pieces[i].color));
    if InBounds(t) && pos.occupier[t].Some? && pos.pieces[pos.occupier[t].value].color != pos.pieces[i].color
    then [t] else []
  }

  /** Engine::generatePawnMoves: pushes, the captures toward file -1 then +1, then the en-passant square. */
  function PawnMoves(pos: Position, hist: History, i: nat): (r: seq<Pos>)
    requires Placed(pos, i) && TopOk(pos, hist)
    ensures forall k :: 0 <= k < |r| ==> InBounds(r[k])
  {
    PawnPushes(pos, i) + PawnCapture(pos, i, -1) + PawnCapture(pos, i, 1)
    + match EnPassantSquare(pos, hist, i)
      case Some(e) => [e]
      case None => []
  }

  /** Engine::generatePossibleMoves: dispatch on the piece type. */
  function PossibleMoves(pos: Position, hist: History, i: nat): (r: seq<Pos>)
    requires Placed(pos, i) && TopOk(pos, hist)
    ensures forall k :: 0 <= k < |r| ==> InBounds(r[k])
    ensures pos.pieces[i].kind != Pawn ==> forall k :: 0 <= k < |r| ==> !OwnedBy(pos, r[k], pos.pieces[i].color)
  {
    var p := SquareOf(pos, i);
    match pos.pieces[i].kind
    case King => Steps(pos, pos.pieces[i].color, p, KingOffsets)
    case Pawn => PawnMoves(pos, hist, i)
    case Rook => Slide(pos, SliderColour(pos, i), p, RookDirs)
    case Bishop => Slide(pos, SliderColour(pos, i), p, BishopDirs)
    case Queen => Slide(pos, SliderColour(pos, i), p, BishopDirs) + Slide(pos, SliderColour(pos, i), p, RookDirs)
    case Knight => Steps(pos, pos.pieces[i].color, p, KnightOffsets)
  }

  /** No generator offers a piece its own square. */
  lemma NotOwnSquare(pos: Position, hist: History, i: nat)
    requires Placed(pos, i) && TopOk(pos, hist)
    ensures SquareOf(pos, i) !in PossibleMoves(pos, hist, i)
  {
    var r := PossibleMoves(pos, hist, i);
    var p := SquareOf(pos, i);
    if pos.pieces[i].kind == Pawn {
      var e := match EnPassantSquare(pos, hist, i) case Some(e) => [e] case None => [];
      assert r == PawnPushes(pos, i) + PawnCapture(pos, i, -1) + PawnCapture(pos, i, 1) + e;
      assert p !in PawnPushes(pos, i) && p !in PawnCapture(pos, i, -1) && p !in PawnCapture(pos, i, 1);
    } else {
      assert OwnedBy(pos, p, pos.pieces[i].color);
    }
  }

  /**
   * The pawn generator's destinations, each with the condition the source
   * checks for it: forward onto an empty square; two forward when unmoved
   * and both squares are empty; diagonally forward onto a piece of the other
   * colour; or the en-passant square.
   */
  lemma PawnMovesSpec(pos: Position, hist: History, i: nat, t: Pos)
    requires Placed(pos, i) && TopOk(pos, hist)
    ensures var p, f := SquareOf(pos, i), Forward(pos.pieces[i].color);
      var one, two := Pos(p.x, p.y + f), Pos(p.x, p.y + 2 * f);
      t in PawnMoves(pos, hist, i) <==>
        || (t == one && InBounds(one) && pos.occupier[one].None?)
        || (t == two && InBounds(two) && InBounds(one) && pos.occupier[one].None?
            && !pos.pieces[i].movedBefore && pos.occupier[two].None?)
        || ((t == Pos(p.x - 1, p.y + f) || t == Pos(p.x + 1, p.y + f)) && InBounds(t)
            && pos.occupier[t].Some? && pos.pieces[pos.occupier[t].value].color != pos.pieces[i].color)
        || EnPassantSquare(pos, hist, i) == Some(t)
  {
    var p, f := SquareOf(pos, i), Forward(pos.pieces[i].color);
    var one, two := Pos(p.x, p.y + f), Pos(p.x, p.y + 2 * f);
    assert 0 <= one.y < 8 <==> InBounds(one);
    if InBounds(one) && pos.occupier[one].None? && !pos.pieces[i].movedBefore {
      assert SquareAt(p.x, p.y + 2 * f) == (if InBounds(two) then Some(two) else None);
    }
  }

  lemma AppendAssoc<T>(a: seq<T>, b: seq<T>, c: seq<T>)
    ensures a + (b + c) == (a + b) + c
  {
  }

  /** The while-loop of Engine::generateUsingCoords along one direction. */
  method WalkRay(pos: Position, color: Color, position: Pos, x: int, y: int) returns (moves: seq<Pos>)
    requires Wf(pos) && InBounds(position) && UnitDir(x, y)
    ensures moves == Ray(pos, color, position, x, y)
  {
    moves := [];
    var newPosition := position;
    while true
      invariant InBounds(newPosition)
      invariant Ray(pos, color, position, x, y) == moves + Ray(pos, color, newPosition, x, y)
      decreases RayFuel(newPosition, x, y)
    {
      ghost var previous := newPosition;
      newPosition := Next(newPosition, x, y);
      if newPosition.x < 0 || newPosition.x >= 8 || newPosition.y < 0 || newPosition.y >= 8 {
        break;
      }
      if pos.occupier[newPosition].Some? {
        if pos.pieces[pos.occupier[newPosition].value].color == color {
          break;
        }
        moves := moves + [newPosition];
        break;
      }
      ghost var rest := Ray(pos, color, newPosition, x, y);
      assert Ray(pos, color, previous, x, y) == [newPosition] + rest;
      AppendAssoc(moves, [newPosition], rest);
      moves := moves + [newPosition];
    }
  }

  /** Engine::generateUsingCoords, with its for-loop over directions and while-loop along each ray. */
  method GenerateUsingCoords(pos: Position, i: nat, dirs: seq<(int, int)>) returns (moves: seq<Pos>)
    requires Placed(pos, i)
    requires forall k :: 0 <= k < |dirs| ==> UnitDir(dirs[k].0, dirs[k].1)
    ensures moves == Slide(pos, SliderColour(pos, i), SquareOf(pos, i), dirs)
  {
    moves := [];
    var position := SquareOf(pos, i);
    var color := pos.pieces[pos.occupier[position].value].color;
    for d := 0 to |dirs|
      invariant moves == Slide(pos, color, position, dirs[..d])
    {
      var (x, y) := dirs[d];
      var ray := WalkRay(pos, color, position, x, y);
      moves := moves + ray;
      assert dirs[..d + 1][..d] == dirs[..d];
    }
    assert dirs[..|dirs|] == dirs;
  }

  /** Engine::generateMovesForPiece: one bounds-and-colour test per offset. */
  method GenerateMovesForPiece(pos: Position, i: nat, directions: seq<(int, int)>) returns (moves: seq<Pos>)
    requires Placed(pos, i)
    ensures moves == Steps(pos, pos.pieces[i].color, SquareOf(pos, i), directions)
  {
    moves := [];
    var position := SquareOf(pos, i);
    var color := pos.pieces[i].color;
    for k := 0 to |directions|
      invariant moves == Steps(pos, color, position, directions[..k])
    {
      var newPosition := Next(position, directions[k].0, directions[k].1);
      if newPosition.x >= 0 && newPosition.x < 8 && newPosition.y >= 0 && newPosition.y < 8 {
        if pos.occupier[newPosition].None? || pos.pieces[pos.occupier[newPosition].value].color != color {
          moves := moves + [newPosition];
        }
      }
      assert directions[..k + 1][..k] == directions[..k];
    }
    assert directions[..|directions|] == directions;
  }

  /** Engine::generatePawnMoves, with its loop over the two diagonal file offsets. */
  method GeneratePawnMoves(pos: Position, hist: History, i: nat) returns (moves: seq<Pos>)
    requires Placed(pos, i) && TopOk(pos, hist)
    ensures moves == PawnMoves(pos, hist, i)
  {
    moves := [];
    var position := SquareOf(pos, i);
    var pieceColor := pos.pieces[i].color;
    var forward := if pieceColor == White then -1 else 1;
    var forwardMove := Pos(position.x, position.y + forward);
    if forwardMove.y >= 0 && forwardMove.y < 8 {
      if pos.occupier[forwardMove].None? {
        moves := moves + [forwardMove];
        if !pos.pieces[i].movedBefore {
          var doubleForwardSquare := SquareAt(position.x, position.y + 2 * forward);
          if doubleForwardSquare.Some? && pos.occupier[doubleForwardSquare.value].None? {
            moves := moves + [doubleForwardSquare.value];
          }
        }
      }
    }
    ghost var pushes := moves;
    assert pushes == PawnPushes(pos, i);
    var dxs := [-1, 1];
    for k := 0 to 2
      invariant k == 0 ==> moves == pushes
      invariant k == 1 ==> moves == pushes + PawnCapture(pos, i, -1)
      invariant k == 2 ==> moves == pushes + PawnCapture(pos, i, -1) + PawnCapture(pos, i, 1)
    {
      var diagonalMove := Pos(position.x + dxs[k], position.y + forward);
      if diagonalMove.x >= 0 && diagonalMove.x < 8 && diagonalMove.y >= 0 && diagonalMove.y < 8 {
        if pos.occupier[diagonalMove].Some? && pos.pieces[pos.occupier[diagonalMove].value].color != pieceColor {
          moves := moves + [diagonalMove];
        }
      }
    }
    var enPassant := EnPassantSquare(pos, hist, i);
    if enPassant.Some? {
      moves := moves + [enPassant.value];
    }
  }

  /** Engine::generatePossibleMoves: the queen's list is the bishop's followed by the rook's. */
  method GeneratePossibleMoves(pos: Position, hist: History, i: nat) returns (moves: seq<Pos>)
    requires Placed(pos, i) && TopOk(pos, hist)
    ensures moves == PossibleMoves(pos, hist, i)
  {
    match pos.pieces[i].kind
    case King => moves := GenerateMovesForPiece(pos, i, KingOffsets);
    case Pawn => moves := GeneratePawnMoves(pos, hist, i);
    case Rook => moves := GenerateUsingCoords(pos, i, RookDirs);
    case Bishop => moves := GenerateUsingCoords(pos, i, BishopDirs);
    case Queen =>
      var b := GenerateUsingCoords(pos, i, BishopDirs);
      var r := GenerateUsingCoords(pos, i, RookDirs);
      moves := b + r;
    case Knight => moves := GenerateMovesForPiece(pos, i, KnightOffsets);
  }
}

=== FILE: ply.dfy ===
/**
 * Engine::makeMove and Engine::undoMove (src/engine.cc) as functions on a
 * position: the same sequence of square and piece mutators (Arena), in the
 * source's order. The central property is that undoing the record makeMove
 * pushed restores the position exactly.
 */
module Ply {
  import opened Wrappers
  import opened Arena
  import opened MoveGen
  import opened Check

  /** The record makeMove pushes: m with its first-move flag taken from the mover. */
  function Pushed(pos: Position, m: Move): (r: Move)
    requires m.piece < |pos.pieces|
    ensures r.firstMove <==> !pos.pieces[m.piece].movedBefore
    ensures r.(firstMove := m.firstMove) == m
  {
    m.(firstMove := !pos.pieces[m.piece].movedBefore)
  }

  /** The squares and the mover a record names exist. */
  predicate MoveOk(pos: Position, m: Move) {
    m.piece < |pos.pieces| && SquareOk(pos, m.from) && SquareOk(pos, m.to)
  }

  /**
   * makeMove: mark the mover as moved; clear the target if occupied (its
   * occupier loses its square); clear the source; the mover records the
   * target; the target's occupier becomes the mover.
   */
  function Make(pos: Position, m: Move): (r: Position)
    requires MoveOk(pos, m)
    ensures |r.pieces| == |pos.pieces|
  {
    var p1 := if !pos.pieces[m.piece].movedBefore then SetMoved(pos, m.piece, true) else pos;
    var p2 := if p1.occupier[m.to].Some? then ClearSquare(p1, m.to) else p1;
    var p3 := ClearSquare(p2, m.from);
    var p4 := SetSquare(p3, m.piece, m.to);
    SetOccupier(p4, m.to, m.piece)
  }

  /**
   * undoMove for the popped record m: restore the flag if it was the first
   * move; clear the target; put a captured piece back on it; clear the
   * source; the mover stands on the source again.
   */
  function Undo(pos: Position, m: Move): Position
    requires MoveOk(pos, m)
    requires m.opponent.Some? ==> m.opponent.value < |pos.pieces|
  {
    var p1 := if m.firstMove then SetMoved(pos, m.piece, false) else pos;
    var p2 := ClearSquare(p1, m.to);
    var p3 := match m.opponent
      case Some(o) => SetSquare(SetOccupier(p2, m.to, o), o, m.to)
      case None => p2;
    var p4 := ClearSquare(p3, m.from);
    var p5 := SetOccupier(p4, m.from, m.piece);
    SetSquare(p5, m.piece, m.from)
  }

  /**
   * A move as the generators produce it: the mover stands on `from`, the
   * target is another square, and the record's opponent is the target's
   * occupier.
   */
  ghost predicate Fits(pos: Position, m: Move) {
    && Linked(pos)
    && m.piece < |pos.pieces|
    && InBounds(m.from) && InBounds(m.to) && m.from != m.to
    && pos.pieces[m.piece].square == Some(m.from)
    && m.opponent == pos.occupier[m.to]
  }

  /** What a piece becomes after m: the mover moves, a captured piece leaves the board. */
  function AfterMake(pos: Position, m: Move, j: nat): Piece
    requires j < |pos.pieces|
  {
    var p := pos.pieces[j];
    if j == m.piece then p.(square := Some(m.to), movedBefore := true)
    else if m.opponent == Some(j) then p.(square := None)
    else p
  }

  /** makeMove's effect on the squares: the source empties and the target holds the mover. */
  lemma MakeOccupier(pos: Position, m: Move)
    requires Fits(pos, m)
    ensures MoveOk(pos, m)
    ensures Make(pos, m).occupier == pos.occupier[m.from := None][m.to := Some(m.piece)]
  {
  }

  /** makeMove's effect on the pieces: only the mover and a captured piece change. */
  lemma MakePieces(pos: Position, m: Move)
    requires Fits(pos, m)
    ensures MoveOk(pos, m)
    ensures |Make(pos, m).pieces| == |pos.pieces|
    ensures forall j :: 0 <= j < |pos.pieces| ==> Make(pos, m).pieces[j] == AfterMake(pos, m, j)
  {
  }

  /** After makeMove the square and piece links agree again. */
  lemma MakeLinked(pos: Position, m: Move)
    requires Fits(pos, m)
    ensures MoveOk(pos, m)
    ensures Linked(Make(pos, m))
  {
    MakeOccupier(pos, m);
    MakePieces(pos, m);
    var q := Make(pos, m);
    forall t | t in q.occupier && q.occupier[t].Some?
      ensures q.occupier[t].value < |q.pieces| && q.pieces[q.occupier[t].value].square == Some(t)
    {
      if t != m.to {
        var k := q.occupier[t].value;
        assert t != m.from && pos.occupier[t] == Some(k);
        assert k != m.piece && m.opponent != Some(k);
      }
    }
    forall j | 0 <= j < |q.pieces| && q.pieces[j].square.Some?
      ensures q.pieces[j].square.value in q.occupier && q.occupier[q.pieces[j].square.value] == Some(j)
    {
      if j != m.piece {
        var s := q.pieces[j].square.value;
        assert m.opponent != Some(j) && pos.pieces[j].square == Some(s) && pos.occupier[s] == Some(j);
        assert s != m.from && s != m.to;
      }
    }
  }

  /** Undoing the record makeMove pushed restores the squares. */
  lemma UndoOccupier(pos: Position, m: Move)
    requires Fits(pos, m)
    ensures MoveOk(pos, m) && MoveOk(Make(pos, m), Pushed(pos, m))
    ensures Undo(Make(pos, m), Pushed(pos, m)).occupier == pos.occupier
  {
    MakeOccupier(pos, m);
    MakePieces(pos, m);
  }

  /** Undoing the record makeMove pushed restores every piece. */
  lemma UndoPieces(pos: Position, m: Move)
    requires Fits(pos, m)
    ensures MoveOk(pos, m) && MoveOk(Make(pos, m), Pushed(pos, m))
    ensures Undo(Make(pos, m), Pushed(pos, m)).pieces == pos.pieces
  {
    MakeOccupier(pos, m);
    MakePieces(pos, m);
  }

  /** makeMove followed by undoMove is the identity on positions. */
  lemma MakeUndo(pos: Position, m: Move)
    requires Fits(pos, m)
    ensures MoveOk(pos, m) && MoveOk(Make(pos, m), Pushed(pos, m))
    ensures m.opponent.Some? ==> m.opponent.value < |Make(pos, m).pieces|
    ensures Undo(Make(pos, m), Pushed(pos, m)) == pos
  {
    UndoOccupier(pos, m);
    UndoPieces(pos, m);
  }

  /**
   * The ply Engine::movePiece makes by hand: clear the source square, let
   * the piece record the target, mark it moved, and occupy the target.
   */
  function ManualPly(pos: Position, m: Move): Position
    requires MoveOk(pos, m)
  {
    var p1 := ClearSquare(pos, m.from);
    var p2 := SetSquare(p1, m.piece, m.to);
    var p3 := SetMoved(p2, m.piece, true);
    SetOccupier(p3, m.to, m.piece)
  }

  /** Onto an empty square, movePiece's hand-made ply and makeMove give the same position. */
  lemma ManualPlyIsMake(pos: Position, m: Move)
    requires Fits(pos, m) && m.opponent.None?
    ensures MoveOk(pos, m)
    ensures ManualPly(pos, m) == Make(pos, m)
  {
    var q := ManualPly(pos, m);
    MakeOccupier(pos, m);
    MakePieces(pos, m);
    assert q.occupier == Make(pos, m).occupier;
    assert q.pieces == Make(pos, m).pieces;
  }

  /** Every move generateAllPossibleMoves emits fits the position. */
  lemma GeneratedFits(pos: Position, hist: History, c: Color, m: Move)
    requires Linked(pos) && TopOk(pos, hist) && Generated(pos, hist, c, m)
    ensures Fits(pos, m)
  {
    NotOwnSquare(pos, hist, m.piece);
  }

  /** makeMove changes no piece's type or colour and keeps the piece list's length. */
  lemma MakeKeepsPieces(pos: Position, m: Move)
    requires MoveOk(pos, m)
    ensures |Make(pos, m).pieces| == |pos.pieces|
    ensures forall j :: 0 <= j < |pos.pieces| ==>
      Make(pos, m).pieces[j].kind == pos.pieces[j].kind && Make(pos, m).pieces[j].color == pos.pieces[j].color
  {
  }
}

=== FILE: root.dfy ===
/**
 * The root of Engine::makeBestMove (src/engine.cc) as functions: the value
 * the engine gives each of black's moves, the best value its scan keeps, the
 * tie set it collects, and the properties the chosen move has.
 */
module Root {
  import opened Wrappers
  import opened Arena
  import opened MoveGen
  import opened Check
  import opened Ply
  import opened Evaluation
  import opened Search

  /** A move wouldExposeKing rejects: playable, and afterwards me is in check. */
  ghost predicate Rejected(pos: Position, hist: History, me: Color, m: Move) {
    Playable(pos, hist, m) && Exposes(pos, hist, m, me)
  }

  /** Every move of ms is rejected. */
  ghost predicate AllExposed(pos: Position, hist: History, me: Color, ms: seq<Move>)
    decreases |ms|
  {
    ms == [] || (AllExposed(pos, hist, me, ms[..|ms| - 1]) && Rejected(pos, hist, me, ms[|ms| - 1]))
  }

  /** Each move of a list AllExposed accepts is rejected. */
  lemma {:induction false} AllExposedMember(pos: Position, hist: History, me: Color, ms: seq<Move>, k: nat)
    requires AllExposed(pos, hist, me, ms) && k < |ms|
    ensures Rejected(pos, hist, me, ms[k])
    decreases |ms|
  {
    if k < |ms| - 1 {
      assert ms[..|ms| - 1][k] == ms[k];
      AllExposedMember(pos, hist, me, ms[..|ms| - 1], k);
    }
  }

  /** Extending a fully rejected prefix by a rejected move. */
  lemma AllExposedStep(pos: Position, hist: History, me: Color, ms: seq<Move>, k: nat)
    requires k < |ms| && AllExposed(pos, hist, me, ms[..k]) && Rejected(pos, hist, me, ms[k])
    ensures AllExposed(pos, hist, me, ms[..k + 1])
  {
    PrefixStep(ms, k);
  }

  /** The prefix of length k + 1 is the prefix of length k followed by element k. */
  lemma PrefixStep<T>(s: seq<T>, k: nat)
    requires k < |s|
    ensures |s[..k + 1]| == k + 1 && s[..k + 1][..k] == s[..k] && s[..k + 1][k] == s[k]
  {
  }

  /** One move of ms that is not rejected makes AllExposed false. */
  lemma NotAllExposed(pos: Position, hist: History, me: Color, ms: seq<Move>, k: nat)
    requires k < |ms| && !Rejected(pos, hist, me, ms[k])
    ensures !AllExposed(pos, hist, me, ms)
  {
    if AllExposed(pos, hist, me, ms) {
      AllExposedMember(pos, hist, me, ms, k);
    }
  }

  /** AllExposed accepts a list exactly when every one of its moves is rejected. */
  lemma {:induction false} AllExposedSpec(pos: Position, hist: History, me: Color, ms: seq<Move>)
    ensures AllExposed(pos, hist, me, ms) <==> forall k :: 0 <= k < |ms| ==> Rejected(pos, hist, me, ms[k])
    decreases |ms|
  {
    if AllExposed(pos, hist, me, ms) {
      forall k | 0 <= k < |ms|
        ensures Rejected(pos, hist, me, ms[k])
      {
        AllExposedMember(pos, hist, me, ms, k);
      }
    } else if ms != [] {
      var prefix := ms[..|ms| - 1];
      AllExposedSpec(pos, hist, me, prefix);
      if !AllExposed(pos, hist, me, prefix) {
        var k :| 0 <= k < |prefix| && !Rejected(pos, hist, me, prefix[k]);
        assert ms[k] == prefix[k];
      }
    }
  }

  /**
   * Checkmate as checkForCheckmate decides it: c is in check and every move
   * generateAllPossibleMoves gives c exposes c's king (AllExposedSpec).
   */
  ghost predicate Checkmated(pos: Position, hist: History, c: Color)
    requires SearchOk(pos, hist)
  {
    InCheck(pos, hist, c) && AllExposed(pos, hist, c, AllMoves(pos, hist, c))
  }

  /** makeBestMove's capture incentive: the value of the piece a capture takes. */
  function CaptureBonus(pos: Position, m: Move): (b: int)
    ensures m.kind == Capture && m.opponent.Some? && m.opponent.value < |pos.pieces| ==> b >= 100
    ensures m.kind != Capture ==> b == 0
  {
    if m.kind == Capture && m.opponent.Some? && m.opponent.value < |pos.pieces|
    then PieceValue(pos.pieces[m.opponent.value].kind)
    else 0
  }

  /** A move the scan scores: playable and not exposing the current player's king. */
  ghost predicate Counts(pos: Position, hist: History, me: Color, m: Move) {
    Playable(pos, hist, m) && !Exposes(pos, hist, m, me)
  }

  /**
   * The value of a root move: minimax(3, -100000, 100000, false) after it
   * plus the capture bonus. A minimising call generates Black's moves, so
   * the lookahead has Black, the side that just moved, move again first
   * (LookaheadRepeatsMover), and the scan keeps the highest of these
   * White-positive scores. The model follows the code in both.
   */
  ghost function RootValue(pos: Position, hist: History, me: Color, m: Move): int
    requires Playable(pos, hist, m)
  {
    ChildOk(pos, hist, m);
    AlphaBeta(Make(pos, m), hist + [Pushed(pos, m)], 3, -100000, 100000, false, me) + CaptureBonus(pos, m)
  }

  /**
   * The first ply of makeBestMove's lookahead is Black's again: every move
   * minimax(3, …, false) loops over after a root move is a Black piece's.
   */
  lemma LookaheadRepeatsMover(pos: Position, hist: History, m: Move)
    requires Playable(pos, hist, m)
    ensures SearchOk(Make(pos, m), hist + [Pushed(pos, m)])
    ensures forall r :: r in SearchMoves(Make(pos, m), hist + [Pushed(pos, m)], false) ==>
      r.piece < |Make(pos, m).pieces| && Make(pos, m).pieces[r.piece].color == Black
  {
    ChildOk(pos, hist, m);
    var child, h := Make(pos, m), hist + [Pushed(pos, m)];
    forall r | r in SearchMoves(child, h, false)
      ensures r.piece < |child.pieces| && child.pieces[r.piece].color == Black
    {
      assert r in multiset(AllMoves(child, h, Black));
      AllMovesSpec(child, h, Black, r);
    }
  }

  /** bestMoveValue after the scan of ms: starts at -100000 and rises only on a strictly greater value. */
  ghost function BestValue(pos: Position, hist: History, me: Color, ms: seq<Move>): int {
    if ms == [] then -100000
    else
      var b := BestValue(pos, hist, me, ms[..|ms| - 1]);
      var m := ms[|ms| - 1];
      if Counts(pos, hist, me, m) && RootValue(pos, hist, me, m) > b then RootValue(pos, hist, me, m) else b
  }

  /** The scored moves of ms whose value is v, in scan order. */
  ghost function Ties(pos: Position, hist: History, me: Color, ms: seq<Move>, v: int): seq<Move> {
    if ms == [] then []
    else
      var m := ms[|ms| - 1];
      Ties(pos, hist, me, ms[..|ms| - 1], v)
      + if Counts(pos, hist, me, m) && RootValue(pos, hist, me, m) == v then [m] else []
  }

  /**
   * One more move of the scan: the best value rises to the move's value
   * only when it is scored and strictly greater, which restarts the ties;
   * an equal value joins them.
   */
  lemma ScanStep(pos: Position, hist: History, me: Color, ms: seq<Move>, k: nat, best: int, ties: seq<Move>)
    requires k < |ms|
    requires best == BestValue(pos, hist, me, ms[..k]) && ties == Ties(pos, hist, me, ms[..k], best)
    ensures !Counts(pos, hist, me, ms[k]) ==>
      BestValue(pos, hist, me, ms[..k + 1]) == best && Ties(pos, hist, me, ms[..k + 1], best) == ties
    ensures Counts(pos, hist, me, ms[k]) && RootValue(pos, hist, me, ms[k]) > best ==>
      BestValue(pos, hist, me, ms[..k + 1]) == RootValue(pos, hist, me, ms[k])
      && Ties(pos, hist, me, ms[..k + 1], RootValue(pos, hist, me, ms[k])) == [ms[k]]
    ensures Counts(pos, hist, me, ms[k]) && RootValue(pos, hist, me, ms[k]) == best ==>
      BestValue(pos, hist, me, ms[..k + 1]) == best && Ties(pos, hist, me, ms[..k + 1], best) == ties + [ms[k]]
    ensures Counts(pos, hist, me, ms[k]) && RootValue(pos, hist, me, ms[k]) < best ==>
      BestValue(pos, hist, me, ms[..k + 1]) == best && Ties(pos, hist, me, ms[..k + 1], best) == ties
  {
    var p := ms[..k + 1];
    assert p[..|p| - 1] == ms[..k] && p[|p| - 1] == ms[k];
    if Counts(pos, hist, me, ms[k]) && RootValue(pos, hist, me, ms[k]) > best {
      TiesAbove(pos, hist, me, ms[..k], RootValue(pos, hist, me, ms[k]));
    }
  }

  /** The best value is at least -100000 and at least every scored move's value. */
  lemma {:induction false} BestValueBound(pos: Position, hist: History, me: Color, ms: seq<Move>, m: Move)
    ensures BestValue(pos, hist, me, ms) >= -100000
    ensures m in ms && Counts(pos, hist, me, m) ==> RootValue(pos, hist, me, m) <= BestValue(pos, hist, me, ms)
  {
    if ms != [] {
      BestValueBound(pos, hist, me, ms[..|ms| - 1], m);
      assert m in ms ==> m == ms[|ms| - 1] || m in ms[..|ms| - 1] by {
        assert ms == ms[..|ms| - 1] + [ms[|ms| - 1]];
      }
    }
  }

  /** The best value is -100000 or the value of some scored move. */
  lemma {:induction false} BestValueAttained(pos: Position, hist: History, me: Color, ms: seq<Move>)
    requires BestValue(pos, hist, me, ms) != -100000
    ensures exists m :: m in ms && Counts(pos, hist, me, m) && RootValue(pos, hist, me, m) == BestValue(pos, hist, me, ms)
  {
    var prefix, m := ms[..|ms| - 1], ms[|ms| - 1];
    if BestValue(pos, hist, me, ms) == BestValue(pos, hist, me, prefix) {
      BestValueAttained(pos, hist, me, prefix);
      var w :| w in prefix && Counts(pos, hist, me, w) && RootValue(pos, hist, me, w) == BestValue(pos, hist, me, prefix);
      assert w in ms;
    } else {
      assert m in ms;
    }
  }

  /** The ties are exactly the scored moves of ms with value v. */
  lemma {:induction false} TiesSpec(pos: Position, hist: History, me: Color, ms: seq<Move>, v: int, m: Move)
    ensures m in Ties(pos, hist, me, ms, v) <==> m in ms && Counts(pos, hist, me, m) && RootValue(pos, hist, me, m) == v
  {
    if ms != [] {
      TiesSpec(pos, hist, me, ms[..|ms| - 1], v, m);
      assert ms == ms[..|ms| - 1] + [ms[|ms| - 1]];
    }
  }

  /** No scored move has a value above the best, so there are no ties there. */
  lemma TiesAbove(pos: Position, hist: History, me: Color, ms: seq<Move>, v: int)
    requires v > BestValue(pos, hist, me, ms)
    ensures Ties(pos, hist, me, ms, v) == []
  {
    if Ties(pos, hist, me, ms, v) != [] {
      var m := Ties(pos, hist, me, ms, v)[0];
      TiesSpec(pos, hist, me, ms, v, m);
      BestValueBound(pos, hist, me, ms, m);
    }
  }

  /** The moves makeBestMove chooses among: black's scored moves of the best value. */
  ghost function RootTies(pos: Position, hist: History, me: Color): seq<Move>
    requires Linked(pos) && TopOk(pos, hist)
  {
    var ms := AllMoves(pos, hist, Black);
    Ties(pos, hist, me, ms, BestValue(pos, hist, me, ms))
  }

  /** A best move: a black move that does not expose the king and whose value no other such move beats. */
  ghost predicate BestChoice(pos: Position, hist: History, me: Color, p: Move)
    requires Linked(pos) && TopOk(pos, hist)
  {
    && p in AllMoves(pos, hist, Black)
    && Counts(pos, hist, me, p)
    && forall m :: m in AllMoves(pos, hist, Black) && Counts(pos, hist, me, m) ==>
         RootValue(pos, hist, me, m) <= RootValue(pos, hist, me, p)
  }

  /** Every tie is a best move. */
  lemma TieIsBest(pos: Position, hist: History, me: Color, p: Move)
    requires Linked(pos) && TopOk(pos, hist) && p in RootTies(pos, hist, me)
    ensures BestChoice(pos, hist, me, p)
  {
    var ms := AllMoves(pos, hist, Black);
    TiesSpec(pos, hist, me, ms, BestValue(pos, hist, me, ms), p);
    forall m | m in ms && Counts(pos, hist, me, m)
      ensures RootValue(pos, hist, me, m) <= RootValue(pos, hist, me, p)
    {
      BestValueBound(pos, hist, me, ms, m);
    }
  }

  /**
   * With total weight at most 100000 every root value is at least -100000,
   * so the tie set is empty only when black has no move that keeps the king
   * safe.
   */
  lemma TiesEmptyOnlyWithoutMoves(pos: Position, hist: History, me: Color, m: Move)
    requires SearchOk(pos, hist) && Material(pos.pieces) <= 100000
    requires m in AllMoves(pos, hist, Black) && Counts(pos, hist, me, m)
    ensures RootTies(pos, hist, me) != []
  {
    var ms := AllMoves(pos, hist, Black);
    var best := BestValue(pos, hist, me, ms);
    ChildOk(pos, hist, m);
    AlphaBetaInWindow(Make(pos, m), hist + [Pushed(pos, m)], 3, -100000, 100000, false, me);
    BestValueBound(pos, hist, me, ms, m);
    if best == -100000 {
      TiesSpec(pos, hist, me, ms, best, m);
    } else {
      BestValueAttained(pos, hist, me, ms);
      var w :| w in ms && Counts(pos, hist, me, w) && RootValue(pos, hist, me, w) == best;
      TiesSpec(pos, hist, me, ms, best, w);
    }
  }

  /** Some move of ms captures a piece of the position. */
  predicate SomeCapture(pos: Position, ms: seq<Move>) {
    exists i :: 0 <= i < |ms| && CaptureKey(pos, ms[i]) >= 0
  }

  /** No move of ms captures a more valuable piece than p does. */
  predicate TopCapture(pos: Position, ms: seq<Move>, p: Move) {
    forall i :: 0 <= i < |ms| ==> CaptureKey(pos, ms[i]) <= CaptureKey(pos, p)
  }

  /**
   * makeBestMove's choice among the ties: sorted capture-first, the head
   * when it is a capture, otherwise any tie (the source draws an index at
   * random). A capture of the most valuable piece wins whenever a tie
   * captures anything.
   */
  method ChooseMove(pos: Position, ties: seq<Move>) returns (best: Move)
    requires ties != []
    ensures best in ties
    ensures SomeCapture(pos, ties) ==> best.kind == Capture && TopCapture(pos, ties, best)
  {
    var sorted := SortMoves(pos, ties);
    assert sorted[0] in multiset(ties);
    forall i | 0 <= i < |ties|
      ensures CaptureKey(pos, ties[i]) <= CaptureKey(pos, sorted[0])
    {
      assert ties[i] in multiset(sorted);
      var j :| 0 <= j < |sorted| && sorted[j] == ties[i];
    }
    if sorted[0].kind == Capture {
      best := sorted[0];
    } else {
      var i :| 0 <= i < |sorted|;
      assert sorted[i] in multiset(ties);
      best := sorted[i];
    }
  }

  /** makeBestMove's safe step before makeMove: clear the source, relink mover and source. It changes nothing. */
  lemma RelinkSame(pos: Position, i: nat, t: Pos)
    requires Linked(pos) && i < |pos.pieces| && pos.pieces[i].square == Some(t)
    ensures SquareOk(pos, t) && SquareOk(ClearSquare(pos, t), t)
    ensures SetOccupier(SetSquare(ClearSquare(pos, t), i, t), t, i) == pos
  {
    var q := SetOccupier(SetSquare(ClearSquare(pos, t), i, t), t, i);
    assert q.occupier == pos.occupier;
    assert q.pieces == pos.pieces;
  }
}

=== FILE: search.dfy ===
/**
 * The engine's search (src/engine.cc: minimax), as functions over a position
 * and its history: the capture-first move ordering, the alpha-beta search
 * exactly as the source prunes it, and plain minimax over the same moves as
 * its reference. The main result is that from the full window the pruned
 * search returns the unpruned value.
 */
module Search {
  import opened Wrappers
  import opened Arena
  import opened MoveGen
  import opened Check
  import opened Ply
  import opened Evaluation
  import opened BoardModel

  /**
   * The ordering key of minimax's comparator: a capture ranks by the value
   * of the piece it takes, every non-capture below every capture.
   */
  function CaptureKey(pos: Position, m: Move): (k: int)
    ensures m.kind == Capture && m.opponent.Some? && m.opponent.value < |pos.pieces| ==> k >= 100
    ensures m.kind != Capture ==> k == -1
  {
    if m.kind == Capture && m.opponent.Some? && m.opponent.value < |pos.pieces|
    then PieceValue(pos.pieces[m.opponent.value].kind)
    else -1
  }

  predicate SortedByKey(pos: Position, ms: seq<Move>) {
    forall i, j :: 0 <= i < j < |ms| ==> CaptureKey(pos, ms[i]) >= CaptureKey(pos, ms[j])
  }

  /** A sorted list stays sorted under a head whose key is at least its first element's. */
  lemma SortedCons(pos: Position, x: Move, ms: seq<Move>)
    requires SortedByKey(pos, ms)
    requires ms != [] ==> CaptureKey(pos, x) >= CaptureKey(pos, ms[0])
    ensures SortedByKey(pos, [x] + ms)
  {
    var r := [x] + ms;
    forall i, j | 0 <= i < j < |r|
      ensures CaptureKey(pos, r[i]) >= CaptureKey(pos, r[j])
    {
      if i == 0 {
        assert r[j] == ms[j - 1];
        assert CaptureKey(pos, ms[0]) >= CaptureKey(pos, ms[j - 1]);
      } else {
        assert r[i] == ms[i - 1] && r[j] == ms[j - 1];
      }
    }
  }

  /** Inserts m after every element whose key is at least m's. */
  function Insert(pos: Position, m: Move, ms: seq<Move>): (r: seq<Move>)
    ensures multiset(r) == multiset(ms) + multiset{m}
    ensures r != [] && (r[0] == m || (ms != [] && r[0] == ms[0]))
  {
    if ms == [] then [m]
    else if CaptureKey(pos, ms[0]) >= CaptureKey(pos, m) then
      assert ms == [ms[0]] + ms[1..];
      [ms[0]] + Insert(pos, m, ms[1..])
    else
      [m] + ms
  }

  /** Inserting into a sorted list keeps it sorted. */
  lemma {:induction false} InsertSorted(pos: Position, m: Move, ms: seq<Move>)
    requires SortedByKey(pos, ms)
    ensures SortedByKey(pos, Insert(pos, m, ms))
  {
    if ms == [] {
    } else if CaptureKey(pos, ms[0]) >= CaptureKey(pos, m) {
      assert SortedByKey(pos, ms[1..]) by {
        forall i, j | 0 <= i < j < |ms| - 1
          ensures CaptureKey(pos, ms[1..][i]) >= CaptureKey(pos, ms[1..][j])
        {
          assert ms[1..][i] == ms[i + 1] && ms[1..][j] == ms[j + 1];
        }
      }
      InsertSorted(pos, m, ms[1..]);
      SortedCons(pos, ms[0], Insert(pos, m, ms[1..]));
    } else {
      SortedCons(pos, m, ms);
    }
  }

  /**
   * The order std::sort leaves the moves in under minimax's comparator. The
   * source's sort is not stable; this model keeps moves of equal key in
   * generation order.
   */
  function SortMoves(pos: Position, ms: seq<Move>): (r: seq<Move>)
    ensures SortedByKey(pos, r)
    ensures multiset(r) == multiset(ms)
  {
    if ms == [] then []
    else
      assert ms == ms[..|ms| - 1] + [ms[|ms| - 1]];
      var sorted := SortMoves(pos, ms[..|ms| - 1]);
      InsertSorted(pos, ms[|ms| - 1], sorted);
      Insert(pos, ms[|ms| - 1], sorted)
  }

  /** After ordering, every capture of a piece in the list precedes every non-capture. */
  lemma CapturesFirst(pos: Position, ms: seq<Move>, i: nat, j: nat)
    requires i < |SortMoves(pos, ms)| && j < |SortMoves(pos, ms)|
    requires var r := SortMoves(pos, ms);
      r[i].kind == Capture && r[i].opponent.Some? && r[i].opponent.value < |pos.pieces| && r[j].kind != Capture
    ensures i < j
  {
  }

  /** A position the search can run in: linked, a readable history top, and both kings' slots. */
  ghost predicate SearchOk(pos: Position, hist: History) {
    Linked(pos) && TopOk(pos, hist) && |pos.pieces| >= 30
  }

  /** A move the search can play: the position is one it can run in and the move fits it. */
  ghost predicate Playable(pos: Position, hist: History, m: Move) {
    SearchOk(pos, hist) && Fits(pos, m)
  }

  /** The position after a playable move is again one the search can run in, with the same material. */
  lemma ChildOk(pos: Position, hist: History, m: Move)
    requires Playable(pos, hist, m)
    ensures MoveOk(pos, m)
    ensures SearchOk(Make(pos, m), hist + [Pushed(pos, m)])
    ensures Material(Make(pos, m).pieces) == Material(pos.pieces)
  {
    MakeLinked(pos, m);
    MakeKeepsPieces(pos, m);
    MaterialSameKinds(Make(pos, m).pieces, pos.pieces, |pos.pieces|);
  }

  /**
   * Engine::wouldExposeKing: after m, the player `me` is in check. The
   * colour is the current player's, whichever side m belongs to.
   */
  ghost predicate Exposes(pos: Position, hist: History, m: Move, me: Color)
    requires Playable(pos, hist, m)
  {
    ChildOk(pos, hist, m);
    InCheck(Make(pos, m), hist + [Pushed(pos, m)], me)
  }

  function SideToMove(maximizing: bool): Color {
    if maximizing then White else Black
  }

  /** The moves minimax loops over: those of the side to move, capture-first. */
  function SearchMoves(pos: Position, hist: History, maximizing: bool): seq<Move>
    requires Linked(pos) && TopOk(pos, hist)
  {
    SortMoves(pos, AllMoves(pos, hist, SideToMove(maximizing)))
  }

  /**
   * Every move minimax loops over is playable, so the guard the search
   * functions below carry never skips a move of a position the engine can
   * reach.
   */
  lemma SearchMovesPlayable(pos: Position, hist: History, maximizing: bool, k: nat)
    requires SearchOk(pos, hist) && k < |SearchMoves(pos, hist, maximizing)|
    ensures Playable(pos, hist, SearchMoves(pos, hist, maximizing)[k])
  {
    var all := AllMoves(pos, hist, SideToMove(maximizing));
    var m := SearchMoves(pos, hist, maximizing)[k];
    assert m in multiset(all);
    AllMovesSpec(pos, hist, SideToMove(maximizing), m);
    GeneratedFits(pos, hist, SideToMove(maximizing), m);
  }

  /** Every move generateAllPossibleMoves emits in a position the search can run in is playable. */
  lemma AllMovesPlayable(pos: Position, hist: History, c: Color, m: Move)
    requires SearchOk(pos, hist) && m in AllMoves(pos, hist, c)
    ensures Playable(pos, hist, m)
    ensures m.kind == Capture ==> m.opponent.Some? && m.opponent.value < |pos.pieces|
  {
    AllMovesSpec(pos, hist, c, m);
    GeneratedFits(pos, hist, c, m);
  }

  function Max(a: int, b: int): int {
    if a >= b then a else b
  }

  function Min(a: int, b: int): int {
    if a <= b then a else b
  }

  /**
   * Engine::minimax: at depth 0 the evaluation; otherwise the loop over the
   * ordered moves, skipping those that expose `me`, with maxEval (minEval)
   * starting at -100000 (100000). A position the search cannot run in is
   * scored by its evaluation, and a move that does not fit is skipped; by
   * SearchMovesPlayable neither happens from a linked position.
   */
  ghost function AlphaBeta(pos: Position, hist: History, depth: nat, alpha: int, beta: int, maximizing: bool, me: Color): int
    decreases depth, 1, 0
  {
    if depth == 0 || !SearchOk(pos, hist) then Eval(pos.pieces)
    else
      var moves := SearchMoves(pos, hist, maximizing);
      if maximizing then MaxLoop(pos, hist, depth - 1, moves, alpha, beta, -100000, me)
      else MinLoop(pos, hist, depth - 1, moves, alpha, beta, 100000, me)
  }

  /**
   * The maximising loop from the current move on, searching each child to
   * depth d: alpha rises with each value, and beta <= alpha stops the loop.
   */
  ghost function MaxLoop(pos: Position, hist: History, d: nat, moves: seq<Move>, alpha: int, beta: int, best: int, me: Color): (r: int)
    ensures best <= r
    decreases d, 2, |moves|
  {
    if moves == [] then best
    else
      var m := moves[0];
      if !Playable(pos, hist, m) || Exposes(pos, hist, m, me) then MaxLoop(pos, hist, d, moves[1..], alpha, beta, best, me)
      else
        ChildOk(pos, hist, m);
        var e := AlphaBeta(Make(pos, m), hist + [Pushed(pos, m)], d, alpha, beta, false, me);
        var best' := Max(best, e);
        var alpha' := Max(alpha, e);
        if beta <= alpha' then best' else MaxLoop(pos, hist, d, moves[1..], alpha', beta, best', me)
  }

  /** The minimising loop: beta falls with each value, and beta <= alpha stops it. */
  ghost function MinLoop(pos: Position, hist: History, d: nat, moves: seq<Move>, alpha: int, beta: int, best: int, me: Color): (r: int)
    ensures r <= best
    decreases d, 2, |moves|
  {
    if moves == [] then best
    else
      var m := moves[0];
      if !Playable(pos, hist, m) || Exposes(pos, hist, m, me) then MinLoop(pos, hist, d, moves[1..], alpha, beta, best, me)
      else
        ChildOk(pos, hist, m);
        var e := AlphaBeta(Make(pos, m), hist + [Pushed(pos, m)], d, alpha, beta, true, me);
        var best' := Min(best, e);
        var beta' := Min(beta, e);
        if beta' <= alpha then best' else MinLoop(pos, hist, d, moves[1..], alpha, beta', best', me)
  }

  /** One step of the maximising loop over a playable first move: skipped if it exposes `me`, else searched. */
  lemma MaxLoopStep(pos: Position, hist: History, d: nat, moves: seq<Move>, alpha: int, beta: int, best: int, me: Color)
    requires moves != [] && Playable(pos, hist, moves[0])
    ensures MoveOk(pos, moves[0])
    ensures MaxLoop(pos, hist, d, moves, alpha, beta, best, me)
      == if Exposes(pos, hist, moves[0], me) then MaxLoop(pos, hist, d, moves[1..], alpha, beta, best, me)
         else
           var e := AlphaBeta(Make(pos, moves[0]), hist + [Pushed(pos, moves[0])], d, alpha, beta, false, me);
           if beta <= Max(alpha, e) then Max(best, e) else MaxLoop(pos, hist, d, moves[1..], Max(alpha, e), beta, Max(best, e), me)
  {
    ChildOk(pos, hist, moves[0]);
  }

  /** One step of the minimising loop over a playable first move. */
  lemma MinLoopStep(pos: Position, hist: History, d: nat, moves: seq<Move>, alpha: int, beta: int, best: int, me: Color)
    requires moves != [] && Playable(pos, hist, moves[0])
    ensures MoveOk(pos, moves[0])
    ensures MinLoop(pos, hist, d, moves, alpha, beta, best, me)
      == if Exposes(pos, hist, moves[0], me) then MinLoop(pos, hist, d, moves[1..], alpha, beta, best, me)
         else
           var e := AlphaBeta(Make(pos, moves[0]), hist + [Pushed(pos, moves[0])], d, alpha, beta, true, me);
           if Min(beta, e) <= alpha then Min(best, e) else MinLoop(pos, hist, d, moves[1..], alpha, Min(beta, e), Min(best, e), me)
  {
    ChildOk(pos, hist, moves[0]);
  }

  /**
   * The reference: plain minimax over the same moves, with the same skipped
   * moves and the same bounds -100000 and 100000 for a side with no move.
   */
  ghost function Minimax(pos: Position, hist: History, depth: nat, maximizing: bool, me: Color): int
    decreases depth, 1, 0
  {
    if depth == 0 || !SearchOk(pos, hist) then Eval(pos.pieces)
    else
      var moves := SearchMoves(pos, hist, maximizing);
      if maximizing then MaxAll(pos, hist, depth - 1, moves, me) else MinAll(pos, hist, depth - 1, moves, me)
  }

  ghost function MaxAll(pos: Position, hist: History, d: nat, moves: seq<Move>, me: Color): (r: int)
    ensures r >= -100000
    decreases d, 2, |moves|
  {
    if moves == [] then -100000
    else
      var m := moves[0];
      if !Playable(pos, hist, m) || Exposes(pos, hist, m, me) then MaxAll(pos, hist, d, moves[1..], me)
      else
        ChildOk(pos, hist, m);
        Max(Minimax(Make(pos, m), hist + [Pushed(pos, m)], d, false, me), MaxAll(pos, hist, d, moves[1..], me))
  }

  ghost function MinAll(pos: Position, hist: History, d: nat, moves: seq<Move>, me: Color): (r: int)
    ensures r <= 100000
    decreases d, 2, |moves|
  {
    if moves == [] then 100000
    else
      var m := moves[0];
      if !Playable(pos, hist, m) || Exposes(pos, hist, m, me) then MinAll(pos, hist, d, moves[1..], me)
      else
        ChildOk(pos, hist, m);
        Min(Minimax(Make(pos, m), hist + [Pushed(pos, m)], d, true, me), MinAll(pos, hist, d, moves[1..], me))
  }

  /** The window property of alpha-beta: fail low, fail high, or exact inside the window. */
  ghost predicate Agrees(v: int, r: int, alpha: int, beta: int) {
    && (v <= alpha ==> r <= alpha)
    && (v >= beta ==> r >= beta)
    && (alpha < v < beta ==> r == v)
  }

  /** One maximising step: the child's window property and the tail's combine into the loop's. */
  lemma MaxStep(v: int, w: int, e: int, tail: int, alpha: int, beta: int, best: int, total: int, r: int)
    requires alpha < beta && best <= alpha
    requires Agrees(v, e, alpha, beta)
    requires Max(alpha, e) < beta ==> Agrees(w, tail, Max(alpha, e), beta) && Max(best, e) <= tail
    requires total == Max(v, w)
    requires r == if beta <= Max(alpha, e) then Max(best, e) else tail
    ensures Agrees(total, r, alpha, beta)
  {
  }

  /** One minimising step, the mirror image of MaxStep. */
  lemma MinStep(v: int, w: int, e: int, tail: int, alpha: int, beta: int, best: int, total: int, r: int)
    requires alpha < beta && beta <= best
    requires Agrees(v, e, alpha, beta)
    requires alpha < Min(beta, e) ==> Agrees(w, tail, alpha, Min(beta, e)) && tail <= Min(best, e)
    requires total == Min(v, w)
    requires r == if Min(beta, e) <= alpha then Min(best, e) else tail
    ensures Agrees(total, r, alpha, beta)
  {
  }

  /**
   * For any window inside [-100000, 100000], the pruned search agrees with plain
   * minimax: below the window it fails low, above it fails high, and inside
   * it returns the exact value.
   */
  lemma {:induction false} AlphaBetaAgrees(pos: Position, hist: History, depth: nat, alpha: int, beta: int, maximizing: bool, me: Color)
    requires -100000 <= alpha < beta <= 100000
    ensures Agrees(Minimax(pos, hist, depth, maximizing, me), AlphaBeta(pos, hist, depth, alpha, beta, maximizing, me), alpha, beta)
    decreases depth, 1, 0
  {
    if depth > 0 && SearchOk(pos, hist) {
      if maximizing {
        MaxRootAgrees(pos, hist, depth, alpha, beta, me);
      } else {
        MinRootAgrees(pos, hist, depth, alpha, beta, me);
      }
    }
  }

  lemma {:induction false} MaxRootAgrees(pos: Position, hist: History, depth: nat, alpha: int, beta: int, me: Color)
    requires depth > 0 && SearchOk(pos, hist) && -100000 <= alpha < beta <= 100000
    ensures Agrees(Minimax(pos, hist, depth, true, me), AlphaBeta(pos, hist, depth, alpha, beta, true, me), alpha, beta)
    decreases depth, 0, 0
  {
    var moves := SearchMoves(pos, hist, true);
    MaxLoopAgrees(pos, hist, depth - 1, moves, alpha, beta, -100000, me);
  }

  lemma {:induction false} MinRootAgrees(pos: Position, hist: History, depth: nat, alpha: int, beta: int, me: Color)
    requires depth > 0 && SearchOk(pos, hist) && -100000 <= alpha < beta <= 100000
    ensures Agrees(Minimax(pos, hist, depth, false, me), AlphaBeta(pos, hist, depth, alpha, beta, false, me), alpha, beta)
    decreases depth, 0, 0
  {
    var moves := SearchMoves(pos, hist, false);
    MinLoopAgrees(pos, hist, depth - 1, moves, alpha, beta, 100000, me);
  }

  lemma {:induction false} MaxLoopAgrees(pos: Position, hist: History, d: nat, moves: seq<Move>, alpha: int, beta: int, best: int, me: Color)
    requires -100000 <= alpha < beta <= 100000 && best <= alpha
    ensures Agrees(MaxAll(pos, hist, d, moves, me), MaxLoop(pos, hist, d, moves, alpha, beta, best, me), alpha, beta)
    decreases d, 2, |moves|
  {
    if moves != [] {
      var m, rest := moves[0], moves[1..];
      if !Playable(pos, hist, m) || Exposes(pos, hist, m, me) {
        MaxLoopAgrees(pos, hist, d, rest, alpha, beta, best, me);
      } else {
        ChildOk(pos, hist, m);
        var child, childHist := Make(pos, m), hist + [Pushed(pos, m)];
        var e := AlphaBeta(child, childHist, d, alpha, beta, false, me);
        AlphaBetaAgrees(child, childHist, d, alpha, beta, false, me);
        var tail := MaxLoop(pos, hist, d, rest, Max(alpha, e), beta, Max(best, e), me);
        if Max(alpha, e) < beta {
          MaxLoopAgrees(pos, hist, d, rest, Max(alpha, e), beta, Max(best, e), me);
        }
        MaxStep(Minimax(child, childHist, d, false, me), MaxAll(pos, hist, d, rest, me), e, tail, alpha, beta, best,
          MaxAll(pos, hist, d, moves, me), MaxLoop(pos, hist, d, moves, alpha, beta, best, me));
      }
    }
  }

  lemma {:induction false} MinLoopAgrees(pos: Position, hist: History, d: nat, moves: seq<Move>, alpha: int, beta: int, best: int, me: Color)
    requires -100000 <= alpha < beta <= 100000 && beta <= best
    ensures Agrees(MinAll(pos, hist, d, moves, me), MinLoop(pos, hist, d, moves, alpha, beta, best, me), alpha, beta)
    decreases d, 2, |moves|
  {
    if moves != [] {
      var m, rest := moves[0], moves[1..];
      if !Playable(pos, hist, m) || Exposes(pos, hist, m, me) {
        MinLoopAgrees(pos, hist, d, rest, alpha, beta, best, me);
      } else {
        ChildOk(pos, hist, m);
        var child, childHist := Make(pos, m), hist + [Pushed(pos, m)];
        var e := AlphaBeta(child, childHist, d, alpha, beta, true, me);
        AlphaBetaAgrees(child, childHist, d, alpha, beta, true, me);
        var tail := MinLoop(pos, hist, d, rest, alpha, Min(beta, e), Min(best, e), me);
        if alpha < Min(beta, e) {
          MinLoopAgrees(pos, hist, d, rest, alpha, Min(beta, e), Min(best, e), me);
        }
        MinStep(Minimax(child, childHist, d, true, me), MinAll(pos, hist, d, rest, me), e, tail, alpha, beta, best,
          MinAll(pos, hist, d, moves, me), MinLoop(pos, hist, d, moves, alpha, beta, best, me));
      }
    }
  }

  ghost predicate InWindow(x: int) {
    -100000 <= x <= 100000
  }

  /**
   * In a linked position of total weight at most 100000 every evaluation
   * lies inside the initial window, and so does every minimax value.
   */
  lemma {:induction false} MinimaxInWindow(pos: Position, hist: History, depth: nat, maximizing: bool, me: Color)
    requires Linked(pos) && Material(pos.pieces) <= 100000
    ensures InWindow(Minimax(pos, hist, depth, maximizing, me))
    decreases depth, 1, 0
  {
    if depth == 0 || !SearchOk(pos, hist) {
      EvalBound(pos);
      assert Minimax(pos, hist, depth, maximizing, me) == Eval(pos.pieces);
    } else if maximizing {
      MaxAllRootInWindow(pos, hist, depth, me);
    } else {
      MinAllRootInWindow(pos, hist, depth, me);
    }
  }

  lemma {:induction false} MaxAllRootInWindow(pos: Position, hist: History, depth: nat, me: Color)
    requires depth >= 1 && SearchOk(pos, hist) && Material(pos.pieces) <= 100000
    ensures InWindow(Minimax(pos, hist, depth, true, me))
    decreases depth, 0, 0
  {
    var moves := SearchMoves(pos, hist, true);
    MaxAllInWindow(pos, hist, depth - 1, moves, me);
  }

  lemma {:induction false} MinAllRootInWindow(pos: Position, hist: History, depth: nat, me: Color)
    requires depth >= 1 && SearchOk(pos, hist) && Material(pos.pieces) <= 100000
    ensures InWindow(Minimax(pos, hist, depth, false, me))
    decreases depth, 0, 0
  {
    var moves := SearchMoves(pos, hist, false);
    MinAllInWindow(pos, hist, depth - 1, moves, me);
  }

  lemma {:induction false} MaxAllInWindow(pos: Position, hist: History, d: nat, moves: seq<Move>, me: Color)
    requires Material(pos.pieces) <= 100000
    ensures InWindow(MaxAll(pos, hist, d, moves, me))
    decreases d, 2, |moves|
  {
    if moves != [] {
      var m := moves[0];
      MaxAllInWindow(pos, hist, d, moves[1..], me);
      if Playable(pos, hist, m) {
        ChildOk(pos, hist, m);
        MinimaxInWindow(Make(pos, m), hist + [Pushed(pos, m)], d, false, me);
      }
    }
  }

  lemma {:induction false} MinAllInWindow(pos: Position, hist: History, d: nat, moves: seq<Move>, me: Color)
    requires Material(pos.pieces) <= 100000
    ensures InWindow(MinAll(pos, hist, d, moves, me))
    decreases d, 2, |moves|
  {
    if moves != [] {
      var m := moves[0];
      MinAllInWindow(pos, hist, d, moves[1..], me);
      if Playable(pos, hist, m) {
        ChildOk(pos, hist, m);
        MinimaxInWindow(Make(pos, m), hist + [Pushed(pos, m)], d, true, me);
      }
    }
  }

  /** The pruned search likewise stays inside the initial window, whatever window it is given. */
  lemma {:induction false} AlphaBetaInWindow(pos: Position, hist: History, depth: nat, alpha: int, beta: int, maximizing: bool, me: Color)
    requires Linked(pos) && Material(pos.pieces) <= 100000
    ensures InWindow(AlphaBeta(pos, hist, depth, alpha, beta, maximizing, me))
    decreases depth, 1, 0
  {
    if depth == 0 || !SearchOk(pos, hist) {
      EvalBound(pos);
      assert AlphaBeta(pos, hist, depth, alpha, beta, maximizing, me) == Eval(pos.pieces);
    } else if maximizing {
      MaxRootInWindow(pos, hist, depth, alpha, beta, me);
    } else {
      MinRootInWindow(pos, hist, depth, alpha, beta, me);
    }
  }

  lemma {:induction false} MaxRootInWindow(pos: Position, hist: History, depth: nat, alpha: int, beta: int, me: Color)
    requires depth >= 1 && SearchOk(pos, hist) && Material(pos.pieces) <= 100000
    ensures InWindow(AlphaBeta(pos, hist, depth, alpha, beta, true, me))
    decreases depth, 0, 0
  {
    var moves := SearchMoves(pos, hist, true);
    MaxLoopInWindow(pos, hist, depth - 1, moves, alpha, beta, -100000, me);
  }

  lemma {:induction false} MinRootInWindow(pos: Position, hist: History, depth: nat, alpha: int, beta: int, me: Color)
    requires depth >= 1 && SearchOk(pos, hist) && Material(pos.pieces) <= 100000
    ensures InWindow(AlphaBeta(pos, hist, depth, alpha, beta, false, me))
    decreases depth, 0, 0
  {
    var moves := SearchMoves(pos, hist, false);
    MinLoopInWindow(pos, hist, depth - 1, moves, alpha, beta, 100000, me);
  }

  lemma {:induction false} MaxLoopInWindow(pos: Position, hist: History, d: nat, moves: seq<Move>, alpha: int, beta: int, best: int, me: Color)
    requires Material(pos.pieces) <= 100000 && InWindow(best)
    ensures InWindow(MaxLoop(pos, hist, d, moves, alpha, beta, best, me))
    decreases d, 2, |moves|
  {
    if moves != [] {
      var m := moves[0];
      if !Playable(pos, hist, m) || Exposes(pos, hist, m, me) {
        MaxLoopInWindow(pos, hist, d, moves[1..], alpha, beta, best, me);
      } else {
        ChildOk(pos, hist, m);
        var child, childHist := Make(pos, m), hist + [Pushed(pos, m)];
        var e := AlphaBeta(child, childHist, d, alpha, beta, false, me);
        AlphaBetaInWindow(child, childHist, d, alpha, beta, false, me);
        MaxLoopInWindow(pos, hist, d, moves[1..], Max(alpha, e), beta, Max(best, e), me);
      }
    }
  }

  lemma {:induction false} MinLoopInWindow(pos: Position, hist: History, d: nat, moves: seq<Move>, alpha: int, beta: int, best: int, me: Color)
    requires Material(pos.pieces) <= 100000 && InWindow(best)
    ensures InWindow(MinLoop(pos, hist, d, moves, alpha, beta, best, me))
    decreases d, 2, |moves|
  {
    if moves != [] {
      var m := moves[0];
      if !Playable(pos, hist, m) || Exposes(pos, hist, m, me) {
        MinLoopInWindow(pos, hist, d, moves[1..], alpha, beta, best, me);
      } else {
        ChildOk(pos, hist, m);
        var child, childHist := Make(pos, m), hist + [Pushed(pos, m)];
        var e := AlphaBeta(child, childHist, d, alpha, beta, true, me);
        AlphaBetaInWindow(child, childHist, d, alpha, beta, true, me);
        MinLoopInWindow(pos, hist, d, moves[1..], alpha, Min(beta, e), Min(best, e), me);
      }
    }
  }

  /**
   * Called as the engine calls it, with the window [-100000, 100000], the
   * pruned search returns exactly the minimax value.
   */
  lemma FullWindow(pos: Position, hist: History, depth: nat, maximizing: bool, me: Color)
    requires Linked(pos) && Material(pos.pieces) <= 100000
    ensures AlphaBeta(pos, hist, depth, -100000, 100000, maximizing, me) == Minimax(pos, hist, depth, maximizing, me)
  {
    AlphaBetaAgrees(pos, hist, depth, -100000, 100000, maximizing, me);
    MinimaxInWindow(pos, hist, depth, maximizing, me);
    AlphaBetaInWindow(pos, hist, depth, -100000, 100000, maximizing, me);
  }

  /** In particular from the starting position, whose total weight is 50240. */
  lemma FullWindowFromStart(pos: Position, hist: History, depth: nat, maximizing: bool, me: Color)
    requires Linked(pos) && pos.pieces == StartPieces()
    ensures AlphaBeta(pos, hist, depth, -100000, 100000, maximizing, me) == Minimax(pos, hist, depth, maximizing, me)
  {
    StartMaterial();
    FullWindow(pos, hist, depth, maximizing, me);
  }
  /** At depth 0 the search returns the static evaluation, whatever the window and the side. */
  lemma SearchLeaf(pos: Position, hist: History, alpha: int, beta: int, maximizing: bool, me: Color)
    ensures AlphaBeta(pos, hist, 0, alpha, beta, maximizing, me) == Eval(pos.pieces)
    ensures AlphaBeta(pos, hist, 0, alpha, beta, maximizing, me) == AlphaBeta(pos, hist, 0, -100000, 100000, true, White)
  {
  }
}

=== FILE: turn.dfy ===
/**
 * The rules movePiece and capturePiece follow, as values: the record a
 * manual move pushes, when it is refused, and the position, history and
 * player to move that each outcome leaves.
 */
module Turn {
  import opened Wrappers
  import opened Arena
  import opened BoardModel
  import opened MoveGen
  import opened Check
  import opened Ply
  import opened Evaluation
  import opened Search
  import opened Root
  import opened Capture
  import opened InputCodec

  /** The destinations generatePossibleMoves lists for the piece on square t: the squares selectSquare highlights. */
  ghost function Destinations(pos: Position, hist: History, t: Pos): set<Pos>
    requires Linked(pos) && TopOk(pos, hist) && InBounds(t) && pos.occupier[t].Some?
  {
    LinkedPlaced(pos, pos.occupier[t].value);
    set p | p in PossibleMoves(pos, hist, pos.occupier[t].value)
  }

  /**
   * The record movePiece builds for piece i and the target t: no opponent,
   * and, as the Move header is not part of this model, the default type
   * (a normal move) and no first-move flag.
   */
  function ManualRecord(pos: Position, i: nat, t: Pos): Move
    requires i < |pos.pieces| && pos.pieces[i].square.Some?
  {
    Move(i, None, pos.pieces[i].square.value, t, Normal, false)
  }

  /** A piece on the board moving to an empty square makes a record the search could play. */
  lemma ManualPlayable(pos: Position, hist: History, i: nat, t: Pos)
    requires SearchOk(pos, hist) && i < |pos.pieces| && pos.pieces[i].square.Some?
    requires InBounds(t) && pos.occupier[t].None?
    ensures Playable(pos, hist, ManualRecord(pos, i, t))
  {
    LinkedPlaced(pos, i);
  }

  /** After a hand-made ply onto an empty square the search can still run, and a king on the board stays on it. */
  lemma AfterManual(pos: Position, hist: History, m: Move, c: Color)
    requires SearchOk(pos, hist) && Fits(pos, m) && m.opponent.None?
    requires pos.pieces[FindKing(c)].square.Some?
    ensures MoveOk(pos, m)
    ensures SearchOk(Make(pos, m), hist)
    ensures Make(pos, m).pieces[FindKing(c)].square.Some?
  {
    MakeLinked(pos, m);
    MakePieces(pos, m);
  }

  /** movePiece's safety test: the hand-made move of piece i to t leaves c in check. */
  ghost predicate ManualExposes(pos: Position, hist: History, i: nat, t: Pos, c: Color)
    requires SearchOk(pos, hist) && i < |pos.pieces| && pos.pieces[i].square.Some?
    requires InBounds(t) && pos.occupier[t].None?
  {
    ManualPlayable(pos, hist, i, t);
    Exposes(pos, hist, ManualRecord(pos, i, t), c)
  }

  /**
   * What the input handler relies on between presses: the search can run,
   * the king of the player to move is on the board in its slot, and a
   * selected square is on the board and, if it holds a piece, that piece is
   * the mover's and an en passant landing square of it is empty.
   */
  ghost predicate Ready(pos: Position, hist: History, c: Color, selected: Option<Pos>) {
    && SearchOk(pos, hist)
    && pos.pieces[FindKing(c)].square.Some? && pos.pieces[FindKing(c)].color == c
    && (selected.Some? ==> InBounds(selected.value))
    && (selected.Some? && pos.occupier[selected.value].Some? ==>
          var i := pos.occupier[selected.value].value;
          pos.pieces[i].color == c && pos.pieces[i].square.Some? && LandingClear(pos, hist, i))
  }

  /**
   * What proccessMove leaves after a press on t while sel is selected, in
   * terms of the selection, the highlighted set and the game state (a
   * board kept or replaced, the position, the history and the side to
   * move): the selected square deselects; an own piece takes over the
   * selection; an unhighlighted target deselects; a highlighted empty
   * square is movePiece's outcome and a highlighted enemy piece the
   * corrected capture's. An empty selected square leaves the selection as
   * it was. Only the last two touch the board, the history or the turn.
   */
  ghost predicate Dispatched(pos: Position, hist: History, c: Color, vsEngine: bool, sel: Option<Pos>, legal: set<Pos>, t: Pos,
                             kept: bool, pos': Position, hist': History, c': Color, sel': Option<Pos>, legal': set<Pos>)
  {
    && Ready(pos, hist, c, sel) && sel.Some? && InBounds(t)
    && if t == sel.value then sel' == None && legal' == {} && kept && pos' == pos && hist' == hist && c' == c
       else if pos.occupier[sel.value].None? then
         sel' == sel && legal' == legal && kept && pos' == pos && hist' == hist && c' == c
       else
         var i := pos.occupier[sel.value].value;
         if pos.occupier[t].Some? && pos.pieces[pos.occupier[t].value].color == pos.pieces[i].color then
           sel' == Some(t) && legal' == Destinations(pos, hist, t) && kept && pos' == pos && hist' == hist && c' == c
         else
           && sel' == None && legal' == {}
           && (t !in legal ==> kept && pos' == pos && hist' == hist && c' == c)
           && (t in legal && pos.occupier[t].None? ==> ManualOutcome(pos, hist, c, vsEngine, i, t, kept, pos', hist', c'))
           && (t in legal && pos.occupier[t].Some? ==> CaptureOutcome(pos, hist, c, vsEngine, i, t, kept, pos', hist', c'))
  }

  /**
   * The test movePiece makes inside capturePiece: once the record is pushed
   * and the clicked square cleared, the capturing piece is not the king and
   * its move to the landing square leaves c in check.
   */
  ghost predicate CaptureRefused(pos: Position, hist: History, i: nat, t: Pos, c: Color)
    requires CaptureOk(pos, hist, i, t, FindKing(c))
  {
    ClearForCapture(pos, hist, i, t, FindKing(c));
    var q := ClearSquare(pos, t);
    pos.pieces[i].kind != King
      && ManualExposes(q, hist + [CaptureRecord(pos, hist, i, t)], i, CaptureTarget(pos, hist, i, t), c)
  }

  /**
   * What switchPlayers leaves behind after c has moved into the position
   * pos with the history hist. A mate of the other side resets the game: a
   * new board (kept is false) at the starting position, white to move, the
   * history as it was. Otherwise the board object is kept and the turn
   * passes; when the engine plays black and white has just moved, black
   * plays one of the best moves makeBestMove chooses among, or nothing when
   * there is none, and white is to move again.
   */
  ghost predicate Passed(pos: Position, hist: History, c: Color, vsEngine: bool,
                         kept: bool, pos': Position, hist': History, c': Color)
  {
    && SearchOk(pos, hist)
    && if Checkmated(pos, hist, Other(c)) then !kept && IsStart(pos') && hist' == hist && c' == White
       else if c == Black || !vsEngine then kept && pos' == pos && hist' == hist && c' == Other(c)
       else
         && kept && c' == White
         && (RootTies(pos, hist, Black) == [] ==> pos' == pos && hist' == hist)
         && (RootTies(pos, hist, Black) != [] ==>
               exists p :: p in RootTies(pos, hist, Black) && MoveOk(pos, p)
                 && pos' == Make(pos, p) && hist' == hist + [Pushed(pos, p)])
  }

  /**
   * movePiece's outcome for piece i and the empty highlighted square t: a
   * piece other than the king whose move would expose c's king is refused
   * and nothing changes; otherwise the record is pushed, the ply is made as
   * makeMove makes it, and the turn passes.
   */
  ghost predicate ManualOutcome(pos: Position, hist: History, c: Color, vsEngine: bool, i: nat, t: Pos,
                                kept: bool, pos': Position, hist': History, c': Color)
    requires SearchOk(pos, hist) && i < |pos.pieces| && pos.pieces[i].square.Some?
    requires InBounds(t) && pos.occupier[t].None?
  {
    if pos.pieces[i].kind != King && ManualExposes(pos, hist, i, t, c) then
      kept && pos' == pos && hist' == hist && c' == c
    else
      ManualPlayable(pos, hist, i, t);
      Passed(Make(pos, ManualRecord(pos, i, t)), hist + [ManualRecord(pos, i, t)], c, vsEngine, kept, pos', hist', c')
  }

  /** A refused manual move is ManualOutcome's first case. */
  lemma ManualOutcomeRefused(pos: Position, hist: History, c: Color, vsEngine: bool, i: nat, t: Pos)
    requires SearchOk(pos, hist) && i < |pos.pieces| && pos.pieces[i].square.Some?
    requires InBounds(t) && pos.occupier[t].None?
    requires pos.pieces[i].kind != King && ManualExposes(pos, hist, i, t, c)
    ensures ManualOutcome(pos, hist, c, vsEngine, i, t, true, pos, hist, c)
  {
  }

  /** A manual move that is not refused and whose turn change is Passed is ManualOutcome's second case. */
  lemma ManualOutcomePlayed(pos: Position, hist: History, c: Color, vsEngine: bool, i: nat, t: Pos,
                            m: Move, kept: bool, pos': Position, hist': History, c': Color)
    requires SearchOk(pos, hist) && i < |pos.pieces| && pos.pieces[i].square.Some?
    requires InBounds(t) && pos.occupier[t].None?
    requires !(pos.pieces[i].kind != King && ManualExposes(pos, hist, i, t, c))
    requires m == ManualRecord(pos, i, t) && MoveOk(pos, m)
    requires Passed(Make(pos, m), hist + [m], c, vsEngine, kept, pos', hist', c')
    ensures ManualOutcome(pos, hist, c, vsEngine, i, t, kept, pos', hist', c')
  {
  }

  /**
   * The corrected capturePiece's outcome for piece i and the enemy piece on
   * the highlighted square t: a refused capture changes nothing; otherwise
   * the capture record is pushed, the captured piece leaves the board, the
   * capturing piece lands on the target and the turn passes.
   */
  ghost predicate CaptureOutcome(pos: Position, hist: History, c: Color, vsEngine: bool, i: nat, t: Pos,
                                 kept: bool, pos': Position, hist': History, c': Color)
    requires CaptureOk(pos, hist, i, t, FindKing(c))
  {
    if CaptureRefused(pos, hist, i, t, c) then kept && pos' == pos && hist' == hist && c' == c
    else
      ClearForCapture(pos, hist, i, t, FindKing(c));
      var q, h, target := ClearSquare(pos, t), hist + [CaptureRecord(pos, hist, i, t)], CaptureTarget(pos, hist, i, t);
      ManualPlayable(q, h, i, target);
      Passed(Make(q, ManualRecord(q, i, target)), h, c, vsEngine, kept, pos', hist', c')
  }

  /** A refused capture is CaptureOutcome's first case. */
  lemma CaptureOutcomeRefused(pos: Position, hist: History, c: Color, vsEngine: bool, i: nat, t: Pos)
    requires CaptureOk(pos, hist, i, t, FindKing(c)) && CaptureRefused(pos, hist, i, t, c)
    ensures CaptureOutcome(pos, hist, c, vsEngine, i, t, true, pos, hist, c)
  {
  }

  /** A capture that is not refused and whose turn change is Passed is CaptureOutcome's second case. */
  lemma CaptureOutcomePlayed(pos: Position, hist: History, c: Color, vsEngine: bool, i: nat, t: Pos,
                             q: Position, h: History, m: Move, kept: bool, pos': Position, hist': History, c': Color)
    requires CaptureOk(pos, hist, i, t, FindKing(c)) && !CaptureRefused(pos, hist, i, t, c)
    requires SquareOk(pos, t) && q == ClearSquare(pos, t) && h == hist + [CaptureRecord(pos, hist, i, t)]
    requires q.pieces[i].square.Some? && m == ManualRecord(q, i, CaptureTarget(pos, hist, i, t)) && MoveOk(q, m)
    requires Passed(Make(q, m), h, c, vsEngine, kept, pos', hist', c')
    ensures CaptureOutcome(pos, hist, c, vsEngine, i, t, kept, pos', hist', c')
  {
  }
}

=== FILE: wrappers.dfy ===
/** The Some/None datatype used where the source uses a possibly-null pointer. */
module Wrappers {
  datatype Option<+T> = None | Some(value: T)
}
